=== FILE: README.md ===
# sylkrtc signalling client, modelled in Dafny

This project models the core of sylkrtc.js, the browser library that talks to a
SylkServer over a WebSocket. It covers:

- **the signalling connection** (`Channel`). This is the connection's state machine, its reconnect back-off, the transaction table of pending requests, and how incoming messages are routed to accounts and sessions.
- **accounts** (`Accounts`). Binding and unbinding, placing calls, and routing incoming calls.
- **one-to-one calls** (`Calls`). Outgoing and incoming set-up, answer, terminate, and the call state events.
- **video-room conferences** (`Conferences`). Joining, publishers appearing and leaving, participants and their own peer connections, invitations, room configuration and termination.
- **chat messages** (`Messages`). Construction from the wire form, the two state axes, and the JSON form with its inverse.
- **the addressbook** (`Addressbook`). Contacts, policies, groups and group members.
- **the SDP helpers** (`Sdp`). The H264 fmtp fix-up, the guard of `createLocalSdp`, and `getUserMedia`.
- **the PGP glue** (`Pgp`). The public-key cache, the server key lookup, encrypt and export, and the armour split of the private-key import.
- **the statistics monitor** (`Statistics`). The peer/connection table, adding and removing connections and peers, and the stats filter.

Every object becomes an immutable datatype. Every method becomes a function
from a state and an input to a new state and a list of effects: requests sent,
events emitted, timers armed, browser work started, and callbacks invoked.

Asynchronous work is modelled in two steps. The step that starts it emits a
`Start(...)` or `Send(..., callback)` effect. Its completion comes back as a
separate input: `Resume` for browser promises, and `OnReply`/`Complete` for
server replies. Timers are `ArmTimer` effects, and a timer firing is an input
step.

Anything the library takes from outside is a function parameter:

- md5 and HTML sanitising;
- the uuids of calls, conference participants, messages and statistics connections (transaction ids are a counter instead; see "## Left out");
- the openpgp encrypt and decrypt calls;
- the test for whether a peer connection is closed.

Shared helpers:

- `Common` holds `Option`/`Result`, the JSON values, and JavaScript truthiness.
- `Text` holds substring search, case-insensitive matching and trimming.
- `KeyedMaps` holds building a map from a list of pairs.

## Model

| member | source | states |
|---|---|---|
| Calls.New | lib/call.js:13-22 | a fresh call belongs to its account and has no id, no state, no peer connection, and is not terminated |
| Calls.InitOutgoing | lib/call.js:124-172 | a target without `@` is refused; a second peer connection is refused; otherwise the call gets the fresh id, becomes outgoing, owns a peer connection and starts the offer set-up |
| Calls.InitIncoming | lib/call.js:174-179 | an incoming call records the session id and the remote SDP, is in state `incoming`, and keeps everything else |
| Calls.InitPeerConnection | lib/call.js:223-226 | a call can own at most one peer connection; asking for a second one fails |
| Calls.OnIceCandidate | lib/call.js:234-245 | each local candidate becomes exactly one `trickle` request, sent with no reply handler, naming the call's session and listing that one candidate; the end-of-candidates marker lists none (built at lib/call.js:326-333); the call is unchanged |
| Common.TrickleCandidates | lib/call.js:326-333 | the candidate list holds the one candidate, and is empty exactly for the end-of-candidates `null` |
| Calls.Answer | lib/call.js:56-112 | only an `incoming` call without a peer connection can be answered; the answer starts from the stored remote SDP, and every other state gives an error naming that state |
| Calls.Terminate | lib/call.js:114-120 | a terminated call sends nothing; otherwise one terminate request goes out whose reply is awaited; the call itself is untouched |
| Calls.LocalTerminate | lib/call.js:364-377 | terminating locally happens at most once: an already terminated call is left alone, otherwise the call is marked terminated and reports `terminated` with the reason |
| Calls.HandleEvent | lib/call.js:181-221 | a state event always becomes the call's state; `accepted` starts applying the remote answer instead of announcing the state; `terminated` sets the terminated flag, announces the state with its reason and closes the peer connection, without a local termination (the call stays in the account) |
| Calls.Resume | lib/call.js:294-348 | how each completion ends: a failed offer set-up terminates locally, a failed answer terminates remotely, an applied answer announces `accepted`, and the reply to a terminate marks the call terminated |
| Calls.TerminatedIsSetOnce | lib/call.js:311-324 | once a call is terminated, no operation makes it un-terminated |
| Calls.LocalTerminateIdempotent | lib/call.js:364-369 | a second local termination, with any reason, changes nothing and emits nothing |
| Calls.AcceptedOnlyAfterAnswerApplied | lib/call.js:190-216 | `accepted` is never announced straight from a server event; it is announced exactly when the remote answer has been applied |
| Calls.AnswerOnce | lib/call.js:56-67 | a call that has been answered cannot be answered again |
| Calls.OutgoingRequestsNameSession | lib/call.js:294-304 | after an outgoing set-up, the `call` request carries the account, the fresh session id, the target uri and the offer, and every trickle request names that session |
| Calls.IncomingCanBeAnswered | lib/call.js:335-348 | a call stored by an incoming event can be answered on its stored offer, and the `answer` request and every trickle request name its session |
| Accounts.IdentitySplit | lib/account.js:18-19 | the username (the text before the first `@`) and the domain put back together give the account id |
| Accounts.New | lib/account.js:13-26 | an id without `@` is refused; otherwise the account starts unbound and unregistered with no calls, and its credential is the md5 digest of `username:domain:password` |
| Accounts.Bind | lib/account.js:36-57 | a bound account sends nothing; an unbound one sends a single `bind` request carrying the id and password; the account only changes when the reply arrives |
| Accounts.Unbind | lib/account.js:59-78 | an unbound account sends nothing; a bound one sends a single `unbind` request |
| Accounts.Resume | lib/account.js:46-77 | a successful bind reply makes the account bound; a failed one sets the registration state to `failed` and reports it; an unbind reply, whatever its outcome, unbinds the account and clears its registration state |
| Accounts.PlaceCall | lib/account.js:80-86 | a call to a target without `@` fails; otherwise the new outgoing call is stored under its fresh id |
| Accounts.HandleEvent | lib/account.js:90-108 | a registration event sets the registration state; an incoming call is stored under its session id and announced; other events are ignored |
| Accounts.CallEvent | lib/connection.js:283-291 | an event for a session changes only that session's call |
| Accounts.DropCall | lib/call.js:368 | dropping a call removes exactly that session and keeps all other calls and account fields |
| Accounts.DropConference | lib/conference.js:618 | dropping a conference removes exactly that session from the account's conference set |
| Accounts.BindUnbindCycle | lib/account.js:36-78 | bind followed by unbind, each confirmed by the server, returns an unbound account |
| Accounts.DropCallIdempotent | lib/call.js:364-368 | dropping the same call twice is the same as dropping it once |
| Accounts.PlacedCallRoundTrip | lib/account.js:80-86 | a placed call is stored under its fresh id, so session events of that id reach it; dropping it afterwards gives back the account as before the call |
| Accounts.IncomingCallRoundTrip | lib/account.js:99-104 | a call stored by `incoming_call` can be answered on the offer the event carried; dropping it gives back the account as before the event |
| Channel.New | lib/connection.js:50-63 | a connection needs a truthy server; it starts in no state, not closed, with no accounts, no pending requests and the initial 500 ms delay |
| Channel.SetState | lib/connection.js:217-222 | the connection takes the new state and reports one change from the old state to the new one |
| Channel.Initialize | lib/connection.js:155-180 | initialising a connection that has a socket or a pending timer fails; otherwise it arms the reconnect timer with the current delay |
| Channel.Connect | lib/connection.js:182-202 | connecting opens a socket to the configured server and moves the state to `connecting` |
| Channel.OnOpen | lib/connection.js:226-231 | an open socket clears the timer, resets the delay to 500 ms and moves the state to `connected` |
| Channel.OnClose | lib/connection.js:233-256 | a closing socket forgets every account and keeps pending requests; unless the connection was closed on purpose it becomes `disconnected`, backs off and re-arms the timer; otherwise it settles in `closed` with nothing scheduled |
| Channel.Close | lib/connection.js:69-86 | closing is done once: an already closed connection is left alone; otherwise a pending reconnect is cancelled, the socket closed (or the `closed` state deferred when there is none) and the connection marked closed |
| Channel.FireClosed | lib/connection.js:82-84 | when closing finishes the connection is closed, nothing else changes, and one state change from the previous state to closed is reported |
| Channel.Reconnect | lib/connection.js:143-151 | reconnecting is only possible while disconnected; it resets the delay to 500 ms and re-arms the timer with it |
| Channel.SendRequest | lib/connection.js:204-215 | every request uses a fresh transaction number; it is sent and remembered only when the connection is ready, otherwise the caller is told it is not ready |
| Channel.Complete | lib/connection.js:107-139 | a failed account add removes the account again; other replies leave the connection alone; a caller's callback gets the reply's error |
| Channel.FireNotReady | lib/connection.js:208-210 | the not-ready error reaches the callback; without a callback it is a TypeError |
| Channel.AddRequest | lib/connection.js:100-106 | the `account-add` request carries exactly the account id and the user agent: the password and display name are undefined and dropped by serialisation |
| Channel.AddAccount | lib/connection.js:88-117 | missing account or password is refused; a duplicate id is refused; otherwise the account is appended and an add request is sent |
| Channel.RemoveAccount | lib/connection.js:119-141 | only an account the connection holds can be removed; it is removed from the list and a remove request is sent |
| Channel.OnMessage | lib/connection.js:258-318 | `ready` moves the state to `ready`; account events go to the matching account only; a videoroom event goes, unchanged, to the first account (in registration order) whose conference set holds its session, and to nothing when none does, with the connection unchanged; replies resolve their own transaction; a message of any other kind changes nothing and emits nothing |
| Channel.Resolve | lib/connection.js:301-316 | a reply for an unknown transaction is ignored; a known one is forgotten before its callback runs |
| Channel.SessionEventRouting | lib/connection.js:283-291 | a session event reaches the account that holds that call, and only that account changes |
| Channel.SendRequestFresh | lib/connection.js:205-214 | the transaction number of a new request is never already pending, and the request table keeps its invariant |
| Channel.ReplyResolvesOnce | lib/connection.js:301-308 | a second reply to the same transaction has no effect |
| Channel.ValidOnMessage | lib/connection.js:258-318 | routing a message keeps account ids unique and transaction numbers below the counter |
| Channel.ValidLifecycle | lib/connection.js:226-256 | open, close, reconnect and connect all keep the connection's invariant, including a back-off delay in range |
| Channel.ValidRequests | lib/connection.js:204-215 | sending a request, or failing it because the connection is not ready, keeps the invariant |
| Channel.ValidComplete | lib/connection.js:107-115 | completing a reply keeps the invariant |
| Channel.AddAccountValid | lib/connection.js:92-98 | adding an account keeps account ids unique |
| Channel.RemoveAccountValid | lib/connection.js:119-141 | removing an account keeps the connection's invariant: unique account ids and pending transactions below the counter |
| Channel.AddAccountBeforeReadyUndone | lib/connection.js:96-111 | an account added before the connection is ready is removed again by the not-ready reply, leaving the account list as it was |
| Channel.CloseIdempotent | lib/connection.js:69-73 | closing a connection twice is the same as closing it once |
| Channel.ClosedChannelStaysDown | lib/connection.js:244-255 | after an intentional close, the socket's close event never arms the reconnect timer and leaves the connection `closed` |
| Channel.BackoffStaysInRange | lib/connection.js:244-248 | the reconnect delay stays a power-of-two multiple of 500 ms between 500 ms and 64 s |
| Channel.BackoffCycle | lib/connection.js:15-17 | repeated back-off from 500 ms cycles through 500 · 2^(n mod 8): the delay wraps back to 500 ms after 64 s instead of staying there |
| Channel.OnCloseBacksOff | lib/connection.js:244-252 | an unexpected close advances the delay by exactly one back-off step and keeps it in range |
| Conferences.NewParticipant | lib/conference.js:13-25 | a participant starts with no state, no peer connection and video not paused, and keeps its ids and identity |
| Conferences.Attach | lib/conference.js:60-66 | attaching happens once: a participant with a state is unchanged; otherwise it moves to `progress`, reports that, and sends one `feed-attach` control request of the conference naming the participant's session and its publisher, whose reply is only logged |
| Conferences.Detach | lib/conference.js:68-72 | an unattached participant sends nothing; an attached one sends one `feed-detach` control request of the conference naming the participant's session, whose reply closes it; the participant itself is unchanged |
| Conferences.SetVideoPaused | lib/conference.js:74-82 | pausing or resuming video records the flag and sends an update asking for the opposite video setting |
| Conferences.SetParticipantState | lib/conference.js:84-89 | the participant takes the new state and reports one change from the old state to the new one |
| Conferences.CloseParticipant | lib/conference.js:218-231 | closing a participant drops its peer connection and clears its state, and does nothing when it has no peer connection |
| Conferences.HandleOffer | lib/conference.js:91-131 | a feed offer gives the participant a new peer connection and starts answering that offer |
| Conferences.ParticipantIceCandidate | lib/conference.js:170-181 | a participant's candidate becomes one trickle request for that participant's session; the end marker sends an empty list |
| Conferences.ParticipantLifecycle | lib/conference.js:60-89 | every participant operation keeps the state within `null`, `progress` and `established`; attach moves an unattached participant to `progress` and leaves an attached one alone; closing a participant with a peer connection clears its state; detaching, pausing video and a feed offer leave the state alone, and a feed offer gives a peer connection |
| Conferences.New | lib/conference.js:236-248 | a fresh conference has no id, no peer connection, no participants and no active speakers, and is not terminated |
| Conferences.Participants | lib/conference.js:275-277 | the participants are exactly the distinct objects stored under some key, counted once even though each is stored twice |
| Conferences.Initialize | lib/conference.js:357-405 | joining twice, a room uri without `@`, or no local stream is refused; otherwise the conference gets its id and peer connection and starts the offer |
| Conferences.InviteParticipants | lib/conference.js:336-353 | a terminated conference, a non-array or an empty list sends nothing; otherwise one invite request carrying the list is sent |
| Conferences.ConfigureRoom | lib/conference.js:321-326 | a non-array list is ignored; otherwise one configure request goes out whose reply reaches the callback |
| Conferences.OnIceCandidate | lib/conference.js:578-588 | each local candidate becomes exactly one `videoroom-ctl` request with option `trickle`, sent without a callback, naming the conference session and listing that one candidate; the end marker lists none |
| Conferences.Terminate | lib/conference.js:328-334 | a terminated conference sends nothing; otherwise one terminate request goes out and the fallback timer is armed |
| Conferences.Close | lib/conference.js:594-611 | closing drops the conference's peer connection, closes each participant exactly once and replaces the participant table, keeping all other fields |
| Conferences.LocalTerminate | lib/conference.js:613-627 | a conference terminates locally at most once; the first time it is closed, marked terminated and dropped from the account |
| Conferences.TerminateTimerFired | lib/conference.js:569-575 | when the fallback timer fires the conference ends up terminated, whether or not the server answered |
| Conferences.InviteTimerFired | lib/conference.js:427-429 | the 50 ms timer invites the initial participants, under the same guards as `inviteParticipants` |
| Conferences.JoinPublisher | lib/conference.js:449-453 | a new publisher becomes one participant stored under both its own id and the publisher id, with a fresh reference |
| Conferences.JoinAll | lib/conference.js:447-463 | joining n publishers takes n fresh references and changes nothing but the participant tables; each join is announced only when asked |
| Conferences.LeavePublisher | lib/conference.js:465-472 | an unknown publisher is ignored; a known one is unlinked under both of its keys and announced as left, and it is not closed |
| Conferences.LeaveAll | lib/conference.js:464-473 | publishers leaving only ever removes keys |
| Conferences.FilterActive | lib/conference.js:499-511 | the active-speaker list keeps only known participants and the conference itself, in the order given |
| Conferences.OriginatorOf | lib/conference.js:489-497 | a message's originator is the participant it names, else the conference itself when the id is ours, else the videoroom when the id is literally `videoroom`, and unknown (`undefined`) for any other id |
| Conferences.HandleEvent | lib/conference.js:407-519 | a state event becomes the state; `accepted` applies the answer; `terminated` terminates; publisher events join or leave; feed events reach the matching participant, and none do once the table is replaced |
| Conferences.OnParticipant | lib/conference.js:60-82 | an operation on one participant changes only that participant |
| Conferences.Resume | lib/conference.js:397-437 | a failed offer terminates locally; a created offer sends one `videoroom-join` request carrying the account, the session, the room uri and the offer (lib/conference.js:542-549); an applied answer announces `accepted` and arms the invite timer when there are initial participants; a failed answer terminates remotely; a participant's created answer goes out as a `feed-answer` naming the participant's session and carrying the answer (lib/conference.js:183-192), and a failed one closes the participant |
| Conferences.OnReply | lib/conference.js:521-568 | a join or terminate error terminates locally; a detach reply closes the participant; an answer error closes it; log-only replies change nothing |
| Conferences.JoinStoresTwice | lib/conference.js:447-453 | after a join, both the session uuid and the publisher id lead to the same new participant, and the tables stay well-formed |
| Conferences.LeaveRemovesBoth | lib/conference.js:464-473 | after a publisher leaves, neither of its two keys is left in the table |
| Conferences.FilterActiveAppend | lib/conference.js:499-511 | filtering a list is filtering its parts and concatenating the results |
| Conferences.FilterActiveSingle | lib/conference.js:499-511 | one id is kept exactly when it is a known participant or the conference's own id |
| Conferences.JoinAllWellformed | lib/conference.js:455-463 | joining publishers keeps every key pointing at a participant that carries that key |
| Conferences.LeaveAllWellformed | lib/conference.js:464-473 | publishers leaving keeps the tables well-formed |
| Conferences.HandleEventWellformed | lib/conference.js:407-519 | every server event keeps the tables well-formed |
| Conferences.HandleEventLifecycle | lib/conference.js:447-485 | every server event keeps every participant's state within `null`, `progress` and `established` |
| Conferences.TerminationGuards | lib/conference.js:613-627 | after a local termination, terminating again, inviting or terminating remotely does nothing |
| Conferences.ServerTerminationIsFinal | lib/conference.js:439-443 | a `terminated` event from the server leaves the conference terminated |
| Conferences.InitializeOnce | lib/conference.js:357-360 | after a successful `_initialize`, a second one is refused whatever its arguments |
| Conferences.JoinAfterInitialize | lib/conference.js:542-556 | after `_initialize`, the join request names the account, the fresh session and the room uri; an error reply to it terminates locally and a success changes nothing; trickle requests name the same session |
| Conferences.ConfigureErrorReachesCallback | lib/conference.js:321-326 | a `configure-room` error reaches the caller's callback, and a success reply reports nothing |
| Conferences.FeedOfferAnswered | lib/conference.js:474-485 | a feed offer for a known participant gives it a peer connection; its answer goes out as `feed-answer` for that participant, a failure closes it, and `feed_established` marks it established |
| Conferences.InitialParticipantsInvited | lib/conference.js:420-431 | once accepted, the invite timer is armed exactly when there are initial participants, its firing invites them, and it does nothing after a termination |
| Messages.New | lib/message.js:11-28 | a message takes the server's id or else a fresh uuid; the content type and receiver fall back as in the source; HTML content is sanitised and nothing else is |
| Messages.SetState | lib/message.js:90-95 | setting the state changes only the state and reports old and new |
| Messages.SetDispositionState | lib/message.js:97-102 | setting the disposition state changes only that field and reports old and new |
| Messages.ToJson | lib/message.js:74-88 | the JSON form is an object with exactly the serialised fields |
| Messages.JsonRoundTrip | lib/message.js:74-88 | reading back the JSON form of a message gives the same message |
| Messages.StateAxesIndependent | lib/message.js:90-102 | the two state setters commute, and each changes only its own key of the JSON form |
| Messages.SanitisedOnlyForHtml | lib/message.js:14-27 | content whose HTML type comes only from the fallback field is kept unsanitised, though the message reports itself as HTML |
| Sdp.H264Payload | lib/utils.js:75-80 | the payload found is that of the first H264 entry, and there is one exactly when some entry is H264 |
| Sdp.FixupMedia | lib/utils.js:81-91 | the fixed line is appended only when no fmtp line of that payload names `profile-level-id`; afterwards one always does |
| Sdp.Fixup | lib/utils.js:68-96 | the fix-up never changes the number of sections, their kind or their rtp entries |
| Sdp.FixupSdp | lib/utils.js:68-96 | the loop computes the fix-up and leaves non-video and non-candidate sections as they were |
| Sdp.OnlyFirstCandidate | lib/utils.js:73-93 | only the first video section with H264 is fixed; every other section is unchanged |
| Sdp.FixupIdempotent | lib/utils.js:68-96 | fixing up an already fixed SDP changes nothing |
| Sdp.CreateLocalSdpKind | lib/utils.js:30-33 | only `offer` and `answer` are accepted, and the rejection names the value given |
| Sdp.CompleteLocalSdp | lib/utils.js:34-64 | a created description is fixed up; each failing browser step gives its own rejection text |
| Sdp.GetUserMedia | lib/utils.js:7-10 | a stream already given is used as it is; only without one is the browser asked |
| Sdp.UserMediaFailure | lib/utils.js:20-22 | the rejection reason ends in the unfilled `%s` placeholder |
| Sdp.UserMediaErrorDropped | lib/utils.js:20-22 | the rejection reason is the same whatever error the browser gave |
| Pgp.New | lib/pgp.js:13-19 | falsy armoured keys are not kept, and the key cache starts empty |
| Pgp.AddPublicKeys | lib/pgp.js:44-49 | adding keys adds exactly their contacts to the cache and reports each key added |
| Pgp.AddPublicKeysBinding | lib/pgp.js:44-49 | after adding, a contact maps to the last key given for it, or keeps its earlier key |
| Pgp.LookupPublicKey | lib/pgp.js:228-241 | a cached key is answered at once; otherwise the server is asked |
| Pgp.OnServerKey | lib/pgp.js:233-237 | the server's key is cached under its uri and reported |
| Pgp.ServerKeyIsCached | lib/pgp.js:228-241 | after the server sends a key, looking it up again needs no server round trip |
| Pgp.EncryptMessage | lib/pgp.js:122-145 | a message is encrypted for both keys when there is a recipient key and encryption succeeds, and sent in clear otherwise |
| Pgp.EncryptThroughCache | lib/pgp.js:127-144 | encrypting for a cached contact uses the cached key without asking the server |
| Pgp.ExportKeys | lib/pgp.js:78-93 | the export encrypts the trimmed private key and returns it with the public key; a failure gives an empty result |
| Pgp.ExportWithoutPrivateKey | lib/pgp.js:80 | without a private key, what gets encrypted is the text `null` |
| Pgp.SplitArmour | lib/pgp.js:96-103 | the split exists exactly when there is a key block; the pieces put back together give the input, and the block runs from the last begin marker before the last end marker |
| Pgp.DecryptKeyImport | lib/pgp.js:95-120 | content without a key block is a TypeError; otherwise only the block is decrypted and put back between the same surrounding text |
| Pgp.ImportReplacesOnlyTheBlock | lib/pgp.js:105-113 | when decryption gives the block back, the imported content equals the original |
| Pgp.DecryptMessage | lib/pgp.js:208-226 | a message is shown decrypted exactly when the worker answered with a result, and unchanged otherwise |
| Pgp.EncryptDecryptRoundTrip | lib/pgp.js:122-226 | when the peer's decryption inverts the encryption for the two keys, a message encrypted to a cached key reads back as the original content, and one sent in clear arrives unchanged |
| Statistics.New | lib/statistics.js:16-44 | a new monitor watches no peers and is not polling |
| Statistics.NumberOfMonitoredPeers | lib/statistics.js:47-49 | the count is the number of distinct peers watched |
| Statistics.CheckAddArguments | lib/statistics.js:57-63 | a connection can be added only with a peer connection and a truthy peer id |
| Statistics.MonitorPc | lib/statistics.js:169-207 | a connection is recorded under its peer exactly once, the peer is appended to the order when new, and polling starts with the first peer; for a known peer it reads `_connectionsToMonitor` where line 191 reads the undefined `peersToMonitor` |
| Statistics.AddConnectionAsWritten | lib/statistics.js:51-105 | the add succeeds only for a peer not yet watched; any second connection for a watched peer is refused |
| Statistics.SecondConnectionRejected | lib/statistics.js:65-79 | adding a second connection for a watched peer fails |
| Statistics.AddConnection | lib/statistics.js:51-105 | with the checks as intended, a known connection id or peer connection is refused; otherwise the peer keeps exactly its open connections, unchanged, plus the new id, whose entry is the new connection unless an open connection already holds that id; other peers are untouched |
| Statistics.SecondConnectionAdded | lib/statistics.js:65-81 | with the intended checks, a second connection for a watched peer is recorded next to the first |
| Statistics.ClosedConnectionDropped | lib/statistics.js:75-78 | a connection whose peer connection has closed is dropped when another is added for its peer, and an open one stays |
| Statistics.AddConnectionValid | lib/statistics.js:190-206 | adding keeps every watched peer in the order exactly once; an already polling monitor starts nothing new |
| Statistics.RemoveConnection | lib/statistics.js:107-151 | no arguments gives the missing-arguments error, and a peer without a pc or a pc without a peer the other one; with a peer and a pc but no id, an unmonitored peer gives the error of `Object.values(undefined)` and changes nothing, and a monitored one loses exactly its connections on that pc, is dropped exactly when none are left, and every other peer is kept; an id is deleted from every peer and nothing else is deleted from any peer's connections; every peer other than the one checked is kept; the checked peer (the last holder of the id, else the peer given) is dropped exactly when it has no other connections, and an unmonitored checked peer gives the error of `Object.values(undefined)` |
| Statistics.CheckedPeer | lib/statistics.js:117-147 | with a connection id held by some peer, the peer checked for emptiness at the end is one that held the id; otherwise it is the `peerId` argument as a property key (`undefined` when absent) |
| Statistics.RemoveByPc | lib/statistics.js:131-150 | removing by peer and pc keeps exactly that peer's other connections |
| Statistics.RemoveConnectionValid | lib/statistics.js:107-151 | removing a connection keeps the monitor's invariant |
| Statistics.RemoveConnectionAsWritten | lib/statistics.js:117-128 | removing by connection id through anything but a peer connection throws at the first peer holding the id when its listeners are registered, leaving the monitor unchanged; in every other case (no id, a peer connection given, the listeners not registered, an argument error, or no peer holding the id) it is the corrected removal |
| Statistics.RemoveByIdOnlyThrows | lib/statistics.js:117-128 | a connection added by `addConnection` and removed by its id alone makes the removal throw and stays monitored, where the corrected removal deletes it |
| Statistics.AddThenRemoveById | lib/statistics.js:107-151 | adding a connection for a new peer under an id no other peer holds, then removing that id, gives back the peers and their order |
| Statistics.RemovePeerAsWritten | lib/statistics.js:153-167 | a peer that has connections is never removed, and the removal reports an error |
| Statistics.RemovePeerKeepsMonitoredPeer | lib/statistics.js:159-160 | a peer with a connection stays watched after removePeer |
| Statistics.RemovePeer | lib/statistics.js:153-167 | as intended, removing a peer deletes exactly that peer |
| Statistics.AddThenRemovePeer | lib/statistics.js:153-167 | adding a connection for a new peer and then removing the peer gives back the earlier peer table and order |
| Statistics.RemovePeerValid | lib/statistics.js:153-167 | removing a peer keeps the monitor's invariant |
| Statistics.KeepMonitored | lib/statistics.js:347-357 | a report keeps exactly the entries of the monitored kinds |
| Statistics.FilterOutStats | lib/statistics.js:347-357 | the loop keeps exactly the entries of the monitored kinds, in order |
| Addressbook.New | lib/addressbook.js:10-16 | a new addressbook has no contacts, policies or groups |
| Addressbook.StoreContact | lib/addressbook.js:35-49 | a missing contact is ignored; otherwise it is stored under its id and the change is handed to `_applyToAllAccounts` |
| Addressbook.DeleteContact | lib/addressbook.js:51-57 | deleting removes only that contact id, and the deletion is handed to `_applyToAllAccounts` |
| Addressbook.StorePolicy | lib/addressbook.js:64-78 | a missing policy is ignored; otherwise it is stored under its id and handed to `_applyToAllAccounts` |
| Addressbook.DeletePolicy | lib/addressbook.js:80-86 | deleting removes only that policy id |
| Addressbook.StoreGroup | lib/addressbook.js:93-107 | a missing group is ignored; otherwise it is stored under its id and handed to `_applyToAllAccounts` |
| Addressbook.DeleteGroup | lib/addressbook.js:109-115 | deleting removes only that group id |
| Addressbook.AddGroupMemberAsWritten | lib/addressbook.js:117-124 | whenever both the group and the contact exist, the call throws and nothing changes |
| Addressbook.MemberNeverAdded | lib/addressbook.js:120-121 | adding a stored contact to a stored group fails |
| Addressbook.AddGroupMember | lib/addressbook.js:117-124 | as intended, the contact is appended to the group's members and the change is handed to `_applyToAllAccounts`; otherwise nothing happens |
| Addressbook.AddThenDeleteGroupMember | lib/addressbook.js:117-135 | adding a member who was not in the group and then deleting it gives back the addressbook |
| Addressbook.DeleteGroupMember | lib/addressbook.js:126-135 | deleting a member removes the first entry with that id from the group and leaves the rest |
| Addressbook.DeleteGroupMemberRemovesOne | lib/addressbook.js:126-135 | deleting a present member shortens the group by one and removes exactly one occurrence |
| Addressbook.Load | lib/addressbook.js:137-147 | loading adds exactly the ids of the given lists to each collection |
| Addressbook.LoadBindings | lib/addressbook.js:137-147 | after loading, each contact, policy and group id holds the last loaded item with that id, or keeps its earlier value when the data does not mention it |
| Addressbook.GetAsWritten | lib/addressbook.js:30-33 | every lookup of a stored id throws; only unknown ids give an answer |
| Addressbook.AddedContactUnreadable | lib/addressbook.js:30-33 | a contact just stored cannot be read back |
| Addressbook.Get | lib/addressbook.js:30-33 | as intended, a lookup finds exactly the stored entries |
| Addressbook.StoreGetDelete | lib/addressbook.js:30-115 | a stored contact, policy or group reads back as stored, and after deletion it is gone |
| Addressbook.AddThenDeleteContact | lib/addressbook.js:35-57 | adding a new contact and deleting it gives back the addressbook |
| Addressbook.OnlyOwnCollection | lib/addressbook.js:35-135 | each operation changes only its own collection |
| Addressbook.DeleteIdempotent | lib/addressbook.js:51-115 | deleting twice is the same as deleting once |

## Left out

- **WebSocket, page and browser environment.** The WebSocket, the `beforeunload` hook and the user agent are not modelled. Opening or closing a socket is an effect, and socket events are inputs.
- **Timers.** `setTimeout` and `setInterval` are `ArmTimer` effects, and a timer firing is an input step. Wall-clock time is not modelled.
- **Browser media objects.** RTCPeerConnection, rtcninja, media streams, `scaleLocalTrack` and `getLocalStreams` appear only as flags and effects. The "is this peer connection closed" test is a parameter.
- **Event emission.** The EventEmitter is modelled as the emitted events in the effect list. Listener registration and dispatch are not modelled.
- **Foreign libraries.** md5, the openpgp library, the pgp worker, sdp-transform parsing and writing, and the HTML sanitiser are function parameters or left out. The fix-up works on the parsed form of the SDP.
- **PGP operations not modelled:** `generatePGPKeys`, `encryptFile`, `decryptFile` and `terminateWorker` are browser and worker I/O. The parsing of armoured keys in the `Pgp` constructor is also left out.
- **Statistics not modelled:**
  - the `getStats` polling and report parsing (lib/statistics.js:274-345);
  - the statistics listeners (lib/statistics.js:472 onwards);
  - the polling interval stopping itself on an empty tick (lib/statistics.js:217-219).
- **Addressbook not modelled:**
  - `_applyToAllAccounts` (lib/addressbook.js:177-187): it is modelled as one `ApplyToAllAccounts` effect. As written it reaches no account (see the lines below).
  - `_update` (lib/addressbook.js:161-175): it reads a `data` that is never defined.
  - the emit of `_load`.
  - the list getters (lib/addressbook.js:18-28): they call a serialiser that is not defined.
- Addressbook.StoreContact: as written `_applyToAllAccounts` (lib/addressbook.js:179-180) iterates the Map `_accounts` (lib/connection.js:61) as `[id, account]` pairs and calls `_updateAddressbook` on each pair, which lib/account.js does not define either, so once the connection holds an account the change is applied to the local collection and then a TypeError is thrown; without a connection `addressbookDataUpdateFailed` is emitted with "No connection" (line 185). The model emits one ApplyToAllAccounts effect instead.
- Addressbook.DeleteContact: as written `_applyToAllAccounts` (lib/addressbook.js:179-180) iterates the Map `_accounts` (lib/connection.js:61) as `[id, account]` pairs and calls `_updateAddressbook` on each pair, which lib/account.js does not define either, so once the connection holds an account the change is applied to the local collection and then a TypeError is thrown; without a connection `addressbookDataUpdateFailed` is emitted with "No connection" (line 185). The model emits one ApplyToAllAccounts effect instead.
- Addressbook.StorePolicy: as written `_applyToAllAccounts` (lib/addressbook.js:179-180) iterates the Map `_accounts` (lib/connection.js:61) as `[id, account]` pairs and calls `_updateAddressbook` on each pair, which lib/account.js does not define either, so once the connection holds an account the change is applied to the local collection and then a TypeError is thrown; without a connection `addressbookDataUpdateFailed` is emitted with "No connection" (line 185). The model emits one ApplyToAllAccounts effect instead.
- Addressbook.DeletePolicy: as written `_applyToAllAccounts` (lib/addressbook.js:179-180) iterates the Map `_accounts` (lib/connection.js:61) as `[id, account]` pairs and calls `_updateAddressbook` on each pair, which lib/account.js does not define either, so once the connection holds an account the change is applied to the local collection and then a TypeError is thrown; without a connection `addressbookDataUpdateFailed` is emitted with "No connection" (line 185). The model emits one ApplyToAllAccounts effect instead.
- Addressbook.StoreGroup: as written `_applyToAllAccounts` (lib/addressbook.js:179-180) iterates the Map `_accounts` (lib/connection.js:61) as `[id, account]` pairs and calls `_updateAddressbook` on each pair, which lib/account.js does not define either, so once the connection holds an account the change is applied to the local collection and then a TypeError is thrown; without a connection `addressbookDataUpdateFailed` is emitted with "No connection" (line 185). The model emits one ApplyToAllAccounts effect instead.
- Addressbook.DeleteGroup: as written `_applyToAllAccounts` (lib/addressbook.js:179-180) iterates the Map `_accounts` (lib/connection.js:61) as `[id, account]` pairs and calls `_updateAddressbook` on each pair, which lib/account.js does not define either, so once the connection holds an account the change is applied to the local collection and then a TypeError is thrown; without a connection `addressbookDataUpdateFailed` is emitted with "No connection" (line 185). The model emits one ApplyToAllAccounts effect instead.
- Addressbook.AddGroupMember: as written `_applyToAllAccounts` (lib/addressbook.js:179-180) iterates the Map `_accounts` (lib/connection.js:61) as `[id, account]` pairs and calls `_updateAddressbook` on each pair, which lib/account.js does not define either, so once the connection holds an account the change is applied to the local collection and then a TypeError is thrown; without a connection `addressbookDataUpdateFailed` is emitted with "No connection" (line 185). The model emits one ApplyToAllAccounts effect instead.
- Addressbook.DeleteGroupMember: as written `_applyToAllAccounts` (lib/addressbook.js:179-180) iterates the Map `_accounts` (lib/connection.js:61) as `[id, account]` pairs and calls `_updateAddressbook` on each pair, which lib/account.js does not define either, so once the connection holds an account the change is applied to the local collection and then a TypeError is thrown; without a connection `addressbookDataUpdateFailed` is emitted with "No connection" (line 185). The model emits one ApplyToAllAccounts effect instead.
- Channel.SendRequest: transaction ids are a counter (`nextTransaction`) instead of `uuid.v4()` (lib/connection.js:205), so their freshness (Channel.SendRequestFresh, and the transaction clause of the connection's invariant) holds by construction; with random uuids the source has no such guarantee.
- Parsing dates of messages: timestamps are opaque values.
- **Collapsed promise chains.** Promise chains inside one browser step are collapsed: a step either completes or fails with a reason.
- Channel.BackoffCycle: the reconnect delay doubles and wraps back to 500 ms after 64 s; it is never held at 64 s. The model follows the code.
- Calls.Resume: a call has no 150 ms fallback timer after a terminate request. Only a conference arms one, and the model follows the code.
- Calls.LocalTerminate: local termination does not change the call's `_state`, in calls and in conferences. The model follows the code.
- Accounts.New: the connection builds an account from its options object (lib/connection.js:96), while the constructor takes an id and a password (lib/account.js:13). The model passes the options' account and password.
- Accounts.Bind: the account's `_connection` is set to `null` (lib/account.js:23) and never assigned, so as written `bind`, `unbind` and every other request of an account throw at lib/account.js:111. The model sends the request as if the account held its connection; the same holds for Accounts.Unbind and Accounts.PlaceCall.
- Channel.AddRequest: the add request has no password or display name, because the account has no getters for them.
- Accounts.DropConference: the account's set of conference sessions (`_confCalls`) is an interface that lib/connection.js:295 and lib/conference.js:618 expect, but lib/account.js (lines 13-26) never defines it. The model gives every account such a set, initially empty; nothing in the source ever adds to it.
- Channel.OnMessage: as written, `acc._confCalls.get` (lib/connection.js:295) throws a TypeError for every `videoroom_event` once some account is added, because `_confCalls` is undefined. The model routes the event through the account's conference set instead.
- Conferences.LocalTerminate: as written, `this._account._confCalls.delete` (lib/conference.js:618) throws a TypeError before `_terminated` is set and before `_close()` runs. The model completes the local termination.
- Conferences.HandleEvent: lib/utils.js exports only `getUserMedia` and `createLocalSdp` (line 99), so `utils.mungeSdp` (lib/conference.js:418) and `utils.Identity` (lib/conference.js:244, 371, 450, 458) are undefined, and as written those calls throw a TypeError (the one at line 244 in the constructor). The model takes identities as given values and applies the answer as the server sent it.
- Conferences.Close: `utils.closeMediaStream` (lib/conference.js:598-601, 222-225) is undefined in lib/utils.js, so as written closing a conference or a participant that has streams throws a TypeError. The model does not model the streams and closes as if the helper existed; likewise in Conferences.CloseParticipant.
- Messages.New: `utils.sanatizeHtml` (lib/message.js:24) is undefined in lib/utils.js, so as written an HTML message throws a TypeError when it is built. The model takes the sanitiser as a function parameter.
- Calls.InitOutgoing: in the source, when the call already has a peer connection, `_id` and `_direction` are overwritten before the error is thrown. The model returns only the error.
- Statistics.RemoveConnectionAsWritten: `for ... in` visits integer-like keys first in ascending order; the model visits peers in insertion order, which differs only for such peer ids.
- Statistics.RemoveConnectionAsWritten: the module-wide listener table is a parameter, and the model does not return its updated form.
- Statistics.RemoveConnectionAsWritten: a `pc` argument that is not an RTCPeerConnection is taken to have no `removeEventListener`, so it throws like a missing one.
- Conferences.ParticipantLifecycle: no link between a participant's state and its peer connection is promised, because none holds: a `feed_attached` offer gives a participant with a `null` state a peer connection (lib/conference.js:474-478).
- Conferences.HandleEventLifecycle: as for Conferences.ParticipantLifecycle, only the set of states is kept, not a link between state and peer connection.
- Pgp.LookupPublicKey: a cached `null` key is treated like a missing one.
- Pgp.OnServerKey: the pending lookup resolves with whatever key the server sends, whichever uri was asked for.
- Channel.RemoveAccount: the account is found by value equality. The source compares object identity.
- Statistics.MonitorPc: peer ids are plain map keys, so prototype property names such as `toString` get no special treatment.

## Findings

| source | as written | input that shows it | evidently intended | confidence | as-written member | corrected member |
|---|---|---|---|---|---|---|
| lib/statistics.js:65-79 | for a peer already watched, `addConnection` runs `for...of` over a plain object, which is not iterable, reads the misspelt `_connectionsMonitor`, and calls `removeConnection` with the wrong arguments, so it always throws; past that loop, `_monitorPc` would read the undefined `peersToMonitor` (line 191) | add pc 1 for peer "alice", then pc 2 for "alice" | closed connections of the peer are dropped and the new one is watched alongside the open ones | not executed | Statistics.AddConnectionAsWritten, Statistics.SecondConnectionRejected | Statistics.AddConnection, Statistics.SecondConnectionAdded |
| lib/statistics.js:159-160 | `removePeer` reads the undefined `this.peersToMonitor` for a peer that has connections, so it throws and the peer is never removed | add pc 1 for "alice", then removePeer("alice") | the peer and its connections are deleted | not executed | Statistics.RemovePeerAsWritten, Statistics.RemovePeerKeepsMonitoredPeer | Statistics.RemovePeer, Statistics.AddThenRemovePeer |
| lib/addressbook.js:30-33 | the getters call a bare `_serialize` that does not exist, so looking up any stored contact, policy or group throws | add a contact c, then getContact(c.id) | the stored contact is returned | not executed | Addressbook.GetAsWritten, Addressbook.AddedContactUnreadable | Addressbook.Get, Addressbook.StoreGetDelete |
| lib/addressbook.js:117-124 | `addGroupMember` pushes onto `this._group.contacts`, a field that does not exist, so it throws whenever both the group and the contact exist | add group g and contact c, then addGroupMember(g.id, c.id) | the contact is appended to the group's members and the change is handed to `_applyToAllAccounts` | not executed | Addressbook.AddGroupMemberAsWritten, Addressbook.MemberNeverAdded | Addressbook.AddGroupMember, Addressbook.AddThenDeleteGroupMember |
| lib/statistics.js:119-127 | removing by connection id alone calls `_removePeerConnectionEventListeners` with the undefined `pc`, which calls `pc.removeEventListener` (line 486) whenever the id's listeners are registered, so it throws before deleting anything | add pc 1 for "alice" as "c1", then removeConnection({connectionId: "c1"}) | the listeners are removed from the stored peer connection and the id is deleted from every peer holding it | not executed | Statistics.RemoveConnectionAsWritten, Statistics.RemoveByIdOnlyThrows | Statistics.RemoveConnection, Statistics.AddThenRemoveById |

=== FILE: account.dfy ===
/** An account (lib/account.js): identity validation and the digest input, the
    bind/unbind registration state machine, and the index of its calls by session id.

    `md5` is foreign: it is a function parameter, left uninterpreted. The reply
    to a bind or unbind request comes back through `Resume`. */
module Accounts {
  import opened Common
  import Text
  import Calls

  const FAILED := "failed"

  datatype Account = Account(
    id: string,
    password: string,          // md5 of the digest input
    bound: bool,
    registrationState: Option<string>,
    calls: map<string, Calls.Call>,
    confCalls: set<string>   // the conference index the connection and conferences expect
  )

  datatype Step = BindReply | UnbindReply

  /** An `account_event` pushed by the server. */
  datatype Event =
    | RegistrationState(state: Option<string>)
    | IncomingCall(session: string, sdp: string)
    | OtherEvent(name: string)

  datatype Effect =
    | Send(request: Json, reply: Step)
    | RegistrationStateChanged(from: Option<string>, to: Option<string>)
    | OutgoingCall(session: string)
    | IncomingCallAdded(session: string)
    | CallEffects(session: string, effects: seq<Calls.Effect>)

  datatype Error = InvalidAccountId | InvalidUri

  /** The text before the first `@` of `id`. */
  function Username(id: string): string
    requires '@' in id
  {
    id[..Text.IndexOf(id, '@')]
  }

  /** The text after the first `@` of `id`. */
  function Domain(id: string): string
    requires '@' in id
  {
    id[Text.IndexOf(id, '@') + 1..]
  }

  /** The string the credential digest is computed over: `username:domain:password`. */
  function DigestInput(id: string, password: string): string
    requires '@' in id
  {
    Username(id) + ":" + Domain(id) + ":" + password
  }

  /** The identity splits at its first `@`: the username holds no `@`, and username,
      `@` and domain put back together give the identity again. */
  lemma IdentitySplit(id: string)
    requires '@' in id
    ensures '@' !in Username(id)
    ensures Username(id) + "@" + Domain(id) == id
  {
    var k := Text.IndexOf(id, '@');
    assert id == id[..k] + [id[k]] + id[k + 1..];
  }

  /** `new Account(id, password)`: an identity without `@` is rejected; otherwise the
      account starts unbound, unregistered, with no calls, holding the md5 of
      `username:domain:password`. */
  function New(id: string, password: string, md5: string -> string): (r: Result<Account, Error>)
    ensures r.Failure? <==> '@' !in id
    ensures r.Success? ==>
      && r.value.id == id
      && r.value.password == md5(DigestInput(id, password))
      && !r.value.bound && r.value.registrationState.None?
      && r.value.calls == map[] && r.value.confCalls == {}
  {
    if Text.IndexOf(id, '@') == -1 then Failure(InvalidAccountId)
    else Success(Account(id, md5(DigestInput(id, password)), false, None, map[], {}))
  }

  /** `bind()`: a bound account sends nothing; otherwise a `bind` request with the
      account id and credential, whose reply resumes `BindReply`. */
  function Bind(a: Account): (r: (Account, seq<Effect>))
    ensures r.0 == a
    ensures a.bound ==> r.1 == []
    ensures !a.bound ==> r.1 == [Send(Request("bind", map["account" := JStr(a.id), "password" := JStr(a.password)]), BindReply)]
  {
    if a.bound then (a, [])
    else (a, [Send(Request("bind", map["account" := JStr(a.id), "password" := JStr(a.password)]), BindReply)])
  }

  /** `unbind()`: an unbound account sends nothing; otherwise an `unbind` request. */
  function Unbind(a: Account): (r: (Account, seq<Effect>))
    ensures r.0 == a
    ensures !a.bound ==> r.1 == []
    ensures a.bound ==> r.1 == [Send(Request("unbind", map["account" := JStr(a.id)]), UnbindReply)]
  {
    if !a.bound then (a, [])
    else (a, [Send(Request("unbind", map["account" := JStr(a.id)]), UnbindReply)])
  }

  /** The reply to a bind or unbind request (`error` is the error, if any).
      Bind: an error moves the registration state to `failed`, success marks the
      account bound. Unbind: whatever the reply, the account ends unbound with a null
      registration state. Nothing else in the account changes. */
  function Resume(a: Account, k: Step, error: Option<string>): (r: (Account, seq<Effect>))
    ensures k.BindReply? && error.Some? ==>
      r == (a.(registrationState := Some(FAILED)), [RegistrationStateChanged(a.registrationState, Some(FAILED))])
    ensures k.BindReply? && error.None? ==> r == (a.(bound := true), [])
    ensures k.UnbindReply? ==>
      r == (a.(bound := false, registrationState := None), [RegistrationStateChanged(a.registrationState, None)])
  {
    match k
    case BindReply =>
      if error.Some? then
        (a.(registrationState := Some(FAILED)), [RegistrationStateChanged(a.registrationState, Some(FAILED))])
      else (a.(bound := true), [])
    case UnbindReply =>
      (a.(bound := false, registrationState := None), [RegistrationStateChanged(a.registrationState, None)])
  }

  /** `call(uri)`: a new outgoing call under the fresh session id, stored in the
      call index under that id; a uri without `@` is rejected and nothing is stored. */
  function PlaceCall(a: Account, uri: string, freshId: string): (r: Result<(Account, seq<Effect>), Error>)
    ensures r.Failure? <==> '@' !in uri
    ensures r.Success? ==>
      var (a', effects) := r.value;
      && freshId in a'.calls
      && a' == a.(calls := a.calls[freshId := a'.calls[freshId]])
      && a'.calls[freshId].id == Some(freshId)
      && a'.calls[freshId].direction == Some(Calls.Outgoing)
      && a'.calls[freshId].account == a.id
      && |effects| > 0 && effects[|effects| - 1] == OutgoingCall(freshId)
  {
    match Calls.InitOutgoing(Calls.New(a.id), uri, freshId)
    case Failure(_) => Failure(InvalidUri)
    case Success((c, callEffects)) =>
      Success((a.(calls := a.calls[freshId := c]), [CallEffects(freshId, callEffects), OutgoingCall(freshId)]))
  }

  /** `_handleEvent`: a registration event stores the reported state; an incoming call
      is stored, in state `incoming`, under the event's session id; any other event
      changes nothing. */
  function HandleEvent(a: Account, ev: Event): (r: (Account, seq<Effect>))
    ensures ev.RegistrationState? ==>
      r == (a.(registrationState := ev.state), [RegistrationStateChanged(a.registrationState, ev.state)])
    ensures ev.IncomingCall? ==>
      && r.0 == a.(calls := r.0.calls)
      && r.0.calls.Keys == a.calls.Keys + {ev.session}
      && (forall s :: s in a.calls && s != ev.session ==> r.0.calls[s] == a.calls[s])
      && r.0.calls[ev.session].state == Some(Calls.INCOMING)
      && r.0.calls[ev.session].id == Some(ev.session)
      && r.0.calls[ev.session].incomingSdp == Some(ev.sdp)
      && r.1 == [IncomingCallAdded(ev.session)]
    ensures ev.OtherEvent? ==> r == (a, [])
  {
    match ev
    case RegistrationState(state) =>
      (a.(registrationState := state), [RegistrationStateChanged(a.registrationState, state)])
    case IncomingCall(session, sdp) =>
      var c := Calls.InitIncoming(Calls.New(a.id), session, sdp);
      (a.(calls := a.calls[session := c]), [IncomingCallAdded(session)])
    case OtherEvent(_) => (a, [])
  }

  /** Applying a `session_event` to the stored call with that session id. */
  function CallEvent(a: Account, session: string, ev: Calls.Event): (r: (Account, seq<Effect>))
    requires session in a.calls
    ensures r.0 == a.(calls := a.calls[session := Calls.HandleEvent(a.calls[session], ev).0])
    ensures r.1 == [CallEffects(session, Calls.HandleEvent(a.calls[session], ev).1)]
  {
    var (c, effects) := Calls.HandleEvent(a.calls[session], ev);
    (a.(calls := a.calls[session := c]), [CallEffects(session, effects)])
  }

  /** The account side of a call's local termination: `account._calls.delete(id)`. */
  function DropCall(a: Account, session: string): (a': Account)
    ensures a'.calls.Keys == a.calls.Keys - {session}
    ensures forall s :: s in a'.calls ==> a'.calls[s] == a.calls[s]
    ensures a' == a.(calls := a'.calls)
  {
    a.(calls := a.calls - {session})
  }

  /** The account side of a conference's local termination: `account._confCalls.delete(id)`. */
  function DropConference(a: Account, session: string): (a': Account)
    ensures a'.confCalls == a.confCalls - {session}
    ensures a' == a.(confCalls := a'.confCalls)
  {
    a.(confCalls := a.confCalls - {session})
  }

  /** Binding is idempotent once bound, and a successful bind followed by an unbind
      (whatever its reply) leaves the account unbound and unregistered. */
  lemma BindUnbindCycle(a: Account, error: Option<string>)
    requires !a.bound
    ensures var b := Resume(a, BindReply, None).0;
      && b.bound && Bind(b) == (b, [])
      && Unbind(b).1 == [Send(Request("unbind", map["account" := JStr(a.id)]), UnbindReply)]
      && var u := Resume(b, UnbindReply, error).0;
         !u.bound && u.registrationState.None? && Unbind(u) == (u, [])
  {
  }

  /** Dropping a terminated call twice is the same as dropping it once, and leaves
      every other call where it was. */
  lemma DropCallIdempotent(a: Account, session: string)
    ensures DropCall(DropCall(a, session), session) == DropCall(a, session)
    ensures session !in DropCall(a, session).calls
  {
  }

  /** A placed call is stored under its fresh id, so the session events of that id
      reach it; once it terminates and is dropped, the account is as before the call. */
  lemma PlacedCallRoundTrip(a: Account, uri: string, freshId: string, ev: Calls.Event)
    requires '@' in uri && freshId !in a.calls
    ensures PlaceCall(a, uri, freshId).Success?
    ensures var a1 := PlaceCall(a, uri, freshId).value.0;
      && freshId in a1.calls
      && CallEvent(a1, freshId, ev).0.calls[freshId] == Calls.HandleEvent(a1.calls[freshId], ev).0
      && DropCall(a1, freshId) == a
  {
    var a1 := PlaceCall(a, uri, freshId).value.0;
    assert DropCall(a1, freshId).calls == a.calls;
  }

  /** A call an `incoming_call` event stores can be answered, on the offer the event
      carried; dropping it afterwards leaves the account as before the event. */
  lemma IncomingCallRoundTrip(a: Account, session: string, sdp: string)
    requires session !in a.calls
    ensures var a1 := HandleEvent(a, IncomingCall(session, sdp)).0;
      && Calls.Answer(a1.calls[session]).Success?
      && Calls.Answer(a1.calls[session]).value.1 == [Calls.Start(Calls.AnswerSetup(Some(sdp)))]
      && DropCall(a1, session) == a
  {
    var a1 := HandleEvent(a, IncomingCall(session, sdp)).0;
    assert DropCall(a1, session).calls == a.calls;
  }
}

=== FILE: addressbook.dfy ===
/** The address book of lib/addressbook.js: three independent maps of contacts,
    policies and groups keyed by id, their add/update/delete operations, the
    removal of a group member, bulk loading and the single-item lookups.

    Every change is announced to the accounts (`_applyToAllAccounts`); what an
    account does with it is not modelled, only the announcement, as an effect. */
module Addressbook {
  import opened Common
  import KeyedMaps

  /** A contact or a policy: its id and the rest of the object. */
  datatype Item = Item(id: string, fields: Json)

  /** A group: its id, its member contacts in order, and the rest of the object. */
  datatype Group = Group(id: string, contacts: seq<Item>, fields: Json)

  datatype Book = Book(contacts: map<string, Item>, policies: map<string, Item>, groups: map<string, Group>)

  datatype Payload = ItemData(item: Item) | GroupData(group: Group) | IdData(id: string) | MemberData(groupId: string, contactId: string)

  /** `_applyToAllAccounts(action, type, data)`. */
  datatype Effect = ApplyToAllAccounts(action: string, kind: string, data: Payload)

  /** A `get*` of an id that is present calls `_serialize` as a plain name, which is not
      defined outside the class. */
  const NOT_DEFINED := "ReferenceError: _serialize is not defined"

  function New(): (b: Book)
    ensures b.contacts == map[] && b.policies == map[] && b.groups == map[]
  {
    Book(map[], map[], map[])
  }

  // ---------------------------------------------------------------------------
  // Contacts

  /** `addContact(contact)` (`action` "add") and `updateContact(contact)` (`action`
      "update"): a falsy argument does nothing; otherwise the contact is stored under
      its id, replacing any entry there, and the change is announced. */
  function StoreContact(b: Book, action: string, contact: Option<Item>): (r: (Book, seq<Effect>))
    ensures contact.None? ==> r == (b, [])
    ensures contact.Some? ==>
      && r.0 == b.(contacts := b.contacts[contact.value.id := contact.value])
      && r.1 == [ApplyToAllAccounts(action, "contact", ItemData(contact.value))]
  {
    match contact
    case None => (b, [])
    case Some(c) => (b.(contacts := b.contacts[c.id := c]), [ApplyToAllAccounts(action, "contact", ItemData(c))])
  }

  /** `deleteContact(id)`: the entry goes if present; the deletion is announced either way. */
  function DeleteContact(b: Book, id: string): (r: (Book, seq<Effect>))
    ensures r.0 == b.(contacts := b.contacts - {id})
    ensures id !in b.contacts ==> r.0 == b
    ensures r.1 == [ApplyToAllAccounts("delete", "contact", IdData(id))]
  {
    (if id in b.contacts then b.(contacts := b.contacts - {id}) else b,
     [ApplyToAllAccounts("delete", "contact", IdData(id))])
  }

  // ---------------------------------------------------------------------------
  // Policies

  /** `addPolicy(policy)` and `updatePolicy(policy)`. */
  function StorePolicy(b: Book, action: string, policy: Option<Item>): (r: (Book, seq<Effect>))
    ensures policy.None? ==> r == (b, [])
    ensures policy.Some? ==>
      && r.0 == b.(policies := b.policies[policy.value.id := policy.value])
      && r.1 == [ApplyToAllAccounts(action, "policy", ItemData(policy.value))]
  {
    match policy
    case None => (b, [])
    case Some(p) => (b.(policies := b.policies[p.id := p]), [ApplyToAllAccounts(action, "policy", ItemData(p))])
  }

  /** `deletePolicy(id)`. */
  function DeletePolicy(b: Book, id: string): (r: (Book, seq<Effect>))
    ensures r.0 == b.(policies := b.policies - {id})
    ensures id !in b.policies ==> r.0 == b
    ensures r.1 == [ApplyToAllAccounts("delete", "policy", IdData(id))]
  {
    (if id in b.policies then b.(policies := b.policies - {id}) else b,
     [ApplyToAllAccounts("delete", "policy", IdData(id))])
  }

  // ---------------------------------------------------------------------------
  // Groups

  /** `addGroup(group)` and `updateGroup(group)`. */
  function StoreGroup(b: Book, action: string, group: Option<Group>): (r: (Book, seq<Effect>))
    ensures group.None? ==> r == (b, [])
    ensures group.Some? ==>
      && r.0 == b.(groups := b.groups[group.value.id := group.value])
      && r.1 == [ApplyToAllAccounts(action, "group", GroupData(group.value))]
  {
    match group
    case None => (b, [])
    case Some(g) => (b.(groups := b.groups[g.id := g]), [ApplyToAllAccounts(action, "group", GroupData(g))])
  }

  /** `deleteGroup(id)`. */
  function DeleteGroup(b: Book, id: string): (r: (Book, seq<Effect>))
    ensures r.0 == b.(groups := b.groups - {id})
    ensures id !in b.groups ==> r.0 == b
    ensures r.1 == [ApplyToAllAccounts("delete", "group", IdData(id))]
  {
    (if id in b.groups then b.(groups := b.groups - {id}) else b,
     [ApplyToAllAccounts("delete", "group", IdData(id))])
  }

  /** `addGroupMember(groupId, contactId)` as written: when both the group and the contact
      exist, the push goes through `this._group`, which is never set, and throws before
      anything changes or is announced. The error is the third component. */
  function AddGroupMemberAsWritten(b: Book, groupId: string, contactId: string): (r: (Book, seq<Effect>, Option<string>))
    ensures r.0 == b && r.1 == []
    ensures r.2.Some? <==> groupId in b.groups && contactId in b.contacts
    ensures r.2.Some? ==> r.2.value == NO_GROUP_FIELD
  {
    if groupId in b.groups && contactId in b.contacts then (b, [], Some(NO_GROUP_FIELD)) else (b, [], None)
  }

  const NO_GROUP_FIELD := "TypeError: Cannot read properties of undefined (reading 'contacts')"

  /** A contact added to a group that was just added still cannot become a member: the
      code as written throws and the group keeps its members. */
  lemma MemberNeverAdded(b: Book, g: Group, c: Item)
    ensures
      var b1 := StoreContact(StoreGroup(b, "add", Some(g)).0, "add", Some(c)).0;
      var r := AddGroupMemberAsWritten(b1, g.id, c.id);
      && r.2 == Some(NO_GROUP_FIELD)
      && r.0.groups[g.id].contacts == g.contacts
  {
  }

  /** `addGroupMember(groupId, contactId)` as evidently intended: when both exist, the
      stored contact is appended to the group's members and the addition announced;
      otherwise nothing happens. */
  function AddGroupMember(b: Book, groupId: string, contactId: string): (r: (Book, seq<Effect>))
    ensures r.0.contacts == b.contacts && r.0.policies == b.policies
    ensures !(groupId in b.groups && contactId in b.contacts) ==> r == (b, [])
    ensures groupId in b.groups && contactId in b.contacts ==>
      && r.0.groups.Keys == b.groups.Keys
      && (forall id :: id in b.groups && id != groupId ==> r.0.groups[id] == b.groups[id])
      && r.0.groups[groupId].id == b.groups[groupId].id && r.0.groups[groupId].fields == b.groups[groupId].fields
      && |r.0.groups[groupId].contacts| == |b.groups[groupId].contacts| + 1
      && r.0.groups[groupId].contacts[..|b.groups[groupId].contacts|] == b.groups[groupId].contacts
      && r.0.groups[groupId].contacts[|b.groups[groupId].contacts|] == b.contacts[contactId]
      && r.1 == [ApplyToAllAccounts("add", "groupMember", MemberData(groupId, contactId))]
  {
    if groupId in b.groups && contactId in b.contacts then
      var g := b.groups[groupId];
      (b.(groups := b.groups[groupId := g.(contacts := g.contacts + [b.contacts[contactId]])]),
       [ApplyToAllAccounts("add", "groupMember", MemberData(groupId, contactId))])
    else (b, [])
  }

  /** Adding a contact that is not yet a member and then deleting it gives back the
      book, provided the contact is stored under its own id. */
  lemma AddThenDeleteGroupMember(b: Book, groupId: string, contactId: string)
    requires groupId in b.groups && contactId in b.contacts && b.contacts[contactId].id == contactId
    requires forall k :: 0 <= k < |b.groups[groupId].contacts| ==> b.groups[groupId].contacts[k].id != contactId
    ensures DeleteGroupMember(AddGroupMember(b, groupId, contactId).0, groupId, contactId).0 == b
  {
    var g := b.groups[groupId];
    var b1 := AddGroupMember(b, groupId, contactId).0;
    var members := g.contacts + [b.contacts[contactId]];
    assert b1.groups[groupId].contacts == members;
    var p := (c: Item) => c.id == contactId;
    assert p(members[|g.contacts|]);
    var i := FirstWhere(members, p).value;
    assert forall k :: 0 <= k < |g.contacts| ==> !p(members[k]);
    assert i == |g.contacts|;
    assert members[..i] + members[i + 1..] == g.contacts;
    assert g.(contacts := g.contacts) == g;
    assert b.groups[groupId := g] == b.groups;
  }

  /** `deleteGroupMember(groupId, contactId)`: the first member with that id is spliced
      out of the group and the removal announced; an unknown group or a contact not in
      it changes nothing and announces nothing. */
  function DeleteGroupMember(b: Book, groupId: string, contactId: string): (r: (Book, seq<Effect>))
    ensures r.0.contacts == b.contacts && r.0.policies == b.policies
    ensures groupId !in b.groups ==> r == (b, [])
    ensures groupId in b.groups ==>
      var members := b.groups[groupId].contacts;
      match FirstWhere(members, (c: Item) => c.id == contactId)
      case None => r == (b, [])
      case Some(i) =>
        && r.0.groups == b.groups[groupId := b.groups[groupId].(contacts := members[..i] + members[i + 1..])]
        && r.1 == [ApplyToAllAccounts("delete", "groupMember", MemberData(groupId, contactId))]
  {
    if groupId !in b.groups then (b, [])
    else
      var g := b.groups[groupId];
      match FirstWhere(g.contacts, (c: Item) => c.id == contactId)
      case None => (b, [])
      case Some(i) =>
        (b.(groups := b.groups[groupId := g.(contacts := g.contacts[..i] + g.contacts[i + 1..])]),
         [ApplyToAllAccounts("delete", "groupMember", MemberData(groupId, contactId))])
  }

  /** Deleting a member takes out exactly one contact with that id, the first, and
      keeps the others in order. */
  lemma DeleteGroupMemberRemovesOne(b: Book, groupId: string, contactId: string)
    requires groupId in b.groups
    requires exists k :: 0 <= k < |b.groups[groupId].contacts| && b.groups[groupId].contacts[k].id == contactId
    ensures
      var before := b.groups[groupId].contacts;
      var after := DeleteGroupMember(b, groupId, contactId).0.groups[groupId].contacts;
      && |after| == |before| - 1
      && (exists i :: 0 <= i < |before| && before[i].id == contactId
            && (forall j :: 0 <= j < i ==> before[j].id != contactId)
            && multiset(after) + multiset{before[i]} == multiset(before))
  {
    var before := b.groups[groupId].contacts;
    var p := (c: Item) => c.id == contactId;
    var k :| 0 <= k < |before| && before[k].id == contactId;
    assert p(before[k]);
    var i := FirstWhere(before, p).value;
    assert DeleteGroupMember(b, groupId, contactId).0.groups[groupId].contacts == before[..i] + before[i + 1..];
    SpliceOne(before, i);
    assert before[i].id == contactId && forall j :: 0 <= j < i ==> before[j].id != contactId;
  }

  lemma SpliceOne(xs: seq<Item>, i: nat)
    requires i < |xs|
    ensures |xs[..i] + xs[i + 1..]| == |xs| - 1
    ensures multiset(xs[..i] + xs[i + 1..]) + multiset{xs[i]} == multiset(xs)
  {
    assert xs == xs[..i] + [xs[i]] + xs[i + 1..];
  }

  // ---------------------------------------------------------------------------
  // Loading and lookups

  function ItemId(c: Item): string { c.id }
  function GroupId(g: Group): string { g.id }

  /** A list of records as (id, record) pairs, in order. */
  function ById<T>(items: seq<T>, id: T -> string): (r: seq<(string, T)>)
    ensures |r| == |items|
    ensures forall i :: 0 <= i < |items| ==> r[i] == (id(items[i]), items[i])
  {
    if |items| == 0 then [] else [(id(items[0]), items[0])] + ById(items[1..], id)
  }

  /** `load(data)`: every contact, policy and group stored by id, in order, onto what
      the book already holds. */
  function Load(b: Book, contacts: seq<Item>, policies: seq<Item>, groups: seq<Group>): (r: Book)
    ensures r.contacts.Keys == b.contacts.Keys + (set i | 0 <= i < |contacts| :: contacts[i].id)
    ensures r.policies.Keys == b.policies.Keys + (set i | 0 <= i < |policies| :: policies[i].id)
    ensures r.groups.Keys == b.groups.Keys + (set i | 0 <= i < |groups| :: groups[i].id)
  {
    var r := Book(KeyedMaps.InsertAll(b.contacts, ById(contacts, ItemId)),
                  KeyedMaps.InsertAll(b.policies, ById(policies, ItemId)),
                  KeyedMaps.InsertAll(b.groups, ById(groups, GroupId)));
    assert (set i | 0 <= i < |ById(contacts, ItemId)| :: ById(contacts, ItemId)[i].0) == (set i | 0 <= i < |contacts| :: contacts[i].id);
    assert (set i | 0 <= i < |ById(policies, ItemId)| :: ById(policies, ItemId)[i].0) == (set i | 0 <= i < |policies| :: policies[i].id);
    assert (set i | 0 <= i < |ById(groups, GroupId)| :: ById(groups, GroupId)[i].0) == (set i | 0 <= i < |groups| :: groups[i].id);
    r
  }

  /** The last element of `items` whose id (under `idOf`) is `id`. */
  function LastWithId<T>(items: seq<T>, idOf: T -> string, id: string): (r: Option<T>)
    ensures r.Some? ==> idOf(r.value) == id && r.value in items
    ensures r.None? ==> forall i :: 0 <= i < |items| ==> idOf(items[i]) != id
  {
    if |items| == 0 then None
    else if idOf(items[|items| - 1]) == id then Some(items[|items| - 1])
    else LastWithId(items[..|items| - 1], idOf, id)
  }

  lemma {:induction false} LastBindingById<T>(items: seq<T>, idOf: T -> string, id: string)
    ensures KeyedMaps.LastBinding(ById(items, idOf), id) == LastWithId(items, idOf, id)
  {
    if |items| > 0 {
      var prefix := items[..|items| - 1];
      assert ById(items, idOf)[..|items| - 1] == ById(prefix, idOf);
      LastBindingById(prefix, idOf, id);
    }
  }

  /** What an id holds after loading `items` onto `m`: the last item loaded with that
      id, overwriting what was there, or, for an id the data does not mention, the
      entry it had. */
  function LoadedAt<T>(m: map<string, T>, items: seq<T>, idOf: T -> string, id: string): Option<T> {
    if LastWithId(items, idOf, id).Some? then LastWithId(items, idOf, id) else KeyedMaps.Get(m, id)
  }

  /** After a load each contact, policy and group id holds the last item loaded with
      it, overwriting what was there; an id the data does not mention keeps its entry. */
  lemma LoadBindings(b: Book, contacts: seq<Item>, policies: seq<Item>, groups: seq<Group>, id: string)
    ensures var r := Load(b, contacts, policies, groups);
      && KeyedMaps.Get(r.contacts, id) == LoadedAt(b.contacts, contacts, ItemId, id)
      && KeyedMaps.Get(r.policies, id) == LoadedAt(b.policies, policies, ItemId, id)
      && KeyedMaps.Get(r.groups, id) == LoadedAt(b.groups, groups, GroupId, id)
  {
    KeyedMaps.InsertAllBinding(b.contacts, ById(contacts, ItemId), id);
    LastBindingById(contacts, ItemId, id);
    KeyedMaps.InsertAllBinding(b.policies, ById(policies, ItemId), id);
    LastBindingById(policies, ItemId, id);
    KeyedMaps.InsertAllBinding(b.groups, ById(groups, GroupId), id);
    LastBindingById(groups, GroupId, id);
  }

  /** `getContact(id)` (and likewise `getPolicy`, `getGroup`) as written: an unknown id
      gives `null`, and a known one throws before anything is returned. */
  function GetAsWritten<T>(m: map<string, T>, id: string): (r: Result<Option<T>, string>)
    ensures id !in m ==> r == Success(None)
    ensures id in m ==> r == Failure(NOT_DEFINED)
  {
    if id in m then Failure(NOT_DEFINED) else Success(None)
  }

  /** A contact just added cannot be read back by the code as written. */
  lemma AddedContactUnreadable(b: Book, c: Item)
    ensures GetAsWritten(StoreContact(b, "add", Some(c)).0.contacts, c.id) == Failure(NOT_DEFINED)
  {
  }

  /** `getContact(id)` (and likewise `getPolicy`, `getGroup`) as evidently intended:
      the stored value (its serialised copy holds the same data), or `null`. */
  function Get<T>(m: map<string, T>, id: string): (r: Option<T>)
    ensures r.Some? <==> id in m
    ensures r.Some? ==> r.value == m[id]
  {
    KeyedMaps.Get(m, id)
  }

  /** Storing and then looking up gives the item back; deleting it makes the lookup
      `null`. */
  lemma StoreGetDelete(b: Book, c: Item, p: Item, g: Group)
    ensures Get(StoreContact(b, "add", Some(c)).0.contacts, c.id) == Some(c)
    ensures Get(DeleteContact(StoreContact(b, "update", Some(c)).0, c.id).0.contacts, c.id).None?
    ensures Get(StorePolicy(b, "add", Some(p)).0.policies, p.id) == Some(p)
    ensures Get(DeletePolicy(StorePolicy(b, "update", Some(p)).0, p.id).0.policies, p.id).None?
    ensures Get(StoreGroup(b, "add", Some(g)).0.groups, g.id) == Some(g)
    ensures Get(DeleteGroup(StoreGroup(b, "update", Some(g)).0, g.id).0.groups, g.id).None?
  {
  }

  /** Deleting an id that was not there before adding gives back the book as it was. */
  lemma AddThenDeleteContact(b: Book, c: Item)
    requires c.id !in b.contacts
    ensures DeleteContact(StoreContact(b, "add", Some(c)).0, c.id).0 == b
  {
    assert b.contacts[c.id := c] - {c.id} == b.contacts;
  }

  // ---------------------------------------------------------------------------
  // Independence of the three collections

  datatype Collection = Contacts | Policies | Groups

  datatype Op =
    | AddContact(contact: Option<Item>)
    | UpdateContact(contact: Option<Item>)
    | RemoveContact(id: string)
    | AddPolicy(policy: Option<Item>)
    | UpdatePolicy(policy: Option<Item>)
    | RemovePolicy(id: string)
    | AddGroup(group: Option<Group>)
    | UpdateGroup(group: Option<Group>)
    | RemoveGroup(id: string)
    | AddMember(groupId: string, contactId: string)
    | RemoveGroupMember(groupId: string, contactId: string)

  /** The public operation `op` names. */
  function Apply(b: Book, op: Op): (Book, seq<Effect>) {
    match op
    case AddContact(c) => StoreContact(b, "add", c)
    case UpdateContact(c) => StoreContact(b, "update", c)
    case RemoveContact(id) => DeleteContact(b, id)
    case AddPolicy(p) => StorePolicy(b, "add", p)
    case UpdatePolicy(p) => StorePolicy(b, "update", p)
    case RemovePolicy(id) => DeletePolicy(b, id)
    case AddGroup(g) => StoreGroup(b, "add", g)
    case UpdateGroup(g) => StoreGroup(b, "update", g)
    case RemoveGroup(id) => DeleteGroup(b, id)
    case AddMember(gid, cid) => AddGroupMember(b, gid, cid)
    case RemoveGroupMember(gid, cid) => DeleteGroupMember(b, gid, cid)
  }

  function CollectionOf(op: Op): Collection {
    match op
    case AddContact(_) | UpdateContact(_) | RemoveContact(_) => Contacts
    case AddPolicy(_) | UpdatePolicy(_) | RemovePolicy(_) => Policies
    case _ => Groups
  }

  /** Each operation touches only its own collection. */
  lemma OnlyOwnCollection(b: Book, op: Op)
    ensures CollectionOf(op) != Contacts ==> Apply(b, op).0.contacts == b.contacts
    ensures CollectionOf(op) != Policies ==> Apply(b, op).0.policies == b.policies
    ensures CollectionOf(op) != Groups ==> Apply(b, op).0.groups == b.groups
  {
  }

  /** Deleting is idempotent, and deleting an absent id changes nothing. */
  lemma DeleteIdempotent(b: Book, op: Op)
    requires op.RemoveContact? || op.RemovePolicy? || op.RemoveGroup?
    ensures Apply(Apply(b, op).0, op).0 == Apply(b, op).0
  {
  }
}

=== FILE: call.dfy ===
/** A one-to-one call (lib/call.js): its session state machine, the guards on
    answering and initialising it, and its idempotent, set-once termination.

    Browser work (getUserMedia, RTCPeerConnection offer/answer, closing streams) is
    not performed: it appears as `Start` effects naming the asynchronous step, and
    the step's completion comes back through `Resume`. Requests go out as `Send`
    effects carrying the continuation their reply resumes. */
module Calls {
  import opened Common
  import Text

  const INCOMING := "incoming"
  const ACCEPTED := "accepted"
  const TERMINATED := "terminated"

  datatype Direction = Incoming | Outgoing

  datatype Call = Call(
    account: string,            // id of the owning account
    id: Option<string>,         // session id; null until initialised
    direction: Option<Direction>,
    hasPc: bool,                // an RTCPeerConnection exists
    state: Option<string>,      // the last server state, null at first
    terminated: bool,           // set-once termination flag
    incomingSdp: Option<string> // the remote offer of an incoming call
  )

  /** An asynchronous step the call waits on, and what it resumes with. */
  datatype Step =
    | OutgoingSetup(uri: string)   // user media, then local offer; yields the offer SDP
    | AnswerSetup(offer: Option<string>) // user media, remote offer, then local answer; yields the answer SDP
    | ApplyAnswer(from: Option<string>, sdp: Option<string>) // remote answer of an 'accepted' event
    | CallReply                    // reply to the 'call' request
    | AnswerReply                  // reply to the 'answer' request
    | TerminateReply               // reply to the 'terminate' request

  datatype Outcome = Done(sdp: string) | Failed(reason: string)

  /** An event pushed by the server in a `session_event`. */
  datatype Event =
    | StateEvent(state: string, reason: Option<string>, sdp: Option<string>)
    | OtherEvent(name: string)

  datatype Effect =
    | Send(request: Json, reply: Option<Step>)
    | Start(step: Step)
    | StateChanged(from: Option<string>, to: string, reason: Option<string>)
    | ClosePeerConnection
    | RemoveFromAccount(session: Option<string>)
    | Fault(message: string)

  datatype Error = NotIncoming(state: Option<string>) | PcAlreadyInitialized | InvalidUri

  /** `new Call(account)`. */
  function New(account: string): (c: Call)
    ensures c.account == account && c.id.None? && c.state.None? && !c.terminated && !c.hasPc
  {
    Call(account, None, None, false, None, false, None)
  }

  /** The states in which every request the call makes names its session. */
  predicate Initialised(c: Call) {
    c.id.Some?
  }

  /** The `StateChanged` notifications an effect list carries, by target state. */
  predicate Emits(effects: seq<Effect>, to: string) {
    exists i :: 0 <= i < |effects| && effects[i].StateChanged? && effects[i].to == to
  }

  // ---------------------------------------------------------------------------
  // Initialisation

  /** `_initOutgoing(uri)`: a uri without `@` is rejected; otherwise the call gets the
      fresh session id, the outgoing direction and a new peer connection, and starts
      gathering media for its offer. */
  function InitOutgoing(c: Call, uri: string, freshId: string): (r: Result<(Call, seq<Effect>), Error>)
    ensures '@' !in uri ==> r == Failure(InvalidUri)
    ensures '@' in uri && c.hasPc ==> r == Failure(PcAlreadyInitialized)
    ensures r.Success? <==> '@' in uri && !c.hasPc
    ensures r.Success? ==>
      var (c', effects) := r.value;
      && c' == c.(id := Some(freshId), direction := Some(Outgoing), hasPc := true)
      && effects == [Start(OutgoingSetup(uri))]
  {
    if Text.IndexOf(uri, '@') == -1 then Failure(InvalidUri)
    else
      var c1 := c.(id := Some(freshId), direction := Some(Outgoing));
      match InitPeerConnection(c1)
      case Failure(e) => Failure(e)
      case Success(c2) => Success((c2, [Start(OutgoingSetup(uri))]))
  }

  /** `_initIncoming(id, sdp)`. */
  function InitIncoming(c: Call, id: string, sdp: string): (c': Call)
    ensures c'.id == Some(id) && c'.incomingSdp == Some(sdp)
    ensures c'.direction == Some(Incoming) && c'.state == Some(INCOMING)
    ensures c'.account == c.account && c'.hasPc == c.hasPc && c'.terminated == c.terminated
  {
    c.(id := Some(id), incomingSdp := Some(sdp), direction := Some(Incoming), state := Some(INCOMING))
  }

  /** `_initRTCPeerConnection`: refuses to create a second peer connection. */
  function InitPeerConnection(c: Call): (r: Result<Call, Error>)
    ensures r.Failure? <==> c.hasPc
    ensures r.Success? ==> r.value == c.(hasPc := true)
  {
    if c.hasPc then Failure(PcAlreadyInitialized) else Success(c.(hasPc := true))
  }

  /** The `onicecandidate` handler: a trickle request with the candidate, or with no
      candidates once gathering has ended; it is sent without a reply handler. */
  function OnIceCandidate(c: Call, candidate: Option<Json>): (r: (Call, seq<Effect>))
    ensures r.0 == c && |r.1| == 1 && r.1[0].Send? && r.1[0].reply.None?
    ensures r.1[0].request == Request("trickle", map["session" := OptStr(c.id),
                                                     "candidates" := JArr(TrickleCandidates(candidate))])
  {
    (c, [Send(Request("trickle", map["session" := OptStr(c.id), "candidates" := JArr(TrickleCandidates(candidate))]), None)])
  }

  // ---------------------------------------------------------------------------
  // Answering and terminating

  /** `answer()`: only a call in the `incoming` state may be answered; answering
      creates the peer connection (so a second answer is refused) and starts the
      media/answer step with the stored offer. */
  function Answer(c: Call): (r: Result<(Call, seq<Effect>), Error>)
    ensures c.state != Some(INCOMING) ==> r == Failure(NotIncoming(c.state))
    ensures r.Success? <==> c.state == Some(INCOMING) && !c.hasPc
    ensures r.Success? ==> r.value == (c.(hasPc := true), [Start(AnswerSetup(c.incomingSdp))])
  {
    if c.state != Some(INCOMING) then Failure(NotIncoming(c.state))
    else
      match InitPeerConnection(c)
      case Failure(e) => Failure(e)
      case Success(c1) => Success((c1, [Start(AnswerSetup(c.incomingSdp))]))
  }

  /** The `terminate` request for this call's session. */
  function TerminateRequest(c: Call): Json {
    Request("terminate", map["session" := OptStr(c.id)])
  }

  /** `terminate()`: nothing once the flag is set; otherwise one `terminate` request
      whose reply resumes `TerminateReply`. The flag itself is set by the reply. */
  function Terminate(c: Call): (r: (Call, seq<Effect>))
    ensures r.0 == c
    ensures c.terminated ==> r.1 == []
    ensures !c.terminated ==> r.1 == [Send(TerminateRequest(c), Some(TerminateReply))]
  {
    if c.terminated then (c, [])
    else (c, [Send(TerminateRequest(c), Some(TerminateReply))])
  }

  /** `_localTerminate(reason)`: once only. It removes the call from its account,
      sets the flag, reports the old state moving to `terminated` with the reason and
      closes the peer connection. The `state` field itself is left as it was. */
  function LocalTerminate(c: Call, reason: string): (r: (Call, seq<Effect>))
    ensures c.terminated ==> r == (c, [])
    ensures !c.terminated ==>
      && r.0 == c.(terminated := true, hasPc := false)
      && r.1 == [RemoveFromAccount(c.id), StateChanged(c.state, TERMINATED, Some(reason))]
                + (if c.hasPc then [ClosePeerConnection] else [])
  {
    if c.terminated then (c, [])
    else
      var closing := if c.hasPc then [ClosePeerConnection] else [];
      (c.(terminated := true, hasPc := false),
       [RemoveFromAccount(c.id), StateChanged(c.state, TERMINATED, Some(reason))] + closing)
  }

  // ---------------------------------------------------------------------------
  // Server events and asynchronous completions

  /** `_handleEvent`: a `state` event stores the new state at once. A state other
      than `accepted` is reported immediately; `terminated` also sets the flag and
      closes the peer connection. For `accepted` the report waits until the remote
      answer has been applied (`ApplyAnswer`); with no peer connection the source
      dereferences null there, which is a `Fault` after the state was stored. */
  function HandleEvent(c: Call, ev: Event): (r: (Call, seq<Effect>))
    ensures ev.OtherEvent? ==> r == (c, [])
    ensures ev.StateEvent? ==> r.0.state == Some(ev.state)
    ensures ev.StateEvent? && ev.state != ACCEPTED && ev.state != TERMINATED ==>
      r == (c.(state := Some(ev.state)), [StateChanged(c.state, ev.state, None)])
    ensures ev.StateEvent? && ev.state == TERMINATED ==>
      && r.0 == c.(state := Some(TERMINATED), terminated := true, hasPc := false)
      && r.1 == [StateChanged(c.state, TERMINATED, ev.reason)]
                + (if c.hasPc then [ClosePeerConnection] else [])
    ensures ev.StateEvent? && ev.state == ACCEPTED ==>
      && r.0 == c.(state := Some(ACCEPTED))
      && r.1 == (if c.hasPc then [Start(ApplyAnswer(c.state, ev.sdp))]
                 else [Fault("TypeError: this._pc is null")])
  {
    match ev
    case OtherEvent(_) => (c, [])
    case StateEvent(newState, reason, sdp) =>
      var c1 := c.(state := Some(newState));
      if newState != ACCEPTED then
        if newState == TERMINATED then
          var closing := if c.hasPc then [ClosePeerConnection] else [];
          (c1.(terminated := true, hasPc := false), [StateChanged(c.state, newState, reason)] + closing)
        else
          (c1, [StateChanged(c.state, newState, None)])
      else if c.hasPc then
        (c1, [Start(ApplyAnswer(c.state, sdp))])
      else
        (c1, [Fault("TypeError: this._pc is null")])
  }

  /** The completion of an asynchronous step or of a request's reply. */
  function Resume(c: Call, k: Step, outcome: Outcome): (r: (Call, seq<Effect>))
    ensures k.ApplyAnswer? && outcome.Done? ==> r == (c, [StateChanged(k.from, ACCEPTED, None)])
    ensures k.ApplyAnswer? && outcome.Failed? ==> r == Terminate(c)
    ensures k.TerminateReply? ==> r.0.terminated
    ensures k.TerminateReply? && outcome.Failed? ==> r.1 == LocalTerminate(c, outcome.reason).1
    ensures k.TerminateReply? && outcome.Done? ==> r == (c.(terminated := true), [])
    ensures k.OutgoingSetup? && outcome.Failed? ==> r == LocalTerminate(c, outcome.reason)
    ensures k.OutgoingSetup? && outcome.Done? ==>
      r == (c, [Send(Request("call", map["account" := JStr(c.account), "session" := OptStr(c.id),
                                          "uri" := JStr(k.uri), "sdp" := JStr(outcome.sdp)]),
                     Some(CallReply))])
    ensures k.AnswerSetup? && outcome.Failed? ==> r == Terminate(c)
    ensures k.AnswerSetup? && outcome.Done? ==>
      r == (c, [Send(Request("answer", map["session" := OptStr(c.id), "sdp" := JStr(outcome.sdp)]),
                     Some(AnswerReply))])
    ensures k.CallReply? ==> r == if outcome.Failed? then LocalTerminate(c, outcome.reason) else (c, [])
    ensures k.AnswerReply? ==> r == if outcome.Failed? then Terminate(c) else (c, [])
  {
    match k
    case OutgoingSetup(uri) =>
      (match outcome
       case Done(sdp) =>
         (c, [Send(Request("call", map["account" := JStr(c.account), "session" := OptStr(c.id),
                                       "uri" := JStr(uri), "sdp" := JStr(sdp)]),
                   Some(CallReply))])
       case Failed(reason) => LocalTerminate(c, reason))
    case AnswerSetup(_) =>
      (match outcome
       case Done(sdp) =>
         (c, [Send(Request("answer", map["session" := OptStr(c.id), "sdp" := JStr(sdp)]), Some(AnswerReply))])
       case Failed(_) => Terminate(c))
    case ApplyAnswer(from, _) =>
      (match outcome
       case Done(_) => (c, [StateChanged(from, ACCEPTED, None)])
       case Failed(_) => Terminate(c))
    case CallReply =>
      (match outcome
       case Done(_) => (c, [])
       case Failed(reason) => LocalTerminate(c, reason))
    case AnswerReply =>
      (match outcome
       case Done(_) => (c, [])
       case Failed(_) => Terminate(c))
    case TerminateReply =>
      (match outcome
       case Done(_) => (c.(terminated := true), [])
       case Failed(reason) =>
         var (c1, effects) := LocalTerminate(c, reason);
         (c1.(terminated := true), effects))
  }

  // ---------------------------------------------------------------------------
  // Properties

  /** The terminated flag is monotonic: no operation ever clears it. */
  lemma TerminatedIsSetOnce(c: Call, ev: Event, k: Step, outcome: Outcome, reason: string, uri: string, id: string)
    requires c.terminated
    ensures HandleEvent(c, ev).0.terminated
    ensures Resume(c, k, outcome).0.terminated
    ensures LocalTerminate(c, reason).0.terminated
    ensures Terminate(c).0.terminated
    ensures Answer(c).Success? ==> Answer(c).value.0.terminated
    ensures InitOutgoing(c, uri, id).Success? ==> InitOutgoing(c, uri, id).value.0.terminated
  {
  }

  /** Local termination is idempotent: a second one changes nothing and reports
      nothing, whatever its reason. */
  lemma LocalTerminateIdempotent(c: Call, r1: string, r2: string)
    ensures var c1 := LocalTerminate(c, r1).0; c1.terminated && LocalTerminate(c1, r2) == (c1, [])
  {
  }

  /** A server event never reports `accepted` by itself: that report comes only from a
      successful `ApplyAnswer`, so the application never sees `accepted` before the remote
      answer is in place. */
  lemma AcceptedOnlyAfterAnswerApplied(c: Call, ev: Event, k: Step, outcome: Outcome)
    ensures !Emits(HandleEvent(c, ev).1, ACCEPTED)
    ensures Emits(Resume(c, k, outcome).1, ACCEPTED) <==> k.ApplyAnswer? && outcome.Done?
  {
    var effects := Resume(c, k, outcome).1;
    if !k.ApplyAnswer? {
      assert forall i :: 0 <= i < |effects| && effects[i].StateChanged? ==> effects[i].to == TERMINATED;
    }
    if k.ApplyAnswer? && outcome.Done? {
      assert Resume(c, k, outcome).1[0].to == ACCEPTED;
    }
  }

  /** Answering is possible exactly once for an incoming call: after a successful
      answer the call stays `incoming` but a second answer is refused. */
  lemma AnswerOnce(c: Call)
    requires Answer(c).Success?
    ensures Answer(Answer(c).value.0) == Failure(PcAlreadyInitialized)
  {
  }

  /** An outgoing call's requests name the session it was given: the `call` request
      carries the account, the fresh id, the uri and the offer, and every trickle
      request names the same session. */
  lemma OutgoingRequestsNameSession(c: Call, uri: string, freshId: string, sdp: string, candidate: Option<Json>)
    requires '@' in uri && !c.hasPc
    ensures InitOutgoing(c, uri, freshId).Success?
    ensures var (c1, effects) := InitOutgoing(c, uri, freshId).value;
      && effects == [Start(OutgoingSetup(uri))]
      && Resume(c1, effects[0].step, Done(sdp)).1
         == [Send(Request("call", map["account" := JStr(c.account), "session" := JStr(freshId),
                                      "uri" := JStr(uri), "sdp" := JStr(sdp)]), Some(CallReply))]
      && OnIceCandidate(c1, candidate).1[0].request.fields["session"] == JStr(freshId)
  {
  }

  /** An incoming call without a peer connection can be answered: answering starts on
      the stored offer, and the `answer` request and every trickle request name the
      session the server gave the call. */
  lemma IncomingCanBeAnswered(c: Call, id: string, offer: string, sdp: string, candidate: Option<Json>)
    requires !c.hasPc
    ensures var c1 := InitIncoming(c, id, offer);
      && Answer(c1).Success?
      && Answer(c1).value.1 == [Start(AnswerSetup(Some(offer)))]
      && Resume(Answer(c1).value.0, AnswerSetup(Some(offer)), Done(sdp)).1
         == [Send(Request("answer", map["session" := JStr(id), "sdp" := JStr(sdp)]), Some(AnswerReply))]
      && OnIceCandidate(c1, candidate).1[0].request.fields["session"] == JStr(id)
  {
  }
}

=== FILE: common.dfy ===
/** Values shared by every part of the signalling client model: optional values,
    the JSON shape of outgoing requests, identities, and JavaScript truthiness. */
module Common {

  /** `null`/`undefined` versus a present value. */
  datatype Option<+T> = None | Some(value: T) {
    function GetOr(default: T): T {
      match this
      case Some(v) => v
      case None => default
    }
  }

  /** A success value or the error a JavaScript `throw` (or a rejected promise) carries. */
  datatype Result<+T, +E> = Success(value: T) | Failure(error: E)

  /** The JSON values the client serialises onto the signalling channel. */
  datatype Json =
    | JNull
    | JBool(b: bool)
    | JNum(n: int)
    | JStr(s: string)
    | JArr(items: seq<Json>)
    | JObj(fields: map<string, Json>)

  /** A request object `{sylkrtc: kind, ...fields}`. */
  function Request(kind: string, fields: map<string, Json>): (r: Json)
    ensures r.JObj? && "sylkrtc" in r.fields && r.fields["sylkrtc"] == JStr(kind)
  {
    JObj(fields["sylkrtc" := JStr(kind)])
  }

  /** The JSON form of a possibly-null string field (`null` when absent). */
  function OptStr(s: Option<string>): Json {
    match s
    case Some(v) => JStr(v)
    case None => JNull
  }

  /** The `candidates` list of a trickle request: the one candidate, or none once
      gathering has ended (a `null` candidate). */
  function TrickleCandidates(candidate: Option<Json>): (r: seq<Json>)
    ensures |r| <= 1
    ensures r == [] <==> candidate.None?
    ensures candidate.Some? ==> r == [candidate.value]
  {
    match candidate
    case Some(x) => [x]
    case None => []
  }

  /** The position of the first element of `xs` satisfying `p` (a `for ... of` loop
      that stops at the first match). */
  function FirstWhere<T>(xs: seq<T>, p: T -> bool): (r: Option<nat>)
    ensures r.Some? ==> r.value < |xs| && p(xs[r.value]) && forall j :: 0 <= j < r.value ==> !p(xs[j])
    ensures r.None? ==> forall j :: 0 <= j < |xs| ==> !p(xs[j])
  {
    if |xs| == 0 then None
    else if p(xs[0]) then Some(0)
    else
      match FirstWhere(xs[1..], p)
      case None => None
      case Some(k) => Some(k + 1)
  }

  /** A party in a session: its SIP uri and optional display name. */
  datatype Identity = Identity(uri: string, displayName: Option<string>)

  /** JavaScript truthiness of an optional string: `undefined`, `null` and `""` are falsy. */
  predicate Truthy(s: Option<string>) {
    s.Some? && s.value != ""
  }
}

=== FILE: conference.dfy ===
/** A multi-party conference (lib/conference.js): the `ConferenceCall` session, its
    map of remote participants, and each `Participant`'s subscription lifecycle.

    The participant map of the source maps two keys (the participant's own id and
    its publisher id) to one shared object. It is modelled as a key table `keys`
    from strings to references and a `heap` from references to participants, so an
    update through either key is seen through the other. Participant ids (uuids)
    come from a function `uuid` applied to the fresh reference.

    WebRTC work is not performed: it appears as `Start` effects, and completes
    through `Resume`. Timers are effects whose firing is an input step
    (`InviteTimerFired`, `TerminateTimerFired`). */
module Conferences {
  import opened Common
  import Text

  const PROGRESS := "progress"
  const ESTABLISHED := "established"
  const ACCEPTED := "accepted"
  const TERMINATED := "terminated"
  const VIDEOROOM := "videoroom"
  const NO_GET := "TypeError: this._participants.get is not a function"
  const NO_SET := "TypeError: this._participants.set is not a function"
  const NO_PC := "TypeError: this._pc is null"

  datatype Participant = Participant(
    id: string,               // the participant's own (subscription) id
    publisherId: string,
    identity: Identity,
    state: Option<string>,    // null, 'progress' or 'established'
    hasPc: bool,              // the subscriber RTCPeerConnection exists
    videoPaused: bool         // video subscription paused
  )

  /** A publisher as the server announces it. */
  datatype Publisher = Publisher(id: string, uri: string, displayName: Option<string>)

  /** Who configured the room, as reported in `roomConfigured`. */
  datatype Originator = ByParticipant(identity: Identity) | ByUs(identity: Identity) | ByVideoroom | Unknown

  /** An entry of the active-participant list: a remote participant, or the entry
      describing the local side. */
  datatype Active = Remote(ref: nat) | Self(id: string, identity: Identity)

  /** An argument the source checks with `Array.isArray`. */
  datatype ListArg = NotArray | Array(items: seq<Json>)

  /** What runs when a request is answered. */
  datatype Reply =
    | NoCallback             // the request was sent with a null callback
    | LogOnly                // the callback only logs
    | JoinReply
    | TerminateReply
    | ConfigureReply(cb: Option<nat>)
    | DetachReply(ref: nat)
    | AnswerReply(ref: nat)

  /** An asynchronous WebRTC step and what it yields. */
  datatype Step =
    | CreateOffer                              // local offer of the publisher connection
    | ApplyAnswer(from: Option<string>)        // remote answer of an 'accepted' event
    | ParticipantAnswer(ref: nat, offer: string) // remote offer of a feed, then the local answer

  datatype Outcome = Done(sdp: string) | Failed(reason: string)

  datatype Effect =
    | Send(request: Json, reply: Reply)
    | Start(step: Step)
    | StateChanged(from: Option<string>, to: string, reason: Option<string>)
    | ParticipantStateChanged(participant: string, before: Option<string>, after: Option<string>)
    | LocalStreamAdded
    | ParticipantJoined(ref: nat)
    | ParticipantLeft(ref: nat)
    | RoomConfigured(originator: Originator, active: seq<Active>)
    | ClosePeerConnection
    | CloseParticipantPeerConnection(participant: string)
    | ParticipantsClosed(refs: set<nat>)     // `_close` of each of these participants
    | ArmInviteTimer                         // 50 ms, then inviteParticipants(initial)
    | ArmTerminateTimer                      // 150 ms, then the termination fallback
    | RemoveFromAccount(session: Option<string>)
    | Invoke(token: nat, error: string)
    | Fault(message: string)

  /** A `videoroom_event` pushed by the server. */
  datatype Event =
    | StateEvent(state: string, reason: Option<string>, sdp: Option<string>)
    | InitialPublishers(publishers: seq<Publisher>)
    | PublishersJoined(publishers: seq<Publisher>)
    | PublishersLeft(ids: seq<string>)
    | FeedAttached(subscription: string, offer: string)
    | FeedEstablished(subscription: string)
    | Configured(originator: string, activeIds: seq<string>)
    | OtherEvent(name: string)

  datatype Error = AlreadyInitialized | InvalidUri | MissingLocalStream

  datatype Conference = Conference(
    account: string,              // id of the owning account
    id: Option<string>,           // session id; null until initialised
    hasPc: bool,                  // the publisher RTCPeerConnection exists
    keys: map<string, nat>,       // `_participants`: id or publisher id -> participant
    heap: map<nat, Participant>,  // every participant object ever created
    nextRef: nat,
    keysReplaced: bool,           // `_close` replaced the participant Map by an array
    terminated: bool,
    state: Option<string>,
    remoteIdentity: Option<Identity>,
    active: seq<Active>,
    initialParticipants: seq<Json>
  )

  // ===========================================================================
  // Participant

  function NewParticipant(id: string, publisherId: string, identity: Identity): (p: Participant)
    ensures p.id == id && p.publisherId == publisherId && p.identity == identity
    ensures p.state.None? && !p.hasPc && !p.videoPaused
  {
    Participant(id, publisherId, identity, None, false, false)
  }

  /** The states of a participant's subscription: `null`, `progress`, `established`. */
  predicate InLifecycle(p: Participant) {
    p.state.None? || p.state == Some(PROGRESS) || p.state == Some(ESTABLISHED)
  }

  /** A `videoroom-ctl` request of the conference `session` with option `option`. */
  function Ctl(session: Option<string>, option: string, body: map<string, Json>): (r: Json)
    ensures r.JObj? && r.fields.Keys == body.Keys + {"sylkrtc", "session", "option"}
    ensures r.fields["sylkrtc"] == JStr("videoroom-ctl") && r.fields["option"] == JStr(option)
    ensures r.fields["session"] == OptStr(session)
    ensures forall k :: k in body && k !in {"sylkrtc", "session", "option"} ==> r.fields[k] == body[k]
  {
    Request("videoroom-ctl", body["session" := OptStr(session)]["option" := JStr(option)])
  }

  function SetParticipantState(p: Participant, s: Option<string>): (r: (Participant, seq<Effect>))
    ensures r == (p.(state := s), [ParticipantStateChanged(p.id, p.state, s)])
  {
    (p.(state := s), [ParticipantStateChanged(p.id, p.state, s)])
  }

  /** `attach()`: only from the `null` state, which moves to `progress` and sends the
      `feed-attach` request. */
  function Attach(p: Participant, confId: Option<string>): (r: (Participant, seq<Effect>))
    ensures p.state.Some? ==> r == (p, [])
    ensures p.state.None? ==>
      && r.0 == p.(state := Some(PROGRESS))
      && |r.1| == 2 && r.1[0] == ParticipantStateChanged(p.id, None, Some(PROGRESS))
      && r.1[1].Send? && r.1[1].request.JObj? && "option" in r.1[1].request.fields
      && r.1[1].request.fields["option"] == JStr("feed-attach")
      && r.1[1] == Send(Ctl(confId, "feed-attach", map["feed_attach" := JObj(map["session" := JStr(p.id),
                                                                              "publisher" := JStr(p.publisherId)])]),
                        LogOnly)
  {
    if p.state.Some? then (p, [])
    else
      var (p1, e) := SetParticipantState(p, Some(PROGRESS));
      (p1, e + [Send(Ctl(confId, "feed-attach", map["feed_attach" := JObj(map["session" := JStr(p.id),
                                                                           "publisher" := JStr(p.publisherId)])]),
                     LogOnly)])
  }

  /** `detach()`: sends `feed-detach` only from a non-null state; the reply closes the
      participant whatever it says. */
  function Detach(p: Participant, ref: nat, confId: Option<string>): (r: (Participant, seq<Effect>))
    ensures r.0 == p
    ensures p.state.None? ==> r.1 == []
    ensures p.state.Some? ==> |r.1| == 1 && r.1[0].Send? && r.1[0].reply == DetachReply(ref)
    ensures p.state.Some? ==>
      r.1 == [Send(Ctl(confId, "feed-detach", map["feed_detach" := JObj(map["session" := JStr(p.id)])]), DetachReply(ref))]
  {
    if p.state.None? then (p, [])
    else (p, [Send(Ctl(confId, "feed-detach", map["feed_detach" := JObj(map["session" := JStr(p.id)])]),
                   DetachReply(ref))])
  }

  /** `pauseVideo()` / `resumeVideo()`: an `update` request for the participant's own
      session and the paused flag set to `paused`. */
  function SetVideoPaused(p: Participant, paused: bool): (r: (Participant, seq<Effect>))
    ensures r.0 == p.(videoPaused := paused)
    ensures |r.1| == 1 && r.1[0].Send?
    ensures r.1[0].request == Ctl(Some(p.id), "update", map["update" := JObj(map["video" := JBool(!paused)])])
  {
    (p.(videoPaused := paused),
     [Send(Ctl(Some(p.id), "update", map["update" := JObj(map["video" := JBool(!paused)])]), LogOnly)])
  }

  /** `_close()`: with a peer connection, closes it and returns to the `null` state;
      without one, nothing happens. */
  function CloseParticipant(p: Participant): (r: (Participant, seq<Effect>))
    ensures !p.hasPc ==> r == (p, [])
    ensures p.hasPc ==>
      && r.0 == p.(hasPc := false, state := None)
      && r.1 == [CloseParticipantPeerConnection(p.id), ParticipantStateChanged(p.id, p.state, None)]
  {
    if !p.hasPc then (p, [])
    else
      var (p1, e) := SetParticipantState(p.(hasPc := false), None);
      (p1, [CloseParticipantPeerConnection(p.id)] + e)
  }

  /** `_handleOffer(sdp)`: a new subscriber peer connection that applies the offer and
      produces the answer. */
  function HandleOffer(p: Participant, ref: nat, offer: string): (r: (Participant, seq<Effect>))
    ensures r == (p.(hasPc := true), [Start(ParticipantAnswer(ref, offer))])
  {
    (p.(hasPc := true), [Start(ParticipantAnswer(ref, offer))])
  }

  /** The subscriber connection's `icecandidate` handler: a `trickle` request naming the
      participant's own session, with the candidate or, at the end of gathering, none. */
  function ParticipantIceCandidate(p: Participant, confId: Option<string>, candidate: Option<Json>): (r: seq<Effect>)
    ensures |r| == 1 && r[0].Send? && r[0].reply == NoCallback
    ensures r[0].request == Ctl(confId, "trickle", map["trickle" := JObj(map[
      "session" := JStr(p.id),
      "candidates" := JArr(TrickleCandidates(candidate))])])
  {
    [Send(Ctl(confId, "trickle", map["trickle" := JObj(map["session" := JStr(p.id),
                                                         "candidates" := JArr(TrickleCandidates(candidate))])]),
          NoCallback)]
  }

  /** Every participant operation keeps the state among `null`, `progress`,
      `established`; `attach` is the only way out of `null` and `_close` the way back;
      detaching, pausing and a feed offer leave the state alone. */
  lemma ParticipantLifecycle(p: Participant, ref: nat, confId: Option<string>, paused: bool, offer: string)
    requires InLifecycle(p)
    ensures InLifecycle(Attach(p, confId).0)
    ensures InLifecycle(Detach(p, ref, confId).0)
    ensures InLifecycle(SetVideoPaused(p, paused).0)
    ensures InLifecycle(CloseParticipant(p).0)
    ensures InLifecycle(HandleOffer(p, ref, offer).0)
    ensures InLifecycle(SetParticipantState(p, Some(ESTABLISHED)).0)
    ensures p.state.None? ==> Attach(p, confId).0.state == Some(PROGRESS)
    ensures p.state.Some? ==> Attach(p, confId).0 == p
    ensures p.hasPc ==> CloseParticipant(p).0.state.None?
    ensures Detach(p, ref, confId).0 == p
    ensures SetVideoPaused(p, paused).0.state == p.state
    ensures HandleOffer(p, ref, offer).0.state == p.state && HandleOffer(p, ref, offer).0.hasPc
  {
  }

  // ===========================================================================
  // ConferenceCall: construction and participants

  /** `new ConferenceCall(account)`. */
  function New(account: string): (c: Conference)
    ensures c.account == account && c.id.None? && !c.hasPc && c.keys == map[] && c.heap == map[]
    ensures !c.terminated && c.state.None? && !c.keysReplaced && c.active == []
  {
    Conference(account, None, false, map[], map[], 0, false, false, None, None, [], [])
  }

  /** The local identity: the account id, and no display name (the account has none). */
  function LocalIdentity(c: Conference): Identity {
    Identity(c.account, None)
  }

  /** The participant object a key leads to, with its reference. */
  function Lookup(c: Conference, k: string): (r: Option<(nat, Participant)>)
    ensures r.Some? <==> k in c.keys && c.keys[k] in c.heap
    ensures r.Some? ==> r.value.0 == c.keys[k] && r.value.1 == c.heap[c.keys[k]]
  {
    if k in c.keys && c.keys[k] in c.heap then Some((c.keys[k], c.heap[c.keys[k]])) else None
  }

  /** `participants`: every participant object in the map, once each, however many
      keys lead to it. */
  function Participants(c: Conference): (r: set<nat>)
    ensures forall k :: k in c.keys ==> c.keys[k] in r
    ensures forall ref :: ref in r ==> exists k :: k in c.keys && c.keys[k] == ref
  {
    set k | k in c.keys :: c.keys[k]
  }

  /** The key table leads only to existing objects, every object was allocated below
      `nextRef`, and every key is the id or the publisher id of the participant it
      leads to. */
  ghost predicate Wellformed(c: Conference) {
    && (forall k :: k in c.keys ==> c.keys[k] in c.heap)
    && (forall ref :: ref in c.heap ==> ref < c.nextRef)
    && (forall k :: k in c.keys ==> k == c.heap[c.keys[k]].id || k == c.heap[c.keys[k]].publisherId)
  }

  /** The participant `ref` is reachable under both of its keys. */
  ghost predicate StoredTwice(c: Conference, ref: nat) {
    && ref in c.heap
    && c.heap[ref].id in c.keys && c.keys[c.heap[ref].id] == ref
    && c.heap[ref].publisherId in c.keys && c.keys[c.heap[ref].publisherId] == ref
  }

  /** `_initialize(uri, options)`: refused when already initialised, when the uri has
      no `@` and when there is no local stream; otherwise the conference takes its
      fresh id, creates the publisher peer connection and starts on its offer. */
  function Initialize(c: Conference, uri: string, hasLocalStream: bool,
                      initialParticipants: Option<seq<Json>>, freshId: string): (r: Result<(Conference, seq<Effect>), Error>)
    ensures c.id.Some? ==> r == Failure(AlreadyInitialized)
    ensures c.id.None? && '@' !in uri ==> r == Failure(InvalidUri)
    ensures c.id.None? && '@' in uri && !hasLocalStream ==> r == Failure(MissingLocalStream)
    ensures r.Success? <==> c.id.None? && '@' in uri && hasLocalStream
    ensures r.Success? ==>
      && r.value.0 == c.(id := Some(freshId), remoteIdentity := Some(Identity(uri, None)), hasPc := true,
                         initialParticipants := initialParticipants.GetOr([]))
      && r.value.1 == [LocalStreamAdded, Start(CreateOffer)]
  {
    if c.id.Some? then Failure(AlreadyInitialized)
    else if Text.IndexOf(uri, '@') == -1 then Failure(InvalidUri)
    else if !hasLocalStream then Failure(MissingLocalStream)
    else
      Success((c.(id := Some(freshId), remoteIdentity := Some(Identity(uri, None)), hasPc := true,
                  initialParticipants := initialParticipants.GetOr([])),
               [LocalStreamAdded, Start(CreateOffer)]))
  }

  // ===========================================================================
  // Requests

  /** `inviteParticipants(ps)`: nothing once terminated, nor for anything but a
      non-empty array; otherwise one `invite-participants` request, sent without a
      callback. */
  function InviteParticipants(c: Conference, ps: ListArg): (r: (Conference, seq<Effect>))
    ensures r.0 == c
    ensures c.terminated || ps.NotArray? || (ps.Array? && |ps.items| == 0) ==> r.1 == []
    ensures !c.terminated && ps.Array? && |ps.items| > 0 ==>
      r.1 == [Send(Ctl(c.id, "invite-participants",
                       map["invite_participants" := JObj(map["participants" := JArr(ps.items)])]), NoCallback)]
  {
    if c.terminated then (c, [])
    else match ps
      case NotArray => (c, [])
      case Array(items) =>
        if |items| == 0 then (c, [])
        else (c, [Send(Ctl(c.id, "invite-participants",
                           map["invite_participants" := JObj(map["participants" := JArr(items)])]), NoCallback)])
  }

  /** `configureRoom(ps, cb)`: ignores anything but an array (even when terminated);
      otherwise a `configure-room` request whose error reaches `cb`. */
  function ConfigureRoom(c: Conference, ps: ListArg, cb: Option<nat>): (r: (Conference, seq<Effect>))
    ensures r.0 == c
    ensures ps.NotArray? ==> r.1 == []
    ensures ps.Array? ==>
      r.1 == [Send(Ctl(c.id, "configure-room",
                       map["configure_room" := JObj(map["active_participants" := JArr(ps.items)])]),
                   ConfigureReply(cb))]
  {
    match ps
    case NotArray => (c, [])
    case Array(items) =>
      (c, [Send(Ctl(c.id, "configure-room", map["configure_room" := JObj(map["active_participants" := JArr(items)])]),
                ConfigureReply(cb))])
  }

  /** The publisher connection's `icecandidate` handler. */
  function OnIceCandidate(c: Conference, candidate: Option<Json>): (r: (Conference, seq<Effect>))
    ensures r.0 == c && |r.1| == 1 && r.1[0].Send? && r.1[0].reply == NoCallback
    ensures r.1[0].request == Ctl(c.id, "trickle", map["trickle" := JObj(map["candidates" := JArr(TrickleCandidates(candidate))])])
  {
    (c, [Send(Ctl(c.id, "trickle", map["trickle" := JObj(map["candidates" := JArr(TrickleCandidates(candidate))])]), NoCallback)])
  }

  /** `terminate()`: nothing once terminated; otherwise the `videoroom-terminate`
      request and the 150 ms fallback timer. */
  function Terminate(c: Conference): (r: (Conference, seq<Effect>))
    ensures r.0 == c
    ensures c.terminated ==> r.1 == []
    ensures !c.terminated ==>
      r.1 == [Send(Request("videoroom-terminate", map["session" := OptStr(c.id)]), TerminateReply), ArmTerminateTimer]
  {
    if c.terminated then (c, [])
    else (c, [Send(Request("videoroom-terminate", map["session" := OptStr(c.id)]), TerminateReply), ArmTerminateTimer])
  }

  // ===========================================================================
  // Closing and local termination

  /** `_close()`: closes the publisher peer connection, replaces the participant Map by
      an (empty) array and closes every participant that was in it. */
  function Close(c: Conference): (r: (Conference, seq<Effect>))
    ensures r.0.keys == map[] && r.0.keysReplaced && !r.0.hasPc
    ensures r.0.heap.Keys == c.heap.Keys
    ensures forall ref :: ref in c.heap && ref in Participants(c) ==> r.0.heap[ref] == CloseParticipant(c.heap[ref]).0
    ensures forall ref :: ref in c.heap && ref !in Participants(c) ==> r.0.heap[ref] == c.heap[ref]
    ensures r.0 == c.(hasPc := false, keys := map[], keysReplaced := true, heap := r.0.heap)
    ensures r.1 == (if c.hasPc then [ClosePeerConnection] else []) + [ParticipantsClosed(Participants(c))]
  {
    var refs := Participants(c);
    var heap := map ref | ref in c.heap :: if ref in refs then CloseParticipant(c.heap[ref]).0 else c.heap[ref];
    (c.(hasPc := false, keys := map[], keysReplaced := true, heap := heap),
     (if c.hasPc then [ClosePeerConnection] else []) + [ParticipantsClosed(refs)])
  }

  /** `_localTerminate(reason)`: once only. It leaves the account's conference index,
      sets the flag, closes everything and reports the old state moving to
      `terminated` with the reason. The `state` field itself is left as it was. */
  function LocalTerminate(c: Conference, reason: string): (r: (Conference, seq<Effect>))
    ensures c.terminated ==> r == (c, [])
    ensures !c.terminated ==>
      && r.0 == Close(c).0.(terminated := true)
      && r.0.state == c.state
      && r.1 == [RemoveFromAccount(c.id)] + Close(c).1 + [StateChanged(c.state, TERMINATED, Some(reason))]
  {
    if c.terminated then (c, [])
    else
      var (c1, e) := Close(c.(terminated := true));
      (c1, [RemoveFromAccount(c.id)] + e + [StateChanged(c.state, TERMINATED, Some(reason))])
  }

  /** The 150 ms fallback of `terminate()`: terminates locally (with an empty reason)
      unless something already did, and sets the flag in any case. */
  function TerminateTimerFired(c: Conference): (r: (Conference, seq<Effect>))
    ensures r.0.terminated
    ensures c.terminated ==> r == (c, [])
    ensures !c.terminated ==> r == LocalTerminate(c, "")
  {
    if c.terminated then (c, []) else LocalTerminate(c, "")
  }

  /** The 50 ms timer armed once the conference is accepted. */
  function InviteTimerFired(c: Conference): (r: (Conference, seq<Effect>))
    ensures r == InviteParticipants(c, Array(c.initialParticipants))
  {
    InviteParticipants(c, Array(c.initialParticipants))
  }

  // ===========================================================================
  // Server events

  /** One announced publisher: a new participant stored under its own id and then under
      its publisher id. */
  function JoinPublisher(c: Conference, p: Publisher, uuid: nat -> string): (r: (Conference, nat))
    ensures r.1 == c.nextRef && r.0.nextRef == c.nextRef + 1
    ensures r.0.heap == c.heap[r.1 := NewParticipant(uuid(r.1), p.id, Identity(p.uri, p.displayName))]
    ensures r.0.keys == c.keys[uuid(r.1) := r.1][p.id := r.1]
    ensures r.0 == c.(keys := r.0.keys, heap := r.0.heap, nextRef := r.0.nextRef)
  {
    var ref := c.nextRef;
    var part := NewParticipant(uuid(ref), p.id, Identity(p.uri, p.displayName));
    (c.(keys := c.keys[part.id := ref][p.id := ref], heap := c.heap[ref := part], nextRef := ref + 1), ref)
  }

  /** The loop over `publishers` of `initial_publishers` (`announce` false) and
      `publishers_joined` (`announce` true). */
  function JoinAll(c: Conference, ps: seq<Publisher>, uuid: nat -> string, announce: bool): (r: (Conference, seq<Effect>))
    ensures r.0.nextRef == c.nextRef + |ps|
    ensures r.0 == c.(keys := r.0.keys, heap := r.0.heap, nextRef := r.0.nextRef)
    ensures announce ==> |r.1| == |ps|
    ensures !announce ==> r.1 == []
    decreases |ps|
  {
    if |ps| == 0 then (c, [])
    else
      var (c1, ref) := JoinPublisher(c, ps[0], uuid);
      var (c2, e) := JoinAll(c1, ps[1..], uuid, announce);
      (c2, (if announce then [ParticipantJoined(ref)] else []) + e)
  }

  /** One id of `publishers_left`: a known participant leaves under its own id and the
      given id; an unknown id is ignored. */
  function LeavePublisher(c: Conference, pId: string): (r: (Conference, seq<Effect>))
    ensures Lookup(c, pId).None? ==> r == (c, [])
    ensures Lookup(c, pId).Some? ==>
      var (ref, part) := Lookup(c, pId).value;
      r == (c.(keys := c.keys - {part.id} - {pId}), [ParticipantLeft(ref)])
  {
    match Lookup(c, pId)
    case None => (c, [])
    case Some((ref, part)) => (c.(keys := c.keys - {part.id} - {pId}), [ParticipantLeft(ref)])
  }

  function LeaveAll(c: Conference, ids: seq<string>): (r: (Conference, seq<Effect>))
    ensures r.0 == c.(keys := r.0.keys)
    ensures r.0.keys.Keys <= c.keys.Keys
    decreases |ids|
  {
    if |ids| == 0 then (c, [])
    else
      var (c1, e1) := LeavePublisher(c, ids[0]);
      var (c2, e2) := LeaveAll(c1, ids[1..]);
      (c2, e1 + e2)
  }

  /** Whether an id of `active_participants` is kept, and the entry it becomes. */
  predicate Kept(c: Conference, pId: string) {
    Lookup(c, pId).Some? || c.id == Some(pId)
  }

  /** The active-participant list of a `configure-room` event: in message order, known
      participants, the local side when the id is the conference's own, and nothing
      for any other id. */
  function FilterActive(c: Conference, ids: seq<string>): (r: seq<Active>)
    ensures |r| <= |ids|
    ensures forall i :: 0 <= i < |r| ==>
      (r[i].Remote? && r[i].ref in c.heap && r[i].ref in Participants(c)) || (r[i].Self? && c.id == Some(r[i].id))
    ensures (forall i :: 0 <= i < |ids| ==> Lookup(c, ids[i]).Some?) ==>
      |r| == |ids| && forall i :: 0 <= i < |ids| ==> r[i] == Remote(c.keys[ids[i]])
    ensures (forall i :: 0 <= i < |ids| ==> !Kept(c, ids[i])) ==> r == []
    decreases |ids|
  {
    if |ids| == 0 then []
    else
      var head := match Lookup(c, ids[0])
        case Some((ref, _)) => [Remote(ref)]
        case None => if c.id == Some(ids[0]) then [Self(ids[0], LocalIdentity(c))] else [];
      var rest := FilterActive(c, ids[1..]);
      assert forall i :: 1 <= i < |ids| ==> ids[1..][i - 1] == ids[i];
      head + rest
  }

  /** Who a `configure-room` event names as originator: a known participant's
      identity, our own identity, the videoroom itself, or nobody. */
  function OriginatorOf(c: Conference, originator: string): (r: Originator)
    ensures Lookup(c, originator).Some? ==> r == ByParticipant(Lookup(c, originator).value.1.identity)
    ensures Lookup(c, originator).None? && c.id == Some(originator) ==> r == ByUs(LocalIdentity(c))
    ensures Lookup(c, originator).None? && c.id != Some(originator) ==>
      r == if originator == VIDEOROOM then ByVideoroom else Unknown
  {
    match Lookup(c, originator)
    case Some((_, part)) => ByParticipant(part.identity)
    case None =>
      if c.id == Some(originator) then ByUs(LocalIdentity(c))
      else if originator == VIDEOROOM then ByVideoroom
      else Unknown
  }

  /** Applies a participant operation to the participant object `ref`. */
  function WithParticipant(c: Conference, ref: nat, r: (Participant, seq<Effect>)): (c': (Conference, seq<Effect>))
    ensures c' == (c.(heap := c.heap[ref := r.0]), r.1)
  {
    (c.(heap := c.heap[ref := r.0]), r.1)
  }

  /** `_handleEvent`. Once `_close` has replaced the participant Map by an array, every
      event that looks a key up, or stores one, throws a `TypeError`. */
  function HandleEvent(c: Conference, ev: Event, uuid: nat -> string): (r: (Conference, seq<Effect>))
    ensures ev.OtherEvent? ==> r == (c, [])
    ensures ev.StateEvent? ==> r.0.state == Some(ev.state)
    ensures ev.StateEvent? && ev.state == ACCEPTED ==>
      r == (c.(state := Some(ACCEPTED)), if c.hasPc then [Start(ApplyAnswer(c.state))] else [Fault(NO_PC)])
    ensures ev.StateEvent? && ev.state == TERMINATED ==>
      && r.0 == Close(c).0.(state := Some(TERMINATED), terminated := true)
      && r.1 == Close(c).1 + [StateChanged(c.state, TERMINATED, ev.reason)]
    ensures ev.StateEvent? && ev.state != ACCEPTED && ev.state != TERMINATED ==>
      r == (c.(state := Some(ev.state)), [StateChanged(c.state, ev.state, None)])
    ensures (ev.InitialPublishers? || ev.PublishersJoined?) && |ev.publishers| > 0 && c.keysReplaced ==>
      r == (c, [Fault(NO_SET)])
    ensures (ev.InitialPublishers? || ev.PublishersJoined?) && !c.keysReplaced ==>
      r == JoinAll(c, ev.publishers, uuid, ev.PublishersJoined?)
    ensures ev.PublishersLeft? && !c.keysReplaced ==> r == LeaveAll(c, ev.ids)
    ensures (ev.FeedAttached? || ev.FeedEstablished? || ev.Configured?) && c.keysReplaced ==>
      r == (c, [Fault(NO_GET)])
    ensures ev.FeedAttached? && !c.keysReplaced ==>
      r == match Lookup(c, ev.subscription)
           case None => (c, [])
           case Some((ref, part)) => WithParticipant(c, ref, HandleOffer(part, ref, ev.offer))
    ensures ev.FeedEstablished? && !c.keysReplaced ==>
      r == match Lookup(c, ev.subscription)
           case None => (c, [])
           case Some((ref, part)) => WithParticipant(c, ref, SetParticipantState(part, Some(ESTABLISHED)))
    ensures ev.Configured? && !c.keysReplaced ==>
      var active := FilterActive(c, ev.activeIds);
      r == (c.(active := active), [RoomConfigured(OriginatorOf(c, ev.originator), active)])
  {
    match ev
    case OtherEvent(_) => (c, [])
    case StateEvent(newState, reason, sdp) =>
      var c1 := c.(state := Some(newState));
      if newState == ACCEPTED then
        if c.hasPc then (c1, [Start(ApplyAnswer(c.state))]) else (c1, [Fault(NO_PC)])
      else if newState == TERMINATED then
        var (c2, e) := Close(c1.(terminated := true));
        (c2, e + [StateChanged(c.state, TERMINATED, reason)])
      else (c1, [StateChanged(c.state, newState, None)])
    case InitialPublishers(ps) =>
      if c.keysReplaced then (if |ps| > 0 then (c, [Fault(NO_SET)]) else (c, []))
      else JoinAll(c, ps, uuid, false)
    case PublishersJoined(ps) =>
      if c.keysReplaced then (if |ps| > 0 then (c, [Fault(NO_SET)]) else (c, []))
      else JoinAll(c, ps, uuid, true)
    case PublishersLeft(ids) =>
      if c.keysReplaced then (if |ids| > 0 then (c, [Fault(NO_GET)]) else (c, []))
      else LeaveAll(c, ids)
    case FeedAttached(sub, offer) =>
      if c.keysReplaced then (c, [Fault(NO_GET)])
      else
        (match Lookup(c, sub)
         case None => (c, [])
         case Some((ref, part)) => WithParticipant(c, ref, HandleOffer(part, ref, offer)))
    case FeedEstablished(sub) =>
      if c.keysReplaced then (c, [Fault(NO_GET)])
      else
        (match Lookup(c, sub)
         case None => (c, [])
         case Some((ref, part)) => WithParticipant(c, ref, SetParticipantState(part, Some(ESTABLISHED))))
    case Configured(originator, ids) =>
      if c.keysReplaced then (c, [Fault(NO_GET)])
      else
        var active := FilterActive(c, ids);
        (c.(active := active), [RoomConfigured(OriginatorOf(c, originator), active)])
  }

  /** A user operation on the participant object `ref`. */
  datatype ParticipantOp = AttachOp | DetachOp | PauseVideoOp | ResumeVideoOp

  function OnParticipant(c: Conference, ref: nat, op: ParticipantOp): (r: (Conference, seq<Effect>))
    requires ref in c.heap
    ensures r.0 == c.(heap := r.0.heap) && r.0.heap.Keys == c.heap.Keys
    ensures forall other :: other in c.heap && other != ref ==> r.0.heap[other] == c.heap[other]
    ensures op == AttachOp ==> r.0.heap[ref] == Attach(c.heap[ref], c.id).0
    ensures op == PauseVideoOp ==> r.0.heap[ref].videoPaused
    ensures op == ResumeVideoOp ==> !r.0.heap[ref].videoPaused
  {
    var p := c.heap[ref];
    var step := match op
      case AttachOp => Attach(p, c.id)
      case DetachOp => Detach(p, ref, c.id)
      case PauseVideoOp => SetVideoPaused(p, true)
      case ResumeVideoOp => SetVideoPaused(p, false);
    WithParticipant(c, ref, step)
  }

  // ===========================================================================
  // Asynchronous completions and replies

  /** The completion of a WebRTC step. */
  function Resume(c: Conference, k: Step, outcome: Outcome): (r: (Conference, seq<Effect>))
    ensures k.CreateOffer? && outcome.Failed? ==> r == LocalTerminate(c, outcome.reason)
    ensures k.CreateOffer? && outcome.Done? ==> r.0 == c && |r.1| == 1 && r.1[0].Send? && r.1[0].reply == JoinReply
    ensures k.CreateOffer? && outcome.Done? ==>
      r.1[0].request == Request("videoroom-join", map["account" := JStr(c.account), "session" := OptStr(c.id),
                                                      "uri" := (if c.remoteIdentity.Some? then JStr(c.remoteIdentity.value.uri) else JNull),
                                                      "sdp" := JStr(outcome.sdp)])
    ensures k.ApplyAnswer? && outcome.Done? ==>
      r == (c, [StateChanged(k.from, ACCEPTED, None)] + (if |c.initialParticipants| > 0 then [ArmInviteTimer] else []))
    ensures k.ApplyAnswer? && outcome.Failed? ==> r == Terminate(c)
    ensures k.ParticipantAnswer? && k.ref !in c.heap ==> r == (c, [])
    ensures k.ParticipantAnswer? && k.ref in c.heap && outcome.Failed? ==>
      r == WithParticipant(c, k.ref, CloseParticipant(c.heap[k.ref]))
    ensures k.ParticipantAnswer? && k.ref in c.heap && outcome.Done? ==>
      r.0 == c && |r.1| == 1 && r.1[0].Send? && r.1[0].reply == AnswerReply(k.ref)
    ensures k.ParticipantAnswer? && k.ref in c.heap && outcome.Done? ==>
      r.1[0].request == Ctl(c.id, "feed-answer", map["feed_answer" := JObj(map["session" := JStr(c.heap[k.ref].id),
                                                                                "sdp" := JStr(outcome.sdp)])])
  {
    match k
    case CreateOffer =>
      (match outcome
       case Done(sdp) =>
         (c, [Send(Request("videoroom-join", map["account" := JStr(c.account), "session" := OptStr(c.id),
                                                 "uri" := (match c.remoteIdentity case Some(i) => JStr(i.uri) case None => JNull),
                                                 "sdp" := JStr(sdp)]), JoinReply)])
       case Failed(reason) => LocalTerminate(c, reason))
    case ApplyAnswer(from) =>
      (match outcome
       case Done(_) => (c, [StateChanged(from, ACCEPTED, None)] + (if |c.initialParticipants| > 0 then [ArmInviteTimer] else []))
       case Failed(_) => Terminate(c))
    case ParticipantAnswer(ref, _) =>
      if ref !in c.heap then (c, [])
      else
        (match outcome
         case Done(sdp) =>
           var p := c.heap[ref];
           (c, [Send(Ctl(c.id, "feed-answer", map["feed_answer" := JObj(map["session" := JStr(p.id), "sdp" := JStr(sdp)])]),
                     AnswerReply(ref))])
         case Failed(_) => WithParticipant(c, ref, CloseParticipant(c.heap[ref])))
  }

  /** The reply (`error` when it is an error) to a request of the conference. */
  function OnReply(c: Conference, k: Reply, error: Option<string>): (r: (Conference, seq<Effect>))
    ensures k.NoCallback? || k.LogOnly? ==> r == (c, [])
    ensures k.JoinReply? || k.TerminateReply? ==>
      r == if error.Some? then LocalTerminate(c, error.value) else (c, [])
    ensures k.ConfigureReply? ==>
      r == (c, if error.Some? && k.cb.Some? then [Invoke(k.cb.value, error.value)] else [])
    ensures k.DetachReply? && k.ref in c.heap ==> r == WithParticipant(c, k.ref, CloseParticipant(c.heap[k.ref]))
    ensures k.AnswerReply? && k.ref in c.heap ==>
      r == if error.Some? then WithParticipant(c, k.ref, CloseParticipant(c.heap[k.ref])) else (c, [])
  {
    match k
    case NoCallback => (c, [])
    case LogOnly => (c, [])
    case JoinReply => if error.Some? then LocalTerminate(c, error.value) else (c, [])
    case TerminateReply => if error.Some? then LocalTerminate(c, error.value) else (c, [])
    case ConfigureReply(cb) =>
      (c, if error.Some? && cb.Some? then [Invoke(cb.value, error.value)] else [])
    case DetachReply(ref) =>
      if ref in c.heap then WithParticipant(c, ref, CloseParticipant(c.heap[ref])) else (c, [])
    case AnswerReply(ref) =>
      if ref in c.heap && error.Some? then WithParticipant(c, ref, CloseParticipant(c.heap[ref])) else (c, [])
  }

  // ===========================================================================
  // Properties

  /** A joining publisher is stored under both its keys, and the participant list grows
      by exactly that one object, provided its two keys are new and distinct. */
  lemma JoinStoresTwice(c: Conference, p: Publisher, uuid: nat -> string)
    requires Wellformed(c)
    requires uuid(c.nextRef) !in c.keys && p.id !in c.keys && uuid(c.nextRef) != p.id
    ensures var (c1, ref) := JoinPublisher(c, p, uuid);
      && StoredTwice(c1, ref)
      && Participants(c1) == Participants(c) + {ref}
      && ref !in Participants(c)
      && Wellformed(c1)
  {
    var (c1, ref) := JoinPublisher(c, p, uuid);
    assert ref !in c.heap;
    forall x | x in Participants(c1) ensures x in Participants(c) + {ref} {
      var k :| k in c1.keys && c1.keys[k] == x;
      if k != uuid(ref) && k != p.id {
        assert c.keys[k] == x;
      }
    }
    forall x | x in Participants(c) ensures x in Participants(c1) {
      var k :| k in c.keys && c.keys[k] == x;
      assert c1.keys[k] == x;
    }
  }

  /** A publisher that leaves under its publisher id, having been stored under both keys,
      is gone from the participant list, and nothing else is. */
  lemma LeaveRemovesBoth(c: Conference, ref: nat)
    requires Wellformed(c) && StoredTwice(c, ref)
    ensures var c1 := LeavePublisher(c, c.heap[ref].publisherId).0;
      && Participants(c1) == Participants(c) - {ref}
      && Wellformed(c1)
  {
    var part := c.heap[ref];
    var c1 := LeavePublisher(c, part.publisherId).0;
    assert c1.keys == c.keys - {part.id} - {part.publisherId};
    forall x | x in Participants(c) - {ref} ensures x in Participants(c1) {
      var k :| k in c.keys && c.keys[k] == x;
      assert k != part.id && k != part.publisherId;
      assert k in c1.keys && c1.keys[k] == x;
    }
    forall k | k in c1.keys ensures c1.keys[k] != ref {
      assert k == c.heap[c.keys[k]].id || k == c.heap[c.keys[k]].publisherId;
    }
  }

  /** Filtering the active list respects concatenation: the entries keep message order. */
  lemma {:induction false} FilterActiveAppend(c: Conference, xs: seq<string>, ys: seq<string>)
    ensures FilterActive(c, xs + ys) == FilterActive(c, xs) + FilterActive(c, ys)
    decreases |xs|
  {
    if |xs| == 0 {
      assert xs + ys == ys;
    } else {
      assert (xs + ys)[0] == xs[0];
      assert (xs + ys)[1..] == xs[1..] + ys;
      FilterActiveAppend(c, xs[1..], ys);
    }
  }

  /** A single id is kept exactly when it names a known participant or the conference. */
  lemma FilterActiveSingle(c: Conference, pId: string)
    ensures |FilterActive(c, [pId])| == (if Kept(c, pId) then 1 else 0)
    ensures Lookup(c, pId).Some? ==> FilterActive(c, [pId]) == [Remote(c.keys[pId])]
    ensures Lookup(c, pId).None? && c.id == Some(pId) ==> FilterActive(c, [pId]) == [Self(pId, LocalIdentity(c))]
  {
    assert [pId][1..] == [];
  }

  /** `Wellformed` is kept by the publisher loops. */
  lemma {:induction false} JoinAllWellformed(c: Conference, ps: seq<Publisher>, uuid: nat -> string, announce: bool)
    requires Wellformed(c)
    ensures Wellformed(JoinAll(c, ps, uuid, announce).0)
    decreases |ps|
  {
    if |ps| > 0 {
      var (c1, ref) := JoinPublisher(c, ps[0], uuid);
      assert Wellformed(c1) by {
        assert ref !in c.heap;
        forall k | k in c1.keys
          ensures k == c1.heap[c1.keys[k]].id || k == c1.heap[c1.keys[k]].publisherId
        {
          if k != uuid(ref) && k != ps[0].id {
            assert c1.keys[k] == c.keys[k] && c1.heap[c.keys[k]] == c.heap[c.keys[k]];
          }
        }
      }
      JoinAllWellformed(c1, ps[1..], uuid, announce);
    }
  }

  lemma {:induction false} LeaveAllWellformed(c: Conference, ids: seq<string>)
    requires Wellformed(c)
    ensures Wellformed(LeaveAll(c, ids).0)
    decreases |ids|
  {
    if |ids| > 0 {
      var (c1, _) := LeavePublisher(c, ids[0]);
      assert Wellformed(c1);
      LeaveAllWellformed(c1, ids[1..]);
    }
  }

  /** Every server event keeps the key table well formed. */
  lemma HandleEventWellformed(c: Conference, ev: Event, uuid: nat -> string)
    requires Wellformed(c)
    ensures Wellformed(HandleEvent(c, ev, uuid).0)
  {
    match ev {
      case InitialPublishers(ps) => if !c.keysReplaced { JoinAllWellformed(c, ps, uuid, false); }
      case PublishersJoined(ps) => if !c.keysReplaced { JoinAllWellformed(c, ps, uuid, true); }
      case PublishersLeft(ids) => if !c.keysReplaced { LeaveAllWellformed(c, ids); }
      case _ =>
    }
  }

  /** Every participant object stays in its lifecycle through server events. */
  ghost predicate AllInLifecycle(c: Conference) {
    forall ref :: ref in c.heap ==> InLifecycle(c.heap[ref])
  }

  lemma {:induction false} JoinAllLifecycle(c: Conference, ps: seq<Publisher>, uuid: nat -> string, announce: bool)
    requires AllInLifecycle(c)
    ensures AllInLifecycle(JoinAll(c, ps, uuid, announce).0)
    decreases |ps|
  {
    if |ps| > 0 {
      var (c1, ref) := JoinPublisher(c, ps[0], uuid);
      JoinAllLifecycle(c1, ps[1..], uuid, announce);
    }
  }

  lemma {:induction false} LeaveAllHeap(c: Conference, ids: seq<string>)
    ensures LeaveAll(c, ids).0.heap == c.heap
    decreases |ids|
  {
    if |ids| > 0 {
      LeaveAllHeap(LeavePublisher(c, ids[0]).0, ids[1..]);
    }
  }

  lemma HandleEventLifecycle(c: Conference, ev: Event, uuid: nat -> string)
    requires AllInLifecycle(c)
    ensures AllInLifecycle(HandleEvent(c, ev, uuid).0)
  {
    match ev {
      case InitialPublishers(ps) => if !c.keysReplaced { JoinAllLifecycle(c, ps, uuid, false); }
      case PublishersJoined(ps) => if !c.keysReplaced { JoinAllLifecycle(c, ps, uuid, true); }
      case PublishersLeft(ids) => if !c.keysReplaced { LeaveAllHeap(c, ids); }
      case _ =>
    }
  }

  /** Local termination is idempotent and, once done, `terminate()`, the fallback
      timer and `inviteParticipants` do nothing. */
  lemma TerminationGuards(c: Conference, r1: string, r2: string, ps: ListArg)
    ensures var c1 := LocalTerminate(c, r1).0;
      && c1.terminated
      && LocalTerminate(c1, r2) == (c1, [])
      && Terminate(c1) == (c1, [])
      && TerminateTimerFired(c1) == (c1, [])
      && InviteParticipants(c1, ps) == (c1, [])
  {
  }

  /** A server `terminated` state sets the flag, so a later fallback timer reports no
      second termination. */
  lemma ServerTerminationIsFinal(c: Conference, reason: Option<string>, sdp: Option<string>, uuid: nat -> string)
    ensures var c1 := HandleEvent(c, StateEvent(TERMINATED, reason, sdp), uuid).0;
      c1.terminated && !c1.hasPc && TerminateTimerFired(c1) == (c1, [])
  {
  }

  /** `_initialize` runs once: after a successful one, any second call is refused. */
  lemma InitializeOnce(c: Conference, uri: string, ps: Option<seq<Json>>, id: string,
                       uri2: string, hasLocalStream2: bool, ps2: Option<seq<Json>>, id2: string)
    requires Initialize(c, uri, true, ps, id).Success?
    ensures Initialize(Initialize(c, uri, true, ps, id).value.0, uri2, hasLocalStream2, ps2, id2)
            == Failure(AlreadyInitialized)
  {
  }

  /** Once initialised, the conference's requests name its fresh session: the join
      request carries the account, the session, the uri it was initialised with and
      the offer; an error reply to the join terminates locally, a success changes
      nothing; and every trickle request names the same session. */
  lemma JoinAfterInitialize(c: Conference, uri: string, ps: Option<seq<Json>>, id: string,
                            sdp: string, err: string, candidate: Option<Json>)
    requires c.id.None? && '@' in uri
    ensures Initialize(c, uri, true, ps, id).Success?
    ensures var c1 := Initialize(c, uri, true, ps, id).value.0;
      var r := Resume(c1, CreateOffer, Done(sdp));
      && r.1 == [Send(Request("videoroom-join", map["account" := JStr(c.account), "session" := JStr(id),
                                                    "uri" := JStr(uri), "sdp" := JStr(sdp)]), JoinReply)]
      && OnReply(c1, r.1[0].reply, Some(err)) == LocalTerminate(c1, err)
      && OnReply(c1, r.1[0].reply, None) == (c1, [])
      && OnIceCandidate(c1, candidate).1[0].request.fields["session"] == JStr(id)
  {
    var c1 := Initialize(c, uri, true, ps, id).value.0;
    assert c1.remoteIdentity == Some(Identity(uri, None));
  }

  /** A `configure-room` error goes to the caller's callback and only there; a
      success reply reports nothing. */
  lemma ConfigureErrorReachesCallback(c: Conference, items: seq<Json>, cb: nat, err: string)
    ensures var e := ConfigureRoom(c, Array(items), Some(cb)).1;
      && |e| == 1 && e[0].Send?
      && OnReply(c, e[0].reply, Some(err)) == (c, [Invoke(cb, err)])
      && OnReply(c, e[0].reply, None) == (c, [])
  {
  }

  /** A feed offer for a known participant gives it a peer connection and starts its
      answer; the created answer goes out as a `feed-answer` naming the participant's
      session, a failed one closes the participant, and a later `feed_established`
      marks it established. */
  lemma FeedOfferAnswered(c: Conference, sub: string, offer: string, sdp: string, reason: string, uuid: nat -> string)
    requires !c.keysReplaced && Lookup(c, sub).Some?
    ensures var (ref, part) := Lookup(c, sub).value;
      var (c1, e1) := HandleEvent(c, FeedAttached(sub, offer), uuid);
      && ref in c1.heap && c1.heap[ref].hasPc && e1 == [Start(ParticipantAnswer(ref, offer))]
      && Resume(c1, ParticipantAnswer(ref, offer), Done(sdp)).1
         == [Send(Ctl(c.id, "feed-answer", map["feed_answer" := JObj(map["session" := JStr(part.id), "sdp" := JStr(sdp)])]),
                  AnswerReply(ref))]
      && (var c2 := Resume(c1, ParticipantAnswer(ref, offer), Failed(reason)).0;
          ref in c2.heap && !c2.heap[ref].hasPc && c2.heap[ref].state.None?)
      && (var c3 := HandleEvent(c1, FeedEstablished(sub), uuid).0;
          ref in c3.heap && c3.heap[ref].state == Some(ESTABLISHED))
  {
    var (ref, part) := Lookup(c, sub).value;
    var c1 := HandleEvent(c, FeedAttached(sub, offer), uuid).0;
    assert c1.heap[ref].id == part.id;
    assert Lookup(c1, sub) == Some((ref, c1.heap[ref]));
  }

  /** Initial participants are invited once the conference is accepted: the applied
      answer arms the 50 ms timer exactly when there are some, its firing sends one
      invite request carrying them, and nothing once the conference has terminated. */
  lemma InitialParticipantsInvited(c: Conference, uri: string, ps: seq<Json>, id: string,
                                   from: Option<string>, sdp: string, reason: string)
    requires c.id.None? && '@' in uri && !c.terminated
    ensures Initialize(c, uri, true, Some(ps), id).Success?
    ensures var c1 := Initialize(c, uri, true, Some(ps), id).value.0;
      && (ArmInviteTimer in Resume(c1, ApplyAnswer(from), Done(sdp)).1 <==> |ps| > 0)
      && (|ps| > 0 ==>
            InviteTimerFired(c1).1
            == [Send(Ctl(Some(id), "invite-participants",
                         map["invite_participants" := JObj(map["participants" := JArr(ps)])]), NoCallback)])
      && InviteTimerFired(LocalTerminate(c1, reason).0).1 == []
  {
    var c1 := Initialize(c, uri, true, Some(ps), id).value.0;
    var e := Resume(c1, ApplyAnswer(from), Done(sdp)).1;
    if |ps| == 0 {
      assert e == [StateChanged(from, ACCEPTED, None)];
    }
  }
}

=== FILE: connection.dfy ===
/** The signalling channel (lib/connection.js): the connection state machine, the
    table of requests awaiting an `ack` or `error`, the account registry, message
    routing, and the reconnection back-off.

    The WebSocket, the timers and `setImmediate` are not performed: opening or
    closing the socket, arming or clearing the reconnect timer and deferring a
    callback are effects, and their later firing is an input step (`Connect`,
    `OnOpen`, `OnClose`, `FireNotReady`, `FireClosed`). Transaction ids, uuids in the
    source, are drawn from a counter, which makes their freshness checkable. */
module Channel {
  import opened Common
  import Accounts
  import Calls

  const MSECS := 1000
  const INITIAL_DELAY := 500    // 0.5 * MSECS
  const MAX_DELAY := 64000      // 64 * MSECS
  const NOT_READY := "Connection is not ready"

  datatype State = Null | Connecting | Connected | Ready | Disconnected | Closed

  /** What runs when a request is answered. */
  datatype Callback =
    | NoCallback
    | AddAccountReply(account: string, user: Option<nat>)  // addAccount's handler and the caller's callback
    | RemoveAccountReply(user: Option<nat>)
    | Caller(token: nat)                                   // a callback of another component

  datatype Pending = Pending(request: Json, cb: Callback)

  datatype Connection = Connection(
    server: string,
    userAgent: string,
    state: State,
    closed: bool,                        // close() was called
    socket: bool,                        // _sock !== null
    timer: bool,                         // _timer !== null
    delay: int,                          // reconnection delay in milliseconds
    accounts: seq<Accounts.Account>,     // the account Map, in insertion order
    requests: map<nat, Pending>,         // transaction id -> request awaiting a reply
    nextTransaction: nat                 // the next transaction id to hand out
  )

  /** A message received on the socket, after JSON parsing. */
  datatype Message =
    | Untagged                           // no `sylkrtc` field
    | ServerEvent(event: string)         // sylkrtc: 'event'
    | AccountEvent(account: string, accountEvent: Accounts.Event)
    | SessionEvent(session: string, sessionEvent: Calls.Event)
    | VideoroomEvent(session: string, payload: Json)
    | Ack(transaction: nat)
    | ErrorReply(transaction: nat, error: string)
    | OtherMessage(tag: string)

  datatype Effect =
    | StateChanged(from: State, to: State)
    | Send(transaction: nat, request: Json)
    | DeferNotReady(transaction: nat, cb: Callback)   // setImmediate(() => cb(Error(NOT_READY)))
    | DeferClosed                                     // setImmediate(() => _setState('closed'))
    | ArmTimer(delay: int)                            // setTimeout(_connect, delay)
    | ClearTimer
    | OpenSocket(uri: string)
    | CloseSocket
    | AccountAdded(user: nat, error: Option<string>, added: Option<string>)
    | Invoke(token: nat, error: Option<string>)
    | AccountEffects(account: string, effects: seq<Accounts.Effect>)
    | ToConference(account: string, session: string, payload: Json)
    | Fault(message: string)

  datatype Error =
    | MissingServer | InvalidOptions | AccountAlreadyAdded | InvalidAccountId | UnknownAccount
    | AlreadyInitialized | InitializeInProgress

  // ---------------------------------------------------------------------------
  // Invariants

  /** Account ids are unique in the registry. */
  ghost predicate UniqueIds(accs: seq<Accounts.Account>) {
    forall i, j :: 0 <= i < j < |accs| ==> accs[i].id != accs[j].id
  }

  /** The delays the back-off can take: 0.5 s doubled zero to seven times. */
  function Pow2(n: nat): (r: nat)
    ensures r >= 1
  {
    if n == 0 then 1 else 2 * Pow2(n - 1)
  }

  ghost predicate IsBackoffDelay(d: int) {
    exists k :: 0 <= k < 8 && d == INITIAL_DELAY * Pow2(k)
  }

  /** Every pending transaction id was handed out already; account ids are unique;
      the delay is one the back-off can produce. */
  ghost predicate Valid(c: Connection) {
    && (forall t :: t in c.requests ==> t < c.nextTransaction)
    && UniqueIds(c.accounts)
    && IsBackoffDelay(c.delay)
  }

  // ---------------------------------------------------------------------------
  // Registry helpers

  /** `this._accounts.get(id)`, as a position in the registry. */
  function FindAccount(accs: seq<Accounts.Account>, id: string): (r: Option<nat>)
    ensures r.Some? ==> r.value < |accs| && accs[r.value].id == id
    ensures r.None? ==> forall j :: 0 <= j < |accs| ==> accs[j].id != id
  {
    FirstWhere(accs, (a: Accounts.Account) => a.id == id)
  }

  /** `this._accounts.delete(id)`. */
  function Without(accs: seq<Accounts.Account>, id: string): (r: seq<Accounts.Account>)
    ensures forall a :: a in r <==> a in accs && a.id != id
    ensures |r| <= |accs|
  {
    if |accs| == 0 then []
    else if accs[0].id == id then Without(accs[1..], id)
    else [accs[0]] + Without(accs[1..], id)
  }

  lemma {:induction false} WithoutKeepsUnique(accs: seq<Accounts.Account>, id: string)
    requires UniqueIds(accs)
    ensures UniqueIds(Without(accs, id))
  {
    if |accs| > 0 {
      WithoutKeepsUnique(accs[1..], id);
      var rest := Without(accs[1..], id);
      forall a | a in rest ensures a.id != accs[0].id {
        var j :| 0 <= j < |accs[1..]| && accs[1..][j] == a;
        assert accs[j + 1] == a;
      }
    }
  }

  /** Removing an id nobody holds leaves the registry as it was. */
  lemma {:induction false} WithoutAbsent(accs: seq<Accounts.Account>, id: string)
    requires forall j :: 0 <= j < |accs| ==> accs[j].id != id
    ensures Without(accs, id) == accs
  {
    if |accs| > 0 {
      WithoutAbsent(accs[1..], id);
    }
  }

  // ---------------------------------------------------------------------------
  // Construction and connection lifecycle

  /** `new Connection({server})`: a missing or empty server is rejected. */
  function New(server: Option<string>, userAgent: string): (r: Result<Connection, Error>)
    ensures r.Failure? <==> !Truthy(server)
    ensures r.Success? ==>
      && Valid(r.value) && r.value.state == Null && r.value.delay == INITIAL_DELAY
      && r.value.accounts == [] && r.value.requests == map[] && !r.value.closed
  {
    if !Truthy(server) then Failure(MissingServer)
    else
      assert INITIAL_DELAY == INITIAL_DELAY * Pow2(0);
      Success(Connection(server.value, userAgent, Null, false, false, false, INITIAL_DELAY, [], map[], 0))
  }

  function SetState(c: Connection, s: State): (r: (Connection, seq<Effect>))
    ensures r == (c.(state := s), [StateChanged(c.state, s)])
  {
    (c.(state := s), [StateChanged(c.state, s)])
  }

  /** `_initialize`: refused while a socket exists or a connect is pending;
      otherwise arms the connect timer with the current delay. */
  function Initialize(c: Connection): (r: Result<(Connection, seq<Effect>), Error>)
    ensures r.Failure? <==> c.socket || c.timer
    ensures r.Success? ==> r.value == (c.(timer := true), [ArmTimer(c.delay)])
  {
    if c.socket then Failure(AlreadyInitialized)
    else if c.timer then Failure(InitializeInProgress)
    else Success((c.(timer := true), [ArmTimer(c.delay)]))
  }

  /** The connect timer fires (`_connect`): state `connecting` and a new socket. */
  function Connect(c: Connection): (r: (Connection, seq<Effect>))
    ensures r.0 == c.(state := Connecting, socket := true)
    ensures r.1 == [StateChanged(c.state, Connecting), OpenSocket(c.server)]
  {
    (c.(state := Connecting, socket := true), [StateChanged(c.state, Connecting), OpenSocket(c.server)])
  }

  /** `_onOpen`: the timer is cleared, the delay reset and the state is `connected`. */
  function OnOpen(c: Connection): (r: (Connection, seq<Effect>))
    ensures r.0 == c.(timer := false, delay := INITIAL_DELAY, state := Connected)
    ensures r.1 == [ClearTimer, StateChanged(c.state, Connected)]
  {
    (c.(timer := false, delay := INITIAL_DELAY, state := Connected), [ClearTimer, StateChanged(c.state, Connected)])
  }

  /** The delay after one more unexpected close: doubled, and back to the initial
      delay once it passes the maximum. It is never capped at the maximum. */
  function Backoff(d: int): int {
    if d * 2 > MAX_DELAY then INITIAL_DELAY else d * 2
  }

  /** `_onClose`: the socket is gone and every account is dropped; the state becomes
      `disconnected`. If `close()` was not called, the delay backs off and the connect
      timer is re-armed; otherwise the state moves on to `closed` and nothing is
      scheduled. Pending requests stay in the table. */
  function OnClose(c: Connection): (r: (Connection, seq<Effect>))
    ensures r.0.accounts == [] && !r.0.socket && r.0.requests == c.requests
    ensures !c.closed ==>
      && r.0.state == Disconnected && r.0.timer && r.0.delay == Backoff(c.delay)
      && |r.1| > 0 && r.1[|r.1| - 1] == ArmTimer(Backoff(c.delay))
      && StateChanged(c.state, Disconnected) in r.1
    ensures c.closed ==>
      && r.0.state == Closed && !r.0.timer && r.0.delay == c.delay
      && r.1 == (if c.timer then [ClearTimer] else []) + [StateChanged(c.state, Disconnected), StateChanged(Disconnected, Closed)]
  {
    var clearing := if c.timer then [ClearTimer] else [];
    var c1 := c.(socket := false, timer := false, accounts := [], state := Disconnected);
    var e1 := clearing + [StateChanged(c.state, Disconnected)];
    if !c.closed then
      var d := Backoff(c.delay);
      (c1.(delay := d, timer := true), e1 + [ArmTimer(d)])
    else
      (c1.(state := Closed), e1 + [StateChanged(Disconnected, Closed)])
  }

  /** `close()`: idempotent. The first call marks the channel closed and cancels a
      pending reconnect; an open socket is closed (its close event finishes the job),
      otherwise the `closed` state is set on the next tick. */
  function Close(c: Connection): (r: (Connection, seq<Effect>))
    ensures c.closed ==> r == (c, [])
    ensures !c.closed ==>
      && r.0 == c.(closed := true, timer := false, socket := false)
      && r.1 == (if c.timer then [ClearTimer] else []) + (if c.socket then [CloseSocket] else [DeferClosed])
  {
    if c.closed then (c, [])
    else
      var clearing := if c.timer then [ClearTimer] else [];
      var c1 := c.(closed := true, timer := false);
      if c.socket then (c1.(socket := false), clearing + [CloseSocket])
      else (c1, clearing + [DeferClosed])
  }

  /** The deferred `_setState('closed')` of `close()` without a socket. */
  function FireClosed(c: Connection): (r: (Connection, seq<Effect>))
    ensures r.0.state == Closed && r.0 == c.(state := Closed)
    ensures r.1 == [StateChanged(c.state, Closed)]
  {
    SetState(c, Closed)
  }

  /** `reconnect()`: only in `disconnected`; resets the delay and re-arms the timer. */
  function Reconnect(c: Connection): (r: (Connection, seq<Effect>))
    ensures c.state != Disconnected ==> r == (c, [])
    ensures c.state == Disconnected ==>
      r == (c.(delay := INITIAL_DELAY, timer := true), [ClearTimer, ArmTimer(INITIAL_DELAY)])
  {
    if c.state == Disconnected then
      (c.(delay := INITIAL_DELAY, timer := true), [ClearTimer, ArmTimer(INITIAL_DELAY)])
    else (c, [])
  }

  // ---------------------------------------------------------------------------
  // Requests

  /** `_sendRequest(req, cb)`: every request takes a fresh transaction id. Outside
      `ready` it is neither recorded nor sent, and the callback is deferred with
      "Connection is not ready"; in `ready` it is recorded under its id and sent. */
  function SendRequest(c: Connection, req: Json, cb: Callback): (r: (Connection, seq<Effect>))
    ensures r.0.nextTransaction == c.nextTransaction + 1
    ensures r.0.state == c.state && r.0.accounts == c.accounts && r.0.delay == c.delay
    ensures c.state != Ready ==>
      r.0.requests == c.requests && r.1 == [DeferNotReady(c.nextTransaction, cb)]
    ensures c.state == Ready ==>
      && r.0.requests == c.requests[c.nextTransaction := Pending(req, cb)]
      && r.1 == [Send(c.nextTransaction, req)]
  {
    var t := c.nextTransaction;
    var c1 := c.(nextTransaction := t + 1);
    if c.state != Ready then (c1, [DeferNotReady(t, cb)])
    else (c1.(requests := c.requests[t := Pending(req, cb)]), [Send(t, req)])
  }

  /** Running the callback of an answered (or refused) request. `addAccount`'s
      handler removes the account on error and then calls the caller's callback with
      the error, or with the account on success; `removeAccount`'s handler calls the
      caller's callback with no arguments. */
  function Complete(c: Connection, cb: Callback, error: Option<string>): (r: (Connection, seq<Effect>))
    ensures cb.NoCallback? ==> r == (c, [])
    ensures cb.AddAccountReply? && error.Some? ==> r.0 == c.(accounts := Without(c.accounts, cb.account))
    ensures cb.AddAccountReply? && error.None? ==> r.0 == c
    ensures cb.AddAccountReply? && cb.user.Some? ==>
      r.1 == [AccountAdded(cb.user.value, error, if error.None? then Some(cb.account) else None)]
    ensures cb.RemoveAccountReply? ==> r.0 == c
    ensures cb.Caller? ==> r == (c, [Invoke(cb.token, error)])
  {
    match cb
    case NoCallback => (c, [])
    case AddAccountReply(id, user) =>
      var c1 := if error.Some? then c.(accounts := Without(c.accounts, id)) else c;
      var e := match user
        case Some(t) => [AccountAdded(t, error, if error.None? then Some(id) else None)]
        case None => [];
      (c1, e)
    case RemoveAccountReply(user) =>
      (c, match user case Some(t) => [Invoke(t, None)] case None => [])
    case Caller(t) => (c, [Invoke(t, error)])
  }

  /** The deferred callback of a request refused outside `ready`. The source calls it
      without checking it exists, so a request sent with no callback faults here. */
  function FireNotReady(c: Connection, cb: Callback): (r: (Connection, seq<Effect>))
    ensures cb.NoCallback? ==> r == (c, [Fault("TypeError: cb is not a function")])
    ensures !cb.NoCallback? ==> r == Complete(c, cb, Some(NOT_READY))
  {
    if cb.NoCallback? then (c, [Fault("TypeError: cb is not a function")])
    else Complete(c, cb, Some(NOT_READY))
  }

  // ---------------------------------------------------------------------------
  // Accounts

  /** The `account-add` request for a new account. The account exposes neither a
      `password` nor a `displayName` property, so both fields are undefined and
      `JSON.stringify` leaves them out. */
  function AddRequest(c: Connection, acc: Accounts.Account): (r: Json)
    ensures r.JObj? && r.fields.Keys == {"sylkrtc", "account", "user_agent"}
    ensures r.fields["sylkrtc"] == JStr("account-add") && r.fields["account"] == JStr(acc.id)
    ensures r.fields["user_agent"] == JStr(c.userAgent)
  {
    Request("account-add", map["account" := JStr(acc.id), "user_agent" := JStr(c.userAgent)])
  }

  /** `addAccount({account, password}, cb)`: non-string credentials, an id already in
      the registry and an id without `@` are refused. Otherwise the account is
      registered before the request goes out, and the reply handler removes it again
      on error. */
  function AddAccount(c: Connection, account: Option<string>, password: Option<string>,
                      md5: string -> string, user: Option<nat>): (r: Result<(Connection, seq<Effect>), Error>)
    ensures account.None? || password.None? ==> r == Failure(InvalidOptions)
    ensures account.Some? && password.Some? && FindAccount(c.accounts, account.value).Some? ==>
      r == Failure(AccountAlreadyAdded)
    ensures r.Success? <==>
      account.Some? && password.Some? && FindAccount(c.accounts, account.value).None? && '@' in account.value
    ensures r.Success? ==>
      var acc := Accounts.New(account.value, password.value, md5).value;
      && r.value.0.accounts == c.accounts + [acc]
      && r.value == SendRequest(c.(accounts := c.accounts + [acc]), AddRequest(c, acc),
                                AddAccountReply(account.value, user))
  {
    if account.None? || password.None? then Failure(InvalidOptions)
    else if FindAccount(c.accounts, account.value).Some? then Failure(AccountAlreadyAdded)
    else
      match Accounts.New(account.value, password.value, md5)
      case Failure(_) => Failure(InvalidAccountId)
      case Success(acc) =>
        Success(SendRequest(c.(accounts := c.accounts + [acc]), AddRequest(c, acc), AddAccountReply(acc.id, user)))
  }

  /** `removeAccount(account, cb)`: an account that is not the registered one under its
      id is refused; otherwise it leaves the registry at once, whatever the reply. */
  function RemoveAccount(c: Connection, acc: Accounts.Account, user: Option<nat>): (r: Result<(Connection, seq<Effect>), Error>)
    ensures r.Success? <==> acc in c.accounts && FindAccount(c.accounts, acc.id).Some?
                            && c.accounts[FindAccount(c.accounts, acc.id).value] == acc
    ensures r.Success? ==>
      && r.value.0.accounts == Without(c.accounts, acc.id)
      && r.value == SendRequest(c.(accounts := Without(c.accounts, acc.id)),
                                Request("account-remove", map["account" := JStr(acc.id)]),
                                RemoveAccountReply(user))
  {
    match FindAccount(c.accounts, acc.id)
    case None => Failure(UnknownAccount)
    case Some(i) =>
      if c.accounts[i] != acc then Failure(UnknownAccount)
      else
        Success(SendRequest(c.(accounts := Without(c.accounts, acc.id)),
                            Request("account-remove", map["account" := JStr(acc.id)]),
                            RemoveAccountReply(user)))
  }

  // ---------------------------------------------------------------------------
  // Incoming messages

  /** `_onMessage`: a message without a `sylkrtc` tag is dropped; `ready` sets the
      state; account events go to the account with that id, session events to the
      first account holding the session's call, videoroom events to the first account
      holding the conference; `ack`/`error` resolve the pending transaction, if any. */
  function OnMessage(c: Connection, m: Message): (r: (Connection, seq<Effect>))
    ensures m.Untagged? || m.OtherMessage? ==> r == (c, [])
    ensures m.ServerEvent? ==> r == if m.event == "ready" then SetState(c, Ready) else (c, [])
    ensures m.AccountEvent? && FindAccount(c.accounts, m.account).None? ==> r == (c, [])
    ensures m.AccountEvent? && FindAccount(c.accounts, m.account).Some? ==>
      var i := FindAccount(c.accounts, m.account).value;
      var (a', effects) := Accounts.HandleEvent(c.accounts[i], m.accountEvent);
      r == (c.(accounts := c.accounts[i := a']), [AccountEffects(m.account, effects)])
    ensures (m.Ack? || m.ErrorReply?) && m.transaction !in c.requests ==> r == (c, [])
    ensures (m.Ack? || m.ErrorReply?) && m.transaction in c.requests ==>
      r == Complete(c.(requests := c.requests - {m.transaction}), c.requests[m.transaction].cb,
                    if m.Ack? then None else Some(m.error))
    ensures m.VideoroomEvent? ==> r.0 == c && |r.1| <= 1
    ensures m.VideoroomEvent? && (forall j :: 0 <= j < |c.accounts| ==> m.session !in c.accounts[j].confCalls) ==>
      r.1 == []
    ensures m.VideoroomEvent? ==>
      forall i :: 0 <= i < |c.accounts| && m.session in c.accounts[i].confCalls
                  && (forall j :: 0 <= j < i ==> m.session !in c.accounts[j].confCalls) ==>
        r.1 == [ToConference(c.accounts[i].id, m.session, m.payload)]
  {
    match m
    case Untagged => (c, [])
    case OtherMessage(_) => (c, [])
    case ServerEvent(e) => if e == "ready" then SetState(c, Ready) else (c, [])
    case AccountEvent(id, ev) =>
      (match FindAccount(c.accounts, id)
       case None => (c, [])
       case Some(i) =>
         var (a', effects) := Accounts.HandleEvent(c.accounts[i], ev);
         (c.(accounts := c.accounts[i := a']), [AccountEffects(id, effects)]))
    case SessionEvent(s, ev) =>
      (match FirstWhere(c.accounts, (a: Accounts.Account) => s in a.calls)
       case None => (c, [])
       case Some(i) =>
         var (a', effects) := Accounts.CallEvent(c.accounts[i], s, ev);
         (c.(accounts := c.accounts[i := a']), [AccountEffects(c.accounts[i].id, effects)]))
    case VideoroomEvent(s, payload) =>
      (match FirstWhere(c.accounts, (a: Accounts.Account) => s in a.confCalls)
       case None => (c, [])
       case Some(i) => (c, [ToConference(c.accounts[i].id, s, payload)]))
    case Ack(t) => Resolve(c, t, None)
    case ErrorReply(t, err) => Resolve(c, t, Some(err))
  }

  /** An `ack` (no error) or `error` for transaction `t`. */
  function Resolve(c: Connection, t: nat, error: Option<string>): (r: (Connection, seq<Effect>))
    ensures t !in c.requests ==> r == (c, [])
    ensures t in c.requests ==> r == Complete(c.(requests := c.requests - {t}), c.requests[t].cb, error)
  {
    if t !in c.requests then (c, [])
    else Complete(c.(requests := c.requests - {t}), c.requests[t].cb, error)
  }

  // ---------------------------------------------------------------------------
  // Properties

  /** A session event reaches the first account (in registration order) whose calls
      include the session, and only that account's call changes. */
  lemma SessionEventRouting(c: Connection, s: string, ev: Calls.Event)
    ensures var r := OnMessage(c, SessionEvent(s, ev));
      && |r.0.accounts| == |c.accounts|
      && ((forall j :: 0 <= j < |c.accounts| ==> s !in c.accounts[j].calls) ==> r == (c, []))
      && (forall i :: 0 <= i < |c.accounts| && s in c.accounts[i].calls
                      && (forall j :: 0 <= j < i ==> s !in c.accounts[j].calls) ==>
            && r.0.accounts[i] == Accounts.CallEvent(c.accounts[i], s, ev).0
            && (forall j :: 0 <= j < |c.accounts| && j != i ==> r.0.accounts[j] == c.accounts[j]))
  {
    var p := (a: Accounts.Account) => s in a.calls;
    var found := FirstWhere(c.accounts, p);
    forall i | 0 <= i < |c.accounts| && s in c.accounts[i].calls
                 && (forall j :: 0 <= j < i ==> s !in c.accounts[j].calls)
      ensures found == Some(i)
    {
      assert p(c.accounts[i]);
    }
  }

  /** Sending keeps the invariant, and a request recorded in `ready` sits under an id
      that was not pending before. */
  lemma SendRequestFresh(c: Connection, req: Json, cb: Callback)
    requires Valid(c)
    ensures Valid(SendRequest(c, req, cb).0)
    ensures c.nextTransaction !in c.requests
    ensures c.state == Ready ==> SendRequest(c, req, cb).0.requests.Keys == c.requests.Keys + {c.nextTransaction}
  {
  }

  /** An `ack` or `error` resolves its transaction exactly once: the entry goes, nothing
      else in the table changes, and a repeated reply is ignored. */
  lemma ReplyResolvesOnce(c: Connection, t: nat, error: Option<string>)
    requires t in c.requests
    ensures var c1 := Resolve(c, t, error).0;
      && c1.requests == c.requests - {t}
      && Resolve(c1, t, error) == (c1, [])
  {
  }

  /** `Valid` is kept by every message the server sends. */
  lemma ValidOnMessage(c: Connection, m: Message)
    requires Valid(c)
    ensures Valid(OnMessage(c, m).0)
  {
    match m {
      case AccountEvent(id, ev) =>
        match FindAccount(c.accounts, id) {
          case None =>
          case Some(i) =>
            var a' := Accounts.HandleEvent(c.accounts[i], ev).0;
            assert a'.id == c.accounts[i].id;
            assert UniqueIds(c.accounts[i := a']);
        }
      case SessionEvent(s, ev) =>
        match FirstWhere(c.accounts, (a: Accounts.Account) => s in a.calls) {
          case None =>
          case Some(i) =>
            var a' := Accounts.CallEvent(c.accounts[i], s, ev).0;
            assert a'.id == c.accounts[i].id;
            assert UniqueIds(c.accounts[i := a']);
        }
      case Ack(t) =>
        if t in c.requests {
          ValidComplete(c.(requests := c.requests - {t}), c.requests[t].cb, None);
        }
      case ErrorReply(t, e) =>
        if t in c.requests {
          ValidComplete(c.(requests := c.requests - {t}), c.requests[t].cb, Some(e));
        }
      case _ =>
    }
  }

  /** `Valid` is kept by the connection lifecycle: the socket opening and closing,
      `close()`, `reconnect()` and the connect timer. */
  lemma ValidLifecycle(c: Connection)
    requires Valid(c)
    ensures Valid(OnClose(c).0)
    ensures Valid(OnOpen(c).0)
    ensures Valid(Close(c).0)
    ensures Valid(Reconnect(c).0)
    ensures Valid(Connect(c).0)
  {
    assert INITIAL_DELAY == INITIAL_DELAY * Pow2(0);
    BackoffStaysInRange(c.delay);
  }

  /** `Valid` is kept by sending a request and by a refused request's deferred callback. */
  lemma ValidRequests(c: Connection, req: Json, cb: Callback)
    requires Valid(c)
    ensures Valid(SendRequest(c, req, cb).0)
    ensures Valid(FireNotReady(c, cb).0)
  {
    ValidComplete(c, cb, Some(NOT_READY));
  }

  lemma ValidComplete(c: Connection, cb: Callback, error: Option<string>)
    requires Valid(c)
    ensures Valid(Complete(c, cb, error).0)
  {
    if cb.AddAccountReply? && error.Some? {
      WithoutKeepsUnique(c.accounts, cb.account);
    }
  }

  /** Account additions keep the registry's ids unique. */
  lemma AddAccountValid(c: Connection, account: Option<string>, password: Option<string>,
                        md5: string -> string, user: Option<nat>)
    requires Valid(c)
    ensures AddAccount(c, account, password, md5, user).Success? ==>
      Valid(AddAccount(c, account, password, md5, user).value.0)
  {
  }

  /** Removing an account keeps the connection's invariant. */
  lemma RemoveAccountValid(c: Connection, acc: Accounts.Account, user: Option<nat>)
    requires Valid(c)
    ensures RemoveAccount(c, acc, user).Success? ==> Valid(RemoveAccount(c, acc, user).value.0)
  {
    if RemoveAccount(c, acc, user).Success? {
      WithoutKeepsUnique(c.accounts, acc.id);
      ValidRequests(c.(accounts := Without(c.accounts, acc.id)),
                    Request("account-remove", map["account" := JStr(acc.id)]), RemoveAccountReply(user));
    }
  }

  /** An account added outside `ready` is undone when the refused request's deferred
      callback runs: the registry is back to what it was. */
  lemma AddAccountBeforeReadyUndone(c: Connection, account: string, password: string,
                                    md5: string -> string, user: Option<nat>)
    requires Valid(c) && c.state != Ready
    requires AddAccount(c, Some(account), Some(password), md5, user).Success?
    ensures var (c1, effects) := AddAccount(c, Some(account), Some(password), md5, user).value;
      && effects == [DeferNotReady(c.nextTransaction, AddAccountReply(account, user))]
      && FireNotReady(c1, AddAccountReply(account, user)).0.accounts == c.accounts
  {
    var acc := Accounts.New(account, password, md5).value;
    WithoutAbsent(c.accounts, account);
    assert Without(c.accounts + [acc], account) == Without(c.accounts, account) by {
      WithoutAppend(c.accounts, acc, account);
    }
  }

  lemma {:induction false} WithoutAppend(accs: seq<Accounts.Account>, a: Accounts.Account, id: string)
    requires a.id == id
    ensures Without(accs + [a], id) == Without(accs, id)
  {
    if |accs| > 0 {
      assert (accs + [a])[1..] == accs[1..] + [a];
      WithoutAppend(accs[1..], a, id);
    }
  }

  /** `close()` twice is `close()` once. */
  lemma CloseIdempotent(c: Connection)
    ensures Close(Close(c).0) == (Close(c).0, [])
  {
  }

  /** After `close()`, the socket's close event ends in `closed` and schedules no
      reconnection. */
  lemma ClosedChannelStaysDown(c: Connection)
    ensures var c1 := OnClose(Close(c).0).0;
      c1.state == Closed && !c1.timer && c1.accounts == []
    ensures forall i :: 0 <= i < |OnClose(Close(c).0).1| ==> !OnClose(Close(c).0).1[i].ArmTimer?
  {
  }

  // ---------------------------------------------------------------------------
  // The back-off

  /** The back-off stays among its eight delays: 0.5 s to 64 s. */
  lemma BackoffStaysInRange(d: int)
    requires IsBackoffDelay(d)
    ensures IsBackoffDelay(Backoff(d))
    ensures INITIAL_DELAY <= Backoff(d) <= MAX_DELAY
  {
    var k :| 0 <= k < 8 && d == INITIAL_DELAY * Pow2(k);
    assert Pow2(1) == 2 && Pow2(2) == 4 && Pow2(3) == 8 && Pow2(4) == 16 && Pow2(5) == 32 && Pow2(6) == 64;
    if k < 7 {
      assert Backoff(d) == INITIAL_DELAY * Pow2(k + 1);
    } else {
      assert Pow2(7) == 128;
      assert Backoff(d) == INITIAL_DELAY * Pow2(0);
    }
  }

  /** The delay after `n` consecutive unexpected closes, starting from `d`. */
  function BackoffAfter(d: int, n: nat): int {
    if n == 0 then d else Backoff(BackoffAfter(d, n - 1))
  }

  /** From the initial delay, `n` consecutive failures give 0.5 s times 2^(n mod 8):
      the delay doubles seven times up to 64 s and then starts again at 0.5 s. */
  lemma {:induction false} BackoffCycle(n: nat)
    ensures BackoffAfter(INITIAL_DELAY, n) == INITIAL_DELAY * Pow2(n % 8)
  {
    if n > 0 {
      BackoffCycle(n - 1);
      var k := (n - 1) % 8;
      assert Pow2(7) == 128;
      if k < 7 {
        assert n % 8 == k + 1;
      } else {
        assert n % 8 == 0;
      }
    }
  }

  /** Each unexpected close applies one back-off step to the delay. */
  lemma OnCloseBacksOff(c: Connection)
    requires Valid(c) && !c.closed
    ensures OnClose(c).0.delay == BackoffAfter(c.delay, 1)
    ensures INITIAL_DELAY <= OnClose(c).0.delay <= MAX_DELAY
  {
    BackoffStaysInRange(c.delay);
  }
}

=== FILE: keyed.dfy ===
/** Sequential insertion of key/value pairs into a map, the shape of every
    `for (x of xs) m.set(key(x), x)` loop in the client. */
module KeyedMaps {
  import opened Common

  /** `m.get(k)`. */
  function Get<K, V>(m: map<K, V>, k: K): Option<V> {
    if k in m then Some(m[k]) else None
  }

  /** Inserting the pairs of `kvs` into `m` one after the other, first to last. */
  function InsertAll<K, V>(m: map<K, V>, kvs: seq<(K, V)>): (r: map<K, V>)
    ensures r.Keys == m.Keys + (set i | 0 <= i < |kvs| :: kvs[i].0)
  {
    if |kvs| == 0 then m
    else
      var prefix := kvs[..|kvs| - 1];
      var r := InsertAll(m, prefix)[kvs[|kvs| - 1].0 := kvs[|kvs| - 1].1];
      assert (set i | 0 <= i < |kvs| :: kvs[i].0)
        == (set i | 0 <= i < |prefix| :: prefix[i].0) + {kvs[|kvs| - 1].0};
      r
  }

  /** The value bound to `k` by the last pair of `kvs` with that key, if any. */
  function LastBinding<K(==), V>(kvs: seq<(K, V)>, k: K): Option<V> {
    if |kvs| == 0 then None
    else if kvs[|kvs| - 1].0 == k then Some(kvs[|kvs| - 1].1)
    else LastBinding(kvs[..|kvs| - 1], k)
  }

  /** After the insertions, a key holds the value of its last pair in `kvs`;
      a key `kvs` never mentions keeps its old entry (or stays absent). */
  lemma {:induction false} InsertAllBinding<K, V>(m: map<K, V>, kvs: seq<(K, V)>, k: K)
    ensures Get(InsertAll(m, kvs), k)
      == (if LastBinding(kvs, k).Some? then LastBinding(kvs, k) else Get(m, k))
  {
    if |kvs| > 0 {
      InsertAllBinding(m, kvs[..|kvs| - 1], k);
    }
  }
}

=== FILE: message.dfy ===
/** A chat message (lib/message.js): how the constructor fills each field from a
    server message, the two independent state axes (`state` and
    `dispositionState`), and the `toJSON` view.

    The HTML sanitiser is foreign and passed in as a function; the Date built from
    the timestamp is kept as the raw value it is built from. */
module Messages {
  import opened Common

  const HTML := "text/html"

  /** The fields of a server message the constructor reads (`null`/`undefined` as
      `None`). */
  datatype RawMessage = RawMessage(
    messageId: Option<string>,                    // message_id
    contentTypeField: Option<string>,             // content_type
    contentTypeAlt: Option<string>,               // contentType
    account: Option<string>,
    kind: Option<string>,                         // type
    dispositionNotification: Option<seq<string>>, // disposition_notification
    disposition: Option<seq<string>>,
    timestamp: Option<string>,
    isSecure: Option<bool>,
    content: Option<string>
  )

  datatype Message = Message(
    id: string,
    content: Option<string>,
    contentType: Option<string>,
    sender: Identity,
    receiver: Option<string>,
    kind: Option<string>,
    dispositionNotification: seq<string>,
    timestamp: Option<string>,
    dispositionState: Option<string>,
    state: Option<string>,
    isSecure: bool
  )

  datatype Effect =
    | StateChanged(from: Option<string>, to: Option<string>)
    | DispositionStateChanged(from: Option<string>, to: Option<string>)

  /** `a || b` for optional strings. */
  function OrElse(a: Option<string>, b: Option<string>): (r: Option<string>)
    ensures Truthy(a) ==> r == a
    ensures !Truthy(a) ==> r == b
  {
    if Truthy(a) then a else b
  }

  /** `new Message(message, identity, state)`. `uuid` is the id drawn when the message
      carries none, and `sanitize` the HTML sanitiser. */
  function New(raw: RawMessage, identity: Identity, state: Option<string>, uuid: string,
               sanitize: Option<string> -> Option<string>): (m: Message)
    ensures m.id == if Truthy(raw.messageId) then raw.messageId.value else uuid
    ensures m.contentType == if Truthy(raw.contentTypeField) then raw.contentTypeField else raw.contentTypeAlt
    ensures m.receiver == if Truthy(raw.account) then raw.account else None
    ensures m.dispositionNotification ==
      if raw.dispositionNotification.Some? then raw.dispositionNotification.value
      else if raw.disposition.Some? then raw.disposition.value
      else []
    ensures m.dispositionState.None? && m.state == state
    ensures m.isSecure <==> raw.isSecure == Some(true)
    ensures raw.contentTypeField == Some(HTML) ==> m.content == sanitize(raw.content)
    ensures raw.contentTypeField != Some(HTML) ==> m.content == raw.content
    ensures m.sender == identity && m.kind == raw.kind && m.timestamp == raw.timestamp
  {
    Message(
      id := if Truthy(raw.messageId) then raw.messageId.value else uuid,
      content := if raw.contentTypeField == Some(HTML) then sanitize(raw.content) else raw.content,
      contentType := OrElse(raw.contentTypeField, raw.contentTypeAlt),
      sender := identity,
      receiver := OrElse(raw.account, None),
      kind := raw.kind,
      // arrays are truthy even when empty, so only absence falls through
      dispositionNotification := match raw.dispositionNotification
        case Some(d) => d
        case None => raw.disposition.GetOr([]),
      timestamp := raw.timestamp,
      dispositionState := None,
      state := state,
      isSecure := raw.isSecure == Some(true)
    )
  }

  /** `_setState(newState)`. */
  function SetState(m: Message, s: Option<string>): (r: (Message, seq<Effect>))
    ensures r.0.state == s && r.1 == [StateChanged(m.state, s)]
    ensures r.0 == m.(state := r.0.state)
  {
    (m.(state := s), [StateChanged(m.state, s)])
  }

  /** `_setDispositionState(newState)`. */
  function SetDispositionState(m: Message, s: Option<string>): (r: (Message, seq<Effect>))
    ensures r.0.dispositionState == s && r.1 == [DispositionStateChanged(m.dispositionState, s)]
    ensures r.0 == m.(dispositionState := r.0.dispositionState)
  {
    (m.(dispositionState := s), [DispositionStateChanged(m.dispositionState, s)])
  }

  // ---------------------------------------------------------------------------
  // The JSON view

  function StrList(xs: seq<string>): (r: seq<Json>)
    ensures |r| == |xs|
    ensures forall i :: 0 <= i < |xs| ==> r[i] == JStr(xs[i])
  {
    if |xs| == 0 then [] else [JStr(xs[0])] + StrList(xs[1..])
  }

  /** `toJSON()`: every field under its public name, the sender reduced to its uri and
      display name. */
  function ToJson(m: Message): (j: Json)
    ensures j.JObj?
    ensures j.fields.Keys == {"id", "content", "contentType", "dispositionNotification", "dispositionState",
                              "sender", "receiver", "timestamp", "type", "state", "isSecure"}
  {
    JObj(map[
      "id" := JStr(m.id),
      "content" := OptStr(m.content),
      "contentType" := OptStr(m.contentType),
      "dispositionNotification" := JArr(StrList(m.dispositionNotification)),
      "dispositionState" := OptStr(m.dispositionState),
      "sender" := JObj(map["uri" := JStr(m.sender.uri), "displayName" := OptStr(m.sender.displayName)]),
      "receiver" := OptStr(m.receiver),
      "timestamp" := OptStr(m.timestamp),
      "type" := OptStr(m.kind),
      "state" := OptStr(m.state),
      "isSecure" := JBool(m.isSecure)
    ])
  }

  function AsOptStr(j: Json): (r: Option<Option<string>>)
    ensures j.JNull? ==> r == Some(None)
    ensures j.JStr? ==> r == Some(Some(j.s))
    ensures !j.JNull? && !j.JStr? ==> r.None?
  {
    match j
    case JNull => Some(None)
    case JStr(s) => Some(Some(s))
    case _ => None
  }

  /** The strings of a JSON array of strings. */
  function AsStrList(items: seq<Json>): (r: Option<seq<string>>)
    ensures r.Some? ==> |r.value| == |items|
  {
    if |items| == 0 then Some([])
    else match items[0]
      case JStr(s) =>
        (match AsStrList(items[1..])
         case Some(rest) => Some([s] + rest)
         case None => None)
      case _ => None
  }

  lemma {:induction false} StrListRoundTrip(xs: seq<string>)
    ensures AsStrList(StrList(xs)) == Some(xs)
  {
    if |xs| > 0 {
      assert StrList(xs)[1..] == StrList(xs[1..]);
      StrListRoundTrip(xs[1..]);
      assert [xs[0]] + xs[1..] == xs;
    }
  }

  function Field(fields: map<string, Json>, k: string): Json {
    if k in fields then fields[k] else JNull
  }

  /** The sender object of the JSON view, read back. */
  function SenderFromJson(j: Json): (r: Option<Identity>)
  {
    if !j.JObj? then None
    else match (AsOptStr(Field(j.fields, "uri")), AsOptStr(Field(j.fields, "displayName")))
      case (Some(Some(uri)), Some(dname)) => Some(Identity(uri, dname))
      case _ => None
  }

  /** The optional-string fields of the JSON view, in constructor order, read back. */
  function OptFields(f: map<string, Json>, names: seq<string>): (r: Option<seq<Option<string>>>)
    ensures r.Some? ==> |r.value| == |names|
  {
    if |names| == 0 then Some([])
    else match (AsOptStr(Field(f, names[0])), OptFields(f, names[1..]))
      case (Some(v), Some(rest)) => Some([v] + rest)
      case _ => None
  }

  const OPT_FIELDS := ["content", "contentType", "receiver", "timestamp", "type", "state", "dispositionState"]

  /** Reads a message back from its JSON view. */
  function FromJson(j: Json): (r: Option<Message>)
  {
    if !j.JObj? then None
    else
      var f := j.fields;
      match (Field(f, "id"), Field(f, "isSecure"), SenderFromJson(Field(f, "sender")),
             Field(f, "dispositionNotification"), OptFields(f, OPT_FIELDS))
      case (JStr(id), JBool(secure), Some(sender), JArr(items), Some(v)) =>
        (match AsStrList(items)
         case Some(notify) => Some(Message(id, v[0], v[1], sender, v[2], v[4], notify, v[3], v[6], v[5], secure))
         case None => None)
      case _ => None
  }

  /** The JSON view loses nothing a message holds: reading it back gives the message. */
  lemma JsonRoundTrip(m: Message)
    ensures FromJson(ToJson(m)) == Some(m)
  {
    var f := ToJson(m).fields;
    StrListRoundTrip(m.dispositionNotification);
    assert SenderFromJson(Field(f, "sender")) == Some(m.sender);
    var names := OPT_FIELDS;
    var vals := [m.content, m.contentType, m.receiver, m.timestamp, m.kind, m.state, m.dispositionState];
    assert forall i :: 0 <= i < 7 ==> Field(f, names[i]) == OptStr(vals[i]);
    OptFieldsRead(f, names, vals);
  }

  lemma {:induction false} OptFieldsRead(f: map<string, Json>, names: seq<string>, vals: seq<Option<string>>)
    requires |names| == |vals|
    requires forall i :: 0 <= i < |names| ==> Field(f, names[i]) == OptStr(vals[i])
    ensures OptFields(f, names) == Some(vals)
  {
    if |names| > 0 {
      OptFieldsRead(f, names[1..], vals[1..]);
      assert [vals[0]] + vals[1..] == vals;
    }
  }

  /** The two state axes are independent: each setter changes only its own field of the
      JSON view, and applying them in either order gives the same message. */
  lemma StateAxesIndependent(m: Message, s: Option<string>, d: Option<string>)
    ensures SetDispositionState(SetState(m, s).0, d).0 == SetState(SetDispositionState(m, d).0, s).0
    ensures ToJson(SetState(m, s).0).fields == ToJson(m).fields["state" := OptStr(s)]
    ensures ToJson(SetDispositionState(m, d).0).fields == ToJson(m).fields["dispositionState" := OptStr(d)]
  {
  }

  /** Content is sanitised exactly when `content_type` is `text/html`: `contentType`
      alone does not trigger it. */
  lemma SanitisedOnlyForHtml(raw: RawMessage, identity: Identity, uuid: string,
                             sanitize: Option<string> -> Option<string>)
    requires raw.contentTypeField.None? && raw.contentTypeAlt == Some(HTML)
    ensures New(raw, identity, None, uuid, sanitize).contentType == Some(HTML)
    ensures New(raw, identity, None, uuid, sanitize).content == raw.content
  {
  }
}

=== FILE: pgp.dfy ===
/** The PGP glue of lib/pgp.js: the cache of contacts' public keys, the fall-back
    to plaintext when a message cannot be encrypted, the shape of an exported key,
    and the splitting of a message's content around one armoured block.

    openpgp and the worker are foreign: every cipher is a function parameter, and
    a failure anywhere in a promise chain is that function returning `None`. */
module Pgp {
  import opened Common
  import KeyedMaps
  import Text

  /** The cache of public keys, by contact uri; a stored `undefined` is `None`. */
  type Cache = map<string, Option<string>>

  datatype Pgp = Pgp(armoredPrivateKey: Option<string>, armoredPublicKey: Option<string>, cache: Cache)

  datatype Effect =
    | PublicKeyAdded(contact: string, key: Option<string>)
    | LookupRequested(uri: string)

  /** The constructor: falsy keys become `null`, and the cache starts empty. */
  function New(privateKey: Option<string>, publicKey: Option<string>): (p: Pgp)
    ensures p.armoredPrivateKey == (if Truthy(privateKey) then privateKey else None)
    ensures p.armoredPublicKey == (if Truthy(publicKey) then publicKey else None)
    ensures p.cache == map[]
  {
    Pgp(if Truthy(privateKey) then privateKey else None,
        if Truthy(publicKey) then publicKey else None,
        map[])
  }

  function AddedEffects(keys: seq<(string, Option<string>)>): (r: seq<Effect>)
    ensures |r| == |keys|
    ensures forall i :: 0 <= i < |keys| ==> r[i] == PublicKeyAdded(keys[i].0, keys[i].1)
  {
    if |keys| == 0 then [] else [PublicKeyAdded(keys[0].0, keys[0].1)] + AddedEffects(keys[1..])
  }

  /** `addPublicPGPKeys(keys)`: the pairs of the object, in key order, each stored and
      announced. */
  function AddPublicKeys(p: Pgp, keys: seq<(string, Option<string>)>): (r: (Pgp, seq<Effect>))
    ensures r.0.armoredPrivateKey == p.armoredPrivateKey && r.0.armoredPublicKey == p.armoredPublicKey
    ensures r.0.cache.Keys == p.cache.Keys + (set i | 0 <= i < |keys| :: keys[i].0)
    ensures r.1 == AddedEffects(keys)
  {
    (p.(cache := KeyedMaps.InsertAll(p.cache, keys)), AddedEffects(keys))
  }

  /** Every added contact holds the key of its last pair, overwriting what was cached;
      other contacts keep their entries. */
  lemma AddPublicKeysBinding(p: Pgp, keys: seq<(string, Option<string>)>, contact: string)
    ensures KeyedMaps.Get(AddPublicKeys(p, keys).0.cache, contact)
      == (if KeyedMaps.LastBinding(keys, contact).Some? then KeyedMaps.LastBinding(keys, contact)
          else KeyedMaps.Get(p.cache, contact))
  {
    KeyedMaps.InsertAllBinding(p.cache, keys, contact);
  }

  /** How `_lookupPublicKey` answers: at once from the cache, or once the server's
      `publicKey` event arrives. */
  datatype Lookup = Cached(key: string) | AwaitServer

  /** A cached key, one that is not `undefined`. */
  predicate IsCached(p: Pgp, uri: string) {
    uri in p.cache && p.cache[uri].Some?
  }

  /** `_lookupPublicKey(uri)`: a hit asks nothing of the server; a miss (including a
      stored `undefined`) asks the server for the key. */
  function LookupPublicKey(p: Pgp, uri: string): (r: (Lookup, seq<Effect>))
    ensures r.0.Cached? <==> IsCached(p, uri)
    ensures r.0.Cached? ==> r.0.key == p.cache[uri].value && r.1 == []
    ensures r.0.AwaitServer? ==> r.1 == [LookupRequested(uri)]
  {
    if IsCached(p, uri) then (Cached(p.cache[uri].value), [])
    else (AwaitServer, [LookupRequested(uri)])
  }

  /** The server's `publicKey` event. */
  datatype PublicKeyMessage = PublicKeyMessage(uri: string, publicKey: Option<string>)

  /** The `publicKey` listener of a pending lookup: the event's key is cached under the
      event's uri and the lookup resolves with it, whichever uri was asked for. */
  function OnServerKey(p: Pgp, msg: PublicKeyMessage): (r: (Pgp, Option<string>, seq<Effect>))
    ensures r.0.cache == p.cache[msg.uri := msg.publicKey]
    ensures r.0.armoredPrivateKey == p.armoredPrivateKey && r.0.armoredPublicKey == p.armoredPublicKey
    ensures r.1 == msg.publicKey
    ensures r.2 == [PublicKeyAdded(msg.uri, msg.publicKey)]
  {
    var (q, effects) := AddPublicKeys(p, [(msg.uri, msg.publicKey)]);
    KeyedMaps.InsertAllBinding(p.cache, [(msg.uri, msg.publicKey)], msg.uri);
    assert q.cache == p.cache[msg.uri := msg.publicKey];
    (q, msg.publicKey, effects)
  }

  /** A miss followed by the server's key for that uri: the next lookup is a hit and
      asks the server nothing. */
  lemma ServerKeyIsCached(p: Pgp, uri: string, key: string)
    requires !IsCached(p, uri)
    ensures LookupPublicKey(p, uri) == (AwaitServer, [LookupRequested(uri)])
    ensures LookupPublicKey(OnServerKey(p, PublicKeyMessage(uri, Some(key))).0, uri) == (Cached(key), [])
  {
  }

  // ---------------------------------------------------------------------------
  // encryptMessage and exportKeys

  datatype Encrypted = Encrypted(message: string, didEncrypt: bool)

  /** `encryptMessage` once the lookup has answered with `key`. `encrypt(text, keys)`
      stands for reading the recipient's key and encrypting to the listed keys;
      `None` is any rejection on the way. No key, or any failure, gives back the
      plaintext. */
  function EncryptMessage(key: Option<string>, content: string, ownKey: Option<string>,
                          encrypt: (string, seq<Option<string>>) -> Option<string>): (r: Encrypted)
    ensures r.didEncrypt <==> key.Some? && encrypt(content, [ownKey, key]).Some?
    ensures r.didEncrypt ==> r.message == encrypt(content, [ownKey, key]).value
    ensures !r.didEncrypt ==> r.message == content
  {
    if key.None? then Encrypted(content, false)
    else match encrypt(content, [ownKey, key])
      case Some(cipher) => Encrypted(cipher, true)
      case None => Encrypted(content, false)
  }

  /** The whole of `encryptMessage` against the cache: a cached key encrypts to the
      user's own key and the cached one; a miss answered with `undefined` sends the
      plaintext. */
  lemma EncryptThroughCache(p: Pgp, uri: string, content: string,
                            encrypt: (string, seq<Option<string>>) -> Option<string>)
    ensures IsCached(p, uri) ==>
      var r := EncryptMessage(Some(LookupPublicKey(p, uri).0.key), content, p.armoredPublicKey, encrypt);
      r.didEncrypt == encrypt(content, [p.armoredPublicKey, p.cache[uri]]).Some?
    ensures !IsCached(p, uri) ==>
      var q := OnServerKey(p, PublicKeyMessage(uri, None));
      EncryptMessage(q.1, content, q.0.armoredPublicKey, encrypt) == Encrypted(content, false)
  {
  }

  /** A template-literal interpolation: `null` is written as "null". */
  function Interpolate(s: Option<string>): string {
    s.GetOr("null")
  }

  /** `exportKeys(password)`: the trimmed armoured private key is encrypted with the
      password; the result is the armoured public key, a newline and the cipher text,
      or an empty message when encryption fails. */
  function ExportKeys(p: Pgp, password: string, encrypt: (string, string) -> Option<string>): (r: Encrypted)
    ensures r.didEncrypt <==> encrypt(Text.Trim(Interpolate(p.armoredPrivateKey)), password).Some?
    ensures !r.didEncrypt ==> r.message == ""
    ensures r.didEncrypt ==>
      var head := Interpolate(p.armoredPublicKey) + "\n";
      && head <= r.message
      && r.message[|head|..] == encrypt(Text.Trim(Interpolate(p.armoredPrivateKey)), password).value
  {
    var text := Text.Trim(Interpolate(p.armoredPrivateKey));
    match encrypt(text, password)
    case Some(cipher) =>
      var m := Interpolate(p.armoredPublicKey) + "\n" + cipher;
      assert m[|Interpolate(p.armoredPublicKey) + "\n"|..] == cipher;
      Encrypted(m, true)
    case None => Encrypted("", false)
  }

  /** Without a private key the text encrypted is the word "null", and the export still
      reports success when that encryption does. */
  lemma ExportWithoutPrivateKey(p: Pgp, password: string, encrypt: (string, string) -> Option<string>)
    requires p.armoredPrivateKey.None?
    ensures ExportKeys(p, password, encrypt).didEncrypt <==> encrypt("null", password).Some?
  {
    var t := Text.Trim("null");
    assert Text.LeadingSpaces("null") == 0;
    assert Text.TrailingSpaces("null") == 0;
    assert t == "null";
  }

  // ---------------------------------------------------------------------------
  // decryptKeyImport

  const BEGIN := "-----BEGIN PGP MESSAGE-----"
  const END := "-----END PGP MESSAGE-----"

  /** The last position `i <= hi` where `t` matches `s`, ignoring letter case. */
  function LastMatch(s: string, t: string, hi: int): (r: Option<nat>)
    ensures r.Some? ==> r.value <= hi && Text.MatchesAtCI(s, r.value, t)
    ensures r.Some? ==> forall j: nat :: r.value < j <= hi ==> !Text.MatchesAtCI(s, j, t)
    ensures r.None? ==> forall j: nat :: j <= hi ==> !Text.MatchesAtCI(s, j, t)
    decreases hi
  {
    if hi < 0 then None
    else if Text.MatchesAtCI(s, hi, t) then Some(hi)
    else LastMatch(s, t, hi - 1)
  }

  /** The groups of the armour regular expression. */
  datatype Split = Split(before: string, block: string, after: string)

  /** Some BEGIN marker has an END marker starting after it ends. */
  ghost predicate HasBlock(s: string) {
    exists b: nat, e: nat :: b + |BEGIN| <= e && Text.MatchesAtCI(s, b, BEGIN) && Text.MatchesAtCI(s, e, END)
  }

  /** The match of `/(?<before>[^]*)(?<pgpMessage>BEGIN[^]*END)(?<after>[^]*)/i`: the
      greedy `before` takes the block from the last BEGIN that still has an END after
      it, and the greedy middle runs to the last END. The match spans the whole
      content, so the later `exec` of the global loop finds nothing more. */
  function SplitArmour(s: string): (r: Option<Split>)
    ensures r.Some? <==> HasBlock(s)
    ensures r.Some? ==> r.value.before + r.value.block + r.value.after == s
    ensures r.Some? ==>
      var b := |r.value.before|;
      var e := |s| - |r.value.after| - |END|;
      && b + |BEGIN| <= e
      && Text.MatchesAtCI(s, b, BEGIN) && Text.MatchesAtCI(s, e, END)
      && (forall j: nat :: e < j ==> !Text.MatchesAtCI(s, j, END))
      && (forall j: nat :: b < j && Text.MatchesAtCI(s, j, BEGIN) ==>
            forall k: nat :: j + |BEGIN| <= k ==> !Text.MatchesAtCI(s, k, END))
  {
    match LastMatch(s, END, |s| - 1)
    case None =>
      NoBlockWithoutEnd(s);
      None
    case Some(e) =>
      match LastMatch(s, BEGIN, e - |BEGIN|)
      case None =>
        NoBlockWithoutBegin(s, e);
        None
      case Some(b) =>
        LastBlock(s, b, e);
        SplitAt(s, b, e);
        Some(Split(s[..b], s[b..e + |END|], s[e + |END|..]))
  }

  /** The three pieces cut at `b` and after the END marker at `e` give `s` back. */
  lemma SplitAt(s: string, b: nat, e: nat)
    requires b <= e && e + |END| <= |s|
    ensures var x := Split(s[..b], s[b..e + |END|], s[e + |END|..]);
      && x.before + x.block + x.after == s
      && |x.before| == b && |s| - |x.after| - |END| == e
  {
    assert s[..b] + s[b..e + |END|] == s[..e + |END|];
  }

  lemma NoBlockWithoutEnd(s: string)
    requires forall j: nat :: j <= |s| - 1 ==> !Text.MatchesAtCI(s, j, END)
    ensures !HasBlock(s)
  {
  }

  lemma NoBlockWithoutBegin(s: string, e: nat)
    requires forall j: nat :: e < j ==> !Text.MatchesAtCI(s, j, END)
    requires forall j: nat :: j <= e - |BEGIN| ==> !Text.MatchesAtCI(s, j, BEGIN)
    ensures !HasBlock(s)
  {
  }

  lemma LastBlock(s: string, b: nat, e: nat)
    requires b + |BEGIN| <= e
    requires Text.MatchesAtCI(s, b, BEGIN) && Text.MatchesAtCI(s, e, END)
    requires forall j: nat :: e < j ==> !Text.MatchesAtCI(s, j, END)
    requires forall j: nat :: b < j <= e - |BEGIN| ==> !Text.MatchesAtCI(s, j, BEGIN)
    ensures HasBlock(s)
    ensures forall j: nat :: b < j && Text.MatchesAtCI(s, j, BEGIN) ==>
              forall k: nat :: j + |BEGIN| <= k ==> !Text.MatchesAtCI(s, k, END)
  {
    forall j: nat | b < j && Text.MatchesAtCI(s, j, BEGIN)
      ensures forall k: nat :: j + |BEGIN| <= k ==> !Text.MatchesAtCI(s, k, END)
    {
      assert j > e - |BEGIN|;
    }
  }

  /** How `decryptKeyImport` ends. */
  datatype Import =
    | ThrowsTypeError                           // no armoured block: `match.groups` of null
    | Resolved(content: string, didDecrypt: bool) // the callback was called and the promise resolved
    | Rejected(content: string)                 // no callback: calling `null` rejects the promise

  /** `decryptKeyImport(message, password, cb)`, with `decrypt(block, password)`
      standing for reading and decrypting the armoured block. `content` is the
      message's content afterwards: on success it is rebuilt around the plaintext
      before the callback runs, so it stays rebuilt even when there is no callback. */
  function DecryptKeyImport(content: string, password: string, hasCallback: bool,
                            decrypt: (string, string) -> Option<string>): (r: Import)
    ensures r.ThrowsTypeError? <==> !HasBlock(content)
    ensures !r.ThrowsTypeError? ==>
      var x := SplitArmour(content).value;
      && (r.Resolved? <==> hasCallback)
      && (hasCallback ==> (r.didDecrypt <==> decrypt(x.block, password).Some?))
      && (decrypt(x.block, password).Some? ==> r.content == x.before + decrypt(x.block, password).value + x.after)
      && (decrypt(x.block, password).None? ==> r.content == content)
  {
    match SplitArmour(content)
    case None => ThrowsTypeError
    case Some(x) =>
      match decrypt(x.block, password)
      case Some(plain) =>
        var rebuilt := x.before + plain + x.after;
        if hasCallback then Resolved(rebuilt, true) else Rejected(rebuilt)
      case None =>
        if hasCallback then Resolved(content, false) else Rejected(content)
  }

  /** A block that decrypts to itself gives back the content unchanged: only the
      block is replaced. */
  lemma ImportReplacesOnlyTheBlock(content: string, password: string,
                                   decrypt: (string, string) -> Option<string>)
    requires HasBlock(content)
    requires decrypt(SplitArmour(content).value.block, password) == Some(SplitArmour(content).value.block)
    ensures DecryptKeyImport(content, password, true, decrypt) == Resolved(content, true)
  {
  }

  // ---------------------------------------------------------------------------
  // decryptMessage

  /** The worker's answer. */
  datatype WorkerReply = WorkerError(error: string) | WorkerResult(result: string)

  datatype Decrypted = Decrypted(content: string, didDecrypt: bool)

  /** `decryptMessage(message)` once the worker answers: an error leaves the content
      and reports no decryption; a result replaces the content. */
  function DecryptMessage(content: string, reply: WorkerReply): (r: Decrypted)
    ensures r.didDecrypt <==> reply.WorkerResult?
    ensures r.didDecrypt ==> r.content == reply.result
    ensures !r.didDecrypt ==> r.content == content
  {
    match reply
    case WorkerError(_) => Decrypted(content, false)
    case WorkerResult(plain) => Decrypted(plain, true)
  }

  /** The worker's answer to a message when it decrypts with `decrypt`: the
      plaintext, or an error when decryption is rejected. */
  function WorkerAnswer(message: string, decrypt: string -> Option<string>, error: string): (r: WorkerReply)
    ensures r.WorkerResult? <==> decrypt(message).Some?
    ensures r.WorkerResult? ==> r.result == decrypt(message).value
  {
    match decrypt(message)
    case Some(plain) => WorkerResult(plain)
    case None => WorkerError(error)
  }

  /** Encrypting through the cache and decrypting on the other side round-trips: given
      that the other side's `decrypt` inverts `encrypt` for the two keys, a message
      that was encrypted decrypts to the original content; one sent as plaintext,
      which the worker refuses, arrives as that content unchanged. */
  lemma EncryptDecryptRoundTrip(p: Pgp, uri: string, content: string,
                                encrypt: (string, seq<Option<string>>) -> Option<string>,
                                decrypt: string -> Option<string>, error: string)
    requires IsCached(p, uri)
    requires var cipher := encrypt(content, [p.armoredPublicKey, p.cache[uri]]);
      cipher.Some? ==> decrypt(cipher.value) == Some(content)
    requires decrypt(content).None?
    ensures var e := EncryptMessage(Some(LookupPublicKey(p, uri).0.key), content, p.armoredPublicKey, encrypt);
      DecryptMessage(e.message, WorkerAnswer(e.message, decrypt, error)) == Decrypted(content, e.didEncrypt)
  {
    assert LookupPublicKey(p, uri).0.key == p.cache[uri].value;
  }
}

=== FILE: sdp.dfy ===
/** The media helpers of lib/utils.js: the H264 fmtp fix-up of a local SDP, the type
    guard of `createLocalSdp` and the short-circuit of `getUserMedia`.

    SDP parsing and writing (`sdp-transform`) are foreign: the fix-up works on the
    parsed form, kept down to the parts it reads and writes. */
module Sdp {
  import opened Common
  import Text

  const H264 := "H264"
  const VIDEO := "video"
  const PROFILE_LEVEL_ID := "profile-level-id"
  const H264_CONFIG := PROFILE_LEVEL_ID + "=42e01f;packetization-mode=1;level-asymmetry-allowed=1"

  datatype Rtp = Rtp(payload: int, codec: string)
  datatype Fmtp = Fmtp(payload: int, config: string)
  datatype Media = Media(kind: string, rtp: seq<Rtp>, fmtp: seq<Fmtp>)
  datatype ParsedSdp = ParsedSdp(media: seq<Media>)

  /** The payload of the first H264 rtp entry of a section. */
  function H264Payload(m: Media): (r: Option<int>)
    ensures r.Some? <==> exists i :: 0 <= i < |m.rtp| && m.rtp[i].codec == H264
    ensures r.Some? ==> exists i :: 0 <= i < |m.rtp| && m.rtp[i].codec == H264 && m.rtp[i].payload == r.value
                                    && forall j :: 0 <= j < i ==> m.rtp[j].codec != H264
  {
    match FirstWhere(m.rtp, (x: Rtp) => x.codec == H264)
    case Some(i) => Some(m.rtp[i].payload)
    case None => None
  }

  /** The section the fix-up works on: a video section with an H264 entry. */
  predicate Candidate(m: Media) {
    m.kind == VIDEO && H264Payload(m).Some?
  }

  /** Some fmtp line for `payload` already mentions `profile-level-id`. */
  predicate HasProfileLevelId(m: Media, payload: int) {
    exists i :: 0 <= i < |m.fmtp| && m.fmtp[i].payload == payload && Text.Contains(m.fmtp[i].config, PROFILE_LEVEL_ID)
  }

  /** The fix-up of one candidate section: the fixed fmtp line is appended when no fmtp
      line for the H264 payload mentions `profile-level-id`. */
  function FixupMedia(m: Media): (r: Media)
    requires Candidate(m)
    ensures r.kind == m.kind && r.rtp == m.rtp
    ensures HasProfileLevelId(m, H264Payload(m).value) ==> r == m
    ensures !HasProfileLevelId(m, H264Payload(m).value) ==>
      r.fmtp == m.fmtp + [Fmtp(H264Payload(m).value, H264_CONFIG)]
    ensures HasProfileLevelId(r, H264Payload(r).value)
  {
    var payload := H264Payload(m).value;
    if HasProfileLevelId(m, payload) then m
    else
      var r := m.(fmtp := m.fmtp + [Fmtp(payload, H264_CONFIG)]);
      assert H264_CONFIG[0..|PROFILE_LEVEL_ID|] == PROFILE_LEVEL_ID;
      assert Text.OccursAt(H264_CONFIG, 0, PROFILE_LEVEL_ID);
      assert r.fmtp[|m.fmtp|].payload == payload && Text.Contains(r.fmtp[|m.fmtp|].config, PROFILE_LEVEL_ID);
      r
  }

  /** `fixupSdp`, on the parsed SDP: only the first candidate section changes. */
  function Fixup(sdp: ParsedSdp): (r: ParsedSdp)
    ensures |r.media| == |sdp.media|
    ensures forall i :: 0 <= i < |sdp.media| ==> r.media[i].kind == sdp.media[i].kind && r.media[i].rtp == sdp.media[i].rtp
  {
    match FirstWhere(sdp.media, Candidate)
    case None => sdp
    case Some(i) => ParsedSdp(sdp.media[i := FixupMedia(sdp.media[i])])
  }

  /** The loop of `fixupSdp`, section by section: `h264payload` starts null, a video
      section without H264 leaves it null and the loop goes on, and the first video
      section with H264 is fixed and ends the loop. */
  method FixupSdp(sdp: ParsedSdp) returns (r: ParsedSdp)
    ensures r == Fixup(sdp)
    ensures forall i :: 0 <= i < |sdp.media| && !Candidate(sdp.media[i]) ==> r.media[i] == sdp.media[i]
    ensures forall i :: 0 <= i < |sdp.media| && sdp.media[i].kind != VIDEO ==> r.media[i] == sdp.media[i]
  {
    var media := sdp.media;
    var i := 0;
    while i < |media|
      invariant 0 <= i <= |media| && media == sdp.media
      invariant forall j :: 0 <= j < i ==> !Candidate(media[j])
    {
      if media[i].kind == VIDEO {
        var payload := H264Payload(media[i]);
        if payload.Some? {
          media := media[i := FixupMedia(media[i])];
          assert FirstWhere(sdp.media, Candidate) == Some(i);
          return ParsedSdp(media);
        }
      }
      i := i + 1;
    }
    r := sdp;
  }

  /** Only the first candidate section is touched, and every later section is left as
      it was. */
  lemma OnlyFirstCandidate(sdp: ParsedSdp, i: nat)
    requires i < |sdp.media| && Candidate(sdp.media[i])
    requires forall j :: 0 <= j < i ==> !Candidate(sdp.media[j])
    ensures Fixup(sdp).media[i] == FixupMedia(sdp.media[i])
    ensures forall j :: 0 <= j < |sdp.media| && j != i ==> Fixup(sdp).media[j] == sdp.media[j]
  {
    assert Candidate(sdp.media[i]);
  }

  /** Fixing up an SDP twice is the same as fixing it up once. */
  lemma FixupIdempotent(sdp: ParsedSdp)
    ensures Fixup(Fixup(sdp)) == Fixup(sdp)
  {
    match FirstWhere(sdp.media, Candidate) {
      case None =>
      case Some(i) =>
        var r := Fixup(sdp);
        var m := FixupMedia(sdp.media[i]);
        assert r.media[i] == m;
        assert H264Payload(m) == H264Payload(sdp.media[i]) by {
          assert m.rtp == sdp.media[i].rtp;
        }
        assert Candidate(m);
        forall j | 0 <= j < i ensures !Candidate(r.media[j]) {
          assert r.media[j] == sdp.media[j];
        }
        OnlyFirstCandidate(r, i);
        assert FixupMedia(m) == m;
        assert r.media[i := m] == r.media;
    }
  }

  // ---------------------------------------------------------------------------
  // createLocalSdp and getUserMedia

  datatype SdpType = Offer | Answer

  /** The type guard of `createLocalSdp`: anything but `offer` or `answer` is rejected
      before any work starts, with a message naming the value given. */
  function CreateLocalSdpKind(kind: string): (r: Result<SdpType, string>)
    ensures r.Success? <==> kind == "offer" || kind == "answer"
    ensures r.Success? ==> (r.value == Offer <==> kind == "offer")
    ensures r.Failure? ==> r.error == "type must be \"offer\" or \"answer\", but \"" + kind + "\" was given"
  {
    if kind == "offer" then Success(Offer)
    else if kind == "answer" then Success(Answer)
    else Failure("type must be \"offer\" or \"answer\", but \"" + kind + "\" was given")
  }

  /** How the browser's create/set-local-description steps end. */
  datatype LocalSdpOutcome = Created(local: ParsedSdp) | CreateFailed(error: string) | SetLocalFailed(error: string)

  /** The settlement of `createLocalSdp` once its browser steps end: the local SDP,
      fixed up, or a rejection naming the step that failed. */
  function CompleteLocalSdp(outcome: LocalSdpOutcome): (r: Result<ParsedSdp, string>)
    ensures outcome.Created? ==> r == Success(Fixup(outcome.local))
    ensures outcome.CreateFailed? ==> r == Failure("Error creating local SDP: " + outcome.error)
    ensures outcome.SetLocalFailed? ==> r == Failure("Error setting local description: " + outcome.error)
  {
    match outcome
    case Created(local) => Success(Fixup(local))
    case CreateFailed(e) => Failure("Error creating local SDP: " + e)
    case SetLocalFailed(e) => Failure("Error setting local description: " + e)
  }

  /** What `getUserMedia` does: resolve at once with the stream it was given, or ask the
      browser for media. */
  datatype MediaRequest<S> = Resolved(stream: S) | RequestMedia(constraints: Json)

  function GetUserMedia<S>(constraints: Json, localStream: Option<S>): (r: MediaRequest<S>)
    ensures localStream.Some? <==> r.Resolved?
    ensures localStream.Some? ==> r.stream == localStream.value
    ensures localStream.None? ==> r == RequestMedia(constraints)
  {
    match localStream
    case Some(s) => Resolved(s)
    case None => RequestMedia(constraints)
  }

  /** The rejection when the browser refuses media: `reject` takes one argument, so the
      format string is the whole reason and the browser's error is dropped. */
  function UserMediaFailure(error: string): (r: string)
    ensures |r| >= 2 && r[|r| - 2..] == "%s"
  {
    "Error getting user media: %s"
  }

  /** The browser's error never reaches the rejection reason. */
  lemma UserMediaErrorDropped(e1: string, e2: string)
    ensures UserMediaFailure(e1) == UserMediaFailure(e2)
  {
  }
}

=== FILE: statistics.dfy ===
/** The bookkeeping of lib/statistics.js: which peer connections are monitored
    (`peerId → connectionId → entry`), the argument checks of adding and removing
    them, when stats polling starts, and the filter on stats types.

    Peer connections are references (`nat`); `getStats` polling, the listeners on
    each connection and the parsing of the stats themselves are not modelled. */
module Statistics {
  import opened Common

  const STATS_TO_MONITOR: seq<string> := [
    "inbound-rtp", "outbound-rtp", "remote-inbound-rtp", "remote-outbound-rtp",
    "peer-connection", "data-channel", "stream", "track", "sender", "receiver",
    "transport", "candidate-pair", "local-candidate", "remote-candidate"
  ]

  const MISSING_PC := "Missing argument 'pc' or is not of instance RTCPeerConnection"
  const MISSING_PEER_ID := "Missing argument peerId"
  const MISSING_ARGUMENTS := "Missing arguments. You need to either send a peerId and pc, or a connectionId."
  const NEED_PEER_AND_PC := "By not sending a connectionId, you need to send a peerId and a pc (RTCPeerConnection instance)"
  /** Iterating a plain object with `for ... of`. */
  const NOT_ITERABLE := "TypeError: object is not iterable"
  /** `Object.values` of a peer that is not monitored. */
  const NO_SUCH_PEER := "TypeError: Cannot convert undefined or null to object"
  /** Reading through `this.peersToMonitor`, which is never defined. */
  const NO_PEERS_TO_MONITOR := "TypeError: Cannot read properties of undefined"

  function AlreadyMonitoringConnection(connectionId: string): string {
    "We are already monitoring connection with id " + connectionId + "."
  }

  function AlreadyMonitoringPeer(peerId: string): string {
    "We are already monitoring peer with id " + peerId + "."
  }

  /** The `pc` argument: absent, some other object, or an `RTCPeerConnection`. */
  datatype PcArg = NoPc | NotRtc | Rtc(ref: nat)

  /** One monitored connection. */
  datatype Entry = Entry(pc: nat, connectionId: string, remote: Option<bool>)

  type Connections = map<string, Entry>

  /** `peers` is `_connectionsToMonitor`, `order` its keys in insertion order,
      `polling` whether the stats interval is set. */
  datatype Monitor = Monitor(peers: map<string, Connections>, order: seq<string>, remote: Option<bool>, polling: bool)

  datatype Effect = PollingStarted

  predicate Distinct(xs: seq<string>) {
    forall i, j :: 0 <= i < j < |xs| ==> xs[i] != xs[j]
  }

  /** `order` lists the monitored peers once each, every entry sits under its own
      id, and polling is on whenever some peer is monitored. */
  ghost predicate Valid(m: Monitor) {
    && Distinct(m.order)
    && (forall p :: p in m.peers <==> p in m.order)
    && (forall p, c :: p in m.peers && c in m.peers[p] ==> m.peers[p][c].connectionId == c)
    && (m.peers != map[] ==> m.polling)
  }

  /** The constructor: nothing monitored, no polling. */
  function New(remote: Option<bool>): (m: Monitor)
    ensures Valid(m) && m.peers == map[] && !m.polling
  {
    Monitor(map[], [], remote, false)
  }

  function Drop(order: seq<string>, p: string): (r: seq<string>)
    ensures forall q :: q in r <==> q in order && q != p
    ensures Distinct(order) ==> Distinct(r)
  {
    if |order| == 0 then []
    else if order[0] == p then Drop(order[1..], p)
    else
      var rest := Drop(order[1..], p);
      assert Distinct(order) ==> order[0] !in rest;
      [order[0]] + rest
  }

  lemma {:induction false} DistinctCount(xs: seq<string>)
    requires Distinct(xs)
    ensures |set x | x in xs| == |xs|
  {
    if |xs| > 0 {
      DistinctCount(xs[1..]);
      assert (set x | x in xs) == {xs[0]} + (set x | x in xs[1..]);
      assert xs[0] !in (set x | x in xs[1..]);
    }
  }

  /** `numberOfMonitoredPeers`: the length of the key list, which is the number of
      peers (not of connections). */
  function NumberOfMonitoredPeers(m: Monitor): (n: nat)
    requires Valid(m)
    ensures n == |m.peers|
  {
    DistinctCount(m.order);
    assert m.peers.Keys == set x | x in m.order;
    |m.order|
  }

  /** The argument checks of `addConnection`, in source order. */
  function CheckAddArguments(pc: PcArg, peerId: Option<string>): (r: Option<string>)
    ensures r.None? <==> pc.Rtc? && Truthy(peerId)
  {
    if !pc.Rtc? then Some(MISSING_PC)
    else if !Truthy(peerId) then Some(MISSING_PEER_ID)
    else None
  }

  /** `_monitorPc`, as the corrected `addConnection` reaches it: a new peer gets an
      inner map holding just this connection; a known connection id is left alone;
      polling starts when exactly one peer is monitored and it is not on yet. */
  function MonitorPc(m: Monitor, p: string, e: Entry): (r: (Monitor, seq<Effect>))
    ensures r.0.remote == m.remote
    ensures p in r.0.peers && e.connectionId in r.0.peers[p]
    ensures p !in m.peers ==> r.0.peers == m.peers[p := map[e.connectionId := e]] && r.0.order == m.order + [p]
    ensures p in m.peers && e.connectionId !in m.peers[p] ==>
              r.0.peers == m.peers[p := m.peers[p][e.connectionId := e]] && r.0.order == m.order
    ensures p in m.peers && e.connectionId in m.peers[p] ==> r == (m, [])
    ensures r.1 == [PollingStarted] <==> !m.polling && r.0.polling
    ensures r.1 == [] || r.1 == [PollingStarted]
    ensures r.0.polling <==> m.polling || (r.0 != m && |r.0.peers| == 1)
  {
    if p in m.peers && e.connectionId in m.peers[p] then (m, [])
    else
      var m1 :=
        if p in m.peers then m.(peers := m.peers[p := m.peers[p][e.connectionId := e]])
        else m.(peers := m.peers[p := map[e.connectionId := e]], order := m.order + [p]);
      assert m1 != m by {
        if p in m.peers { assert e.connectionId in m1.peers[p]; } else { assert p in m1.peers; }
      }
      if |m1.peers| == 1 && !m.polling then (m1.(polling := true), [PollingStarted])
      else (m1, [])
  }

  /** The connection id used: the one given when truthy, else a fresh uuid. */
  function ConnectionIdFor(connectionId: Option<string>, uuid: string): string {
    if Truthy(connectionId) then connectionId.value else uuid
  }

  /** The `remote` flag of a new entry: the argument when it is a boolean, else the
      monitor's own. */
  function RemoteFor(m: Monitor, remote: Option<bool>): Option<bool> {
    if remote.Some? then remote else m.remote
  }

  /** `addConnection(options)` as written: for a peer that is already monitored,
      either the connection id is known, or the `for ... of` over a plain object
      throws, so a second connection is never added. */
  function AddConnectionAsWritten(m: Monitor, pc: PcArg, peerId: Option<string>, connectionId: Option<string>,
                                  remote: Option<bool>, uuid: string): (r: (Monitor, Result<string, string>, seq<Effect>))
    ensures r.1.Success? <==> pc.Rtc? && Truthy(peerId) && peerId.value !in m.peers
    ensures r.1.Failure? ==> r.0 == m && r.2 == []
    ensures r.1.Success? ==>
      && r.1.value == ConnectionIdFor(connectionId, uuid)
      && r.0.peers == m.peers[peerId.value := map[r.1.value := Entry(pc.ref, r.1.value, RemoteFor(m, remote))]]
  {
    match CheckAddArguments(pc, peerId)
    case Some(error) => (m, Failure(error), [])
    case None =>
      var p := peerId.value;
      if p in m.peers then
        if Truthy(connectionId) && connectionId.value in m.peers[p] then
          (m, Failure(AlreadyMonitoringConnection(connectionId.value)), [])
        else (m, Failure(NOT_ITERABLE), [])
      else
        var id := ConnectionIdFor(connectionId, uuid);
        var (m1, effects) := MonitorPc(m, p, Entry(pc.ref, id, RemoteFor(m, remote)));
        (m1, Success(id), effects)
  }

  /** A second connection for the same peer is rejected by the code as written. */
  lemma SecondConnectionRejected()
    ensures
      var first := AddConnectionAsWritten(New(None), Rtc(1), Some("alice"), None, None, "c1");
      var second := AddConnectionAsWritten(first.0, Rtc(2), Some("alice"), None, None, "c2");
      first.1 == Success("c1") && second.1 == Failure(NOT_ITERABLE)
  {
  }

  /** The monitored connections of a peer whose connection is not closed. */
  function DropClosed(conns: Connections, closed: nat -> bool): (r: Connections)
    ensures forall c :: c in r <==> c in conns && !closed(conns[c].pc)
    ensures forall c :: c in r ==> r[c] == conns[c]
  {
    map c | c in conns && !closed(conns[c].pc) :: conns[c]
  }

  predicate MonitorsPc(conns: Connections, pc: nat) {
    exists c :: c in conns && conns[c].pc == pc
  }

  /** `addConnection(options)` as its loop evidently intends: for a monitored peer, a
      known connection id or the same peer connection is rejected, connections
      already closed (`closed`) are dropped, and the new connection is added. A
      generated id that happens to be monitored already is left as it was, as
      `_monitorPc` does. Two choices of this correction: a peer whose connections are
      all closed keeps its place in the key order (removing them through
      `removeConnection` and re-adding through `_monitorPc` would move it to the end),
      and a rejection for a peer connection already monitored drops nothing, not even
      the closed connections visited before the matching one. */
  function AddConnection(m: Monitor, pc: PcArg, peerId: Option<string>, connectionId: Option<string>,
                         remote: Option<bool>, uuid: string, closed: nat -> bool): (r: (Monitor, Result<string, string>, seq<Effect>))
    ensures r.1.Success? <==>
      && pc.Rtc? && Truthy(peerId)
      && (peerId.value in m.peers ==>
            && !(Truthy(connectionId) && connectionId.value in m.peers[peerId.value])
            && !MonitorsPc(m.peers[peerId.value], pc.ref))
    ensures r.1.Failure? ==> r.0 == m && r.2 == []
    ensures r.1.Success? ==>
      var p := peerId.value;
      && r.1.value == ConnectionIdFor(connectionId, uuid)
      && p in r.0.peers && r.1.value in r.0.peers[p]
      && (forall c :: c in r.0.peers[p] <==>
            c == r.1.value || (p in m.peers && c in m.peers[p] && !closed(m.peers[p][c].pc)))
      && (forall c :: c in r.0.peers[p] && c != r.1.value ==> r.0.peers[p][c] == m.peers[p][c])
      && r.0.peers[p][r.1.value] ==
           (if p in m.peers && r.1.value in m.peers[p] && !closed(m.peers[p][r.1.value].pc)
            then m.peers[p][r.1.value]
            else Entry(pc.ref, r.1.value, RemoteFor(m, remote)))
      && (forall q :: q != p ==> (q in r.0.peers <==> q in m.peers))
      && (forall q :: q != p && q in m.peers ==> r.0.peers[q] == m.peers[q])
  {
    match CheckAddArguments(pc, peerId)
    case Some(error) => (m, Failure(error), [])
    case None =>
      var p := peerId.value;
      if p in m.peers && Truthy(connectionId) && connectionId.value in m.peers[p] then
        (m, Failure(AlreadyMonitoringConnection(connectionId.value)), [])
      else if p in m.peers && MonitorsPc(m.peers[p], pc.ref) then
        (m, Failure(AlreadyMonitoringPeer(p)), [])
      else
        var m1 := if p in m.peers then m.(peers := m.peers[p := DropClosed(m.peers[p], closed)]) else m;
        var id := ConnectionIdFor(connectionId, uuid);
        var e := Entry(pc.ref, id, RemoteFor(m, remote));
        var (m2, effects) := MonitorPc(m1, p, e);
        (m2, Success(id), effects)
  }

  /** With the corrected loop, a second connection for the same peer is monitored next
      to the first. */
  lemma SecondConnectionAdded()
    ensures
      var never := (pc: nat) => false;
      var first := AddConnection(New(None), Rtc(1), Some("alice"), None, None, "c1", never);
      var second := AddConnection(first.0, Rtc(2), Some("alice"), None, None, "c2", never);
      && first.1 == Success("c1") && first.2 == [PollingStarted]
      && second.1 == Success("c2") && second.2 == []
      && second.0.peers["alice"].Keys == {"c1", "c2"}
  {
    var never := (pc: nat) => false;
    var first := AddConnection(New(None), Rtc(1), Some("alice"), None, None, "c1", never);
    assert first.0.peers == map["alice" := map["c1" := Entry(1, "c1", None)]];
    assert !MonitorsPc(first.0.peers["alice"], 2);
  }

  /** A connection whose peer connection has closed is dropped when another
      connection is added for its peer; an open one stays. */
  lemma ClosedConnectionDropped()
    ensures
      var onlyFirstClosed := (pc: nat) => pc == 1;
      var first := AddConnection(New(None), Rtc(1), Some("alice"), None, None, "c1", onlyFirstClosed);
      var second := AddConnection(first.0, Rtc(2), Some("alice"), None, None, "c2", onlyFirstClosed);
      var third := AddConnection(second.0, Rtc(3), Some("alice"), None, None, "c3", onlyFirstClosed);
      && second.1 == Success("c2") && second.0.peers["alice"].Keys == {"c2"}
      && third.1 == Success("c3") && third.0.peers["alice"].Keys == {"c2", "c3"}
  {
    var onlyFirstClosed := (pc: nat) => pc == 1;
    AddForNewPeer(New(None), 1, "alice", None, "c1", onlyFirstClosed);
    var first := AddConnection(New(None), Rtc(1), Some("alice"), None, None, "c1", onlyFirstClosed);
    assert first.0.peers["alice"] == map["c1" := Entry(1, "c1", None)];
    assert !MonitorsPc(first.0.peers["alice"], 2);
    AddForKnownPeer(first.0, 2, "alice", "c2", onlyFirstClosed);
    assert DropClosed(first.0.peers["alice"], onlyFirstClosed) == map[];
    var second := AddConnection(first.0, Rtc(2), Some("alice"), None, None, "c2", onlyFirstClosed);
    assert second.0.peers["alice"] == map["c2" := Entry(2, "c2", None)];
    assert !MonitorsPc(second.0.peers["alice"], 3);
    AddForKnownPeer(second.0, 3, "alice", "c3", onlyFirstClosed);
    assert DropClosed(second.0.peers["alice"], onlyFirstClosed) == second.0.peers["alice"];
  }

  /** Adding a connection under a new id for a monitored peer, on a peer connection
      the peer does not use yet, keeps the peer's open connections and adds the new one. */
  lemma AddForKnownPeer(m: Monitor, pc: nat, peerId: string, uuid: string, closed: nat -> bool)
    requires peerId != "" && peerId in m.peers && uuid !in m.peers[peerId] && !MonitorsPc(m.peers[peerId], pc)
    ensures
      var r := AddConnection(m, Rtc(pc), Some(peerId), None, None, uuid, closed);
      && r.1 == Success(uuid)
      && r.0.peers[peerId] == DropClosed(m.peers[peerId], closed)[uuid := Entry(pc, uuid, m.remote)]
  {
    var r := AddConnection(m, Rtc(pc), Some(peerId), None, None, uuid, closed);
    var want := DropClosed(m.peers[peerId], closed)[uuid := Entry(pc, uuid, m.remote)];
    assert r.0.peers[peerId].Keys == want.Keys;
  }

  /** Adding keeps the monitor's invariant, and polling is started at most once. */
  lemma AddConnectionValid(m: Monitor, pc: PcArg, peerId: Option<string>, connectionId: Option<string>,
                           remote: Option<bool>, uuid: string, closed: nat -> bool)
    requires Valid(m)
    ensures Valid(AddConnection(m, pc, peerId, connectionId, remote, uuid, closed).0)
    ensures m.polling ==> AddConnection(m, pc, peerId, connectionId, remote, uuid, closed).2 == []
  {
    var r := AddConnection(m, pc, peerId, connectionId, remote, uuid, closed);
    if r.1.Success? {
      var p := peerId.value;
      var m1 := if p in m.peers then m.(peers := m.peers[p := DropClosed(m.peers[p], closed)]) else m;
      assert Valid(m1);
      if p !in m1.peers {
        assert p !in m1.order;
      }
    }
  }

  /** The peers holding `connectionId`, the last in key order, if any. */
  function LastHolding(order: seq<string>, peers: map<string, Connections>, connectionId: string): (r: Option<string>)
    ensures r.Some? ==> r.value in order && r.value in peers && connectionId in peers[r.value]
    ensures r.None? ==> forall p :: p in order && p in peers ==> connectionId !in peers[p]
  {
    if |order| == 0 then None
    else
      var last := order[|order| - 1];
      if last in peers && connectionId in peers[last] then Some(last)
      else
        var r := LastHolding(order[..|order| - 1], peers, connectionId);
        assert forall p :: p in order ==> p in order[..|order| - 1] || p == last;
        r
  }

  /** A property key from an optional string: `undefined` becomes "undefined". */
  function PropertyKey(s: Option<string>): string {
    s.GetOr("undefined")
  }

  /** The peer whose inner map `removeConnection` checks at the end: with a connection
      id, the last peer (in key order) that held it, or the `peerId` given when none
      did; otherwise the `peerId` given. */
  function CheckedPeer(m: Monitor, peerId: Option<string>, connectionId: Option<string>): (p: string)
    ensures Truthy(connectionId) && (exists q :: q in m.order && q in m.peers && connectionId.value in m.peers[q]) ==>
              p in m.peers && connectionId.value in m.peers[p]
    ensures !Truthy(connectionId) || (forall q :: q in m.order && q in m.peers ==> connectionId.value !in m.peers[q]) ==>
              p == PropertyKey(peerId)
  {
    if Truthy(connectionId) then
      match LastHolding(m.order, m.peers, connectionId.value)
      case Some(q) => q
      case None => PropertyKey(peerId)
    else PropertyKey(peerId)
  }

  /** `connectionId` removed from every peer. */
  function DeleteEverywhere(peers: map<string, Connections>, connectionId: string): (r: map<string, Connections>)
    ensures r.Keys == peers.Keys
    ensures forall p :: p in r ==> r[p] == peers[p] - {connectionId}
  {
    map p | p in peers :: peers[p] - {connectionId}
  }

  /** The connections of `conns` on another peer connection than `pc`. */
  function DeletePc(conns: Connections, pc: PcArg): (r: Connections)
    ensures forall c :: c in r <==> c in conns && pc != Rtc(conns[c].pc)
    ensures forall c :: c in r ==> r[c] == conns[c]
  {
    map c | c in conns && pc != Rtc(conns[c].pc) :: conns[c]
  }

  /** `removeConnection(options)`, with the listeners of a removed connection taken
      off its own stored peer connection (the corrected form of
      `RemoveConnectionAsWritten`). With a connection id, that id is deleted from every
      peer and the peer checked afterwards is the last that held it (or the `peerId`
      given); otherwise the connections on `pc` are deleted from `peerId`. The checked
      peer is then dropped when empty, and a checked peer that is not monitored
      throws after the deletions. */
  function RemoveConnection(m: Monitor, peerId: Option<string>, connectionId: Option<string>, pc: PcArg): (r: (Monitor, Option<string>))
    ensures !Truthy(peerId) && pc.NoPc? && !Truthy(connectionId) ==> r == (m, Some(MISSING_ARGUMENTS))
    ensures (Truthy(peerId) || !pc.NoPc? || Truthy(connectionId)) && (Truthy(peerId) != !pc.NoPc?) ==>
              r == (m, Some(NEED_PEER_AND_PC))
    ensures r.0.remote == m.remote && r.0.polling == m.polling
    ensures Truthy(connectionId) && (Truthy(peerId) == !pc.NoPc?) ==>
      forall p :: p in r.0.peers ==> connectionId.value !in r.0.peers[p]
    ensures Truthy(connectionId) && (Truthy(peerId) == !pc.NoPc?) ==>
      forall p :: p in r.0.peers ==> p in m.peers && r.0.peers[p] == m.peers[p] - {connectionId.value}
    ensures Truthy(connectionId) && (Truthy(peerId) == !pc.NoPc?) ==>
      forall p :: p in m.peers && p != CheckedPeer(m, peerId, connectionId) ==> p in r.0.peers
    ensures Truthy(connectionId) && (Truthy(peerId) == !pc.NoPc?) ==>
      var t := CheckedPeer(m, peerId, connectionId);
      && (t in r.0.peers <==> t in m.peers && m.peers[t] - {connectionId.value} != map[])
      && (r.1.None? <==> t in m.peers)
      && (r.1.Some? ==> r.1 == Some(NO_SUCH_PEER))
    ensures !Truthy(connectionId) && Truthy(peerId) && !pc.NoPc? && peerId.value !in m.peers ==>
      r == (m, Some(NO_SUCH_PEER))
    ensures !Truthy(connectionId) && Truthy(peerId) && !pc.NoPc? && peerId.value in m.peers ==>
      var p := peerId.value;
      var left := DeletePc(m.peers[p], pc);
      && r.1.None?
      && (forall q :: q != p ==> (q in r.0.peers <==> q in m.peers))
      && (forall q :: q != p && q in m.peers ==> r.0.peers[q] == m.peers[q])
      && (p in r.0.peers <==> left != map[])
      && (p in r.0.peers ==> r.0.peers[p] == left)
  {
    if !Truthy(peerId) && pc.NoPc? && !Truthy(connectionId) then (m, Some(MISSING_ARGUMENTS))
    else if Truthy(peerId) != !pc.NoPc? then (m, Some(NEED_PEER_AND_PC))
    else
      var peers :=
        if Truthy(connectionId) then DeleteEverywhere(m.peers, connectionId.value)
        else if peerId.value in m.peers then m.peers[peerId.value := DeletePc(m.peers[peerId.value], pc)]
        else m.peers;
      var target := CheckedPeer(m, peerId, connectionId);
      if target !in peers then (m.(peers := peers), Some(NO_SUCH_PEER))
      else if peers[target] == map[] then (m.(peers := peers - {target}, order := Drop(m.order, target)), None)
      else (m.(peers := peers), None)
  }

  /** Removing by peer and pc deletes exactly that peer's connections on `pc`, drops
      the peer once it is empty, and leaves every other peer alone. */
  lemma RemoveByPc(m: Monitor, peerId: string, pc: nat)
    requires peerId != "" && peerId in m.peers
    ensures
      var r := RemoveConnection(m, Some(peerId), None, Rtc(pc));
      && r.1.None?
      && (forall q :: q != peerId ==> (q in r.0.peers <==> q in m.peers))
      && (forall q :: q != peerId && q in m.peers ==> r.0.peers[q] == m.peers[q])
      && (peerId in r.0.peers <==> MonitorsPcOtherThan(m.peers[peerId], pc))
      && (peerId in r.0.peers ==> forall c :: c in r.0.peers[peerId] <==> c in m.peers[peerId] && m.peers[peerId][c].pc != pc)
  {
    var r := RemoveConnection(m, Some(peerId), None, Rtc(pc));
    var left := DeletePc(m.peers[peerId], Rtc(pc));
    if MonitorsPcOtherThan(m.peers[peerId], pc) {
      var c :| c in m.peers[peerId] && m.peers[peerId][c].pc != pc;
      assert c in left;
    } else {
      assert left == map[];
    }
  }

  predicate MonitorsPcOtherThan(conns: Connections, pc: nat) {
    exists c :: c in conns && conns[c].pc != pc
  }

  /** Removing keeps the monitor's invariant. */
  lemma RemoveConnectionValid(m: Monitor, peerId: Option<string>, connectionId: Option<string>, pc: PcArg)
    requires Valid(m)
    ensures Valid(RemoveConnection(m, peerId, connectionId, pc).0)
  {
    var r := RemoveConnection(m, peerId, connectionId, pc);
    if r.0.peers != map[] {
      assert m.peers != map[] by {
        var p :| p in r.0.peers;
      }
    }
  }

  /** Removing a connection's listeners through an undefined `pc`. */
  const NO_PC_TO_UNLISTEN := "TypeError: Cannot read properties of undefined (reading 'removeEventListener')"

  /** `removeConnection(options)` as written. `listening` is the module-wide listener
      table's connection ids. With a connection id, the loop removes the listeners of
      each peer holding it through the `pc` argument before deleting the id; when the
      id's listeners are registered and `pc` is not a peer connection, the first
      holder throws before anything is deleted. Past that point the removal is the
      corrected one, since the id's listeners are gone after the first holder. */
  function RemoveConnectionAsWritten(m: Monitor, peerId: Option<string>, connectionId: Option<string>, pc: PcArg,
                                     listening: set<string>): (r: (Monitor, Option<string>))
    ensures Truthy(connectionId) && Truthy(peerId) == !pc.NoPc? && !pc.Rtc? && connectionId.value in listening
            && (exists p :: p in m.order && p in m.peers && connectionId.value in m.peers[p]) ==>
              r == (m, Some(NO_PC_TO_UNLISTEN))
    ensures !(Truthy(connectionId) && Truthy(peerId) == !pc.NoPc? && !pc.Rtc? && connectionId.value in listening
              && (exists p :: p in m.order && p in m.peers && connectionId.value in m.peers[p])) ==>
              r == RemoveConnection(m, peerId, connectionId, pc)
  {
    if Truthy(connectionId) && Truthy(peerId) == !pc.NoPc? && !pc.Rtc? && connectionId.value in listening
       && LastHolding(m.order, m.peers, connectionId.value).Some?
    then (m, Some(NO_PC_TO_UNLISTEN))
    else RemoveConnection(m, peerId, connectionId, pc)
  }

  /** Removing by connection id alone, as documented, throws for a connection that
      `addConnection` registered, and the connection stays monitored; the corrected
      removal deletes it and its then empty peer. */
  lemma RemoveByIdOnlyThrows()
    ensures
      var never := (pc: nat) => false;
      var added := AddConnection(New(None), Rtc(1), Some("alice"), None, None, "c1", never).0;
      && RemoveConnectionAsWritten(added, None, Some("c1"), NoPc, {"c1"}) == (added, Some(NO_PC_TO_UNLISTEN))
      && "c1" in added.peers["alice"]
      && RemoveConnection(added, None, Some("c1"), NoPc) == (added.(peers := map[], order := []), None)
  {
    var never := (pc: nat) => false;
    AddForNewPeer(New(None), 1, "alice", None, "c1", never);
    var added := AddConnection(New(None), Rtc(1), Some("alice"), None, None, "c1", never).0;
    assert LastHolding(added.order, added.peers, "c1") == Some("alice");
    RemoveSoleConnection(added, map[], [], "alice", "c1", Entry(1, "c1", None));
  }

  /** Corrected removal by connection id undoes an add: adding a connection for a new
      peer under an id no other peer holds, then removing that id, gives back the
      peers and their order. */
  lemma AddThenRemoveById(m: Monitor, pc: nat, peerId: string, id: string, uuid: string, closed: nat -> bool)
    requires Valid(m) && peerId != "" && peerId !in m.peers && id != ""
    requires forall q :: q in m.peers ==> id !in m.peers[q]
    ensures
      var added := AddConnection(m, Rtc(pc), Some(peerId), Some(id), None, uuid, closed).0;
      var r := RemoveConnection(added, None, Some(id), NoPc);
      r.1.None? && r.0.peers == m.peers && r.0.order == m.order
  {
    AddForNewPeer(m, pc, peerId, Some(id), uuid, closed);
    var added := AddConnection(m, Rtc(pc), Some(peerId), Some(id), None, uuid, closed).0;
    RemoveSoleConnection(added, m.peers, m.order, peerId, id, Entry(pc, id, m.remote));
  }

  /** Adding a connection for a peer not monitored yet records just that connection
      and appends the peer to the order. */
  lemma AddForNewPeer(m: Monitor, pc: nat, peerId: string, connectionId: Option<string>, uuid: string, closed: nat -> bool)
    requires peerId != "" && peerId !in m.peers
    ensures
      var r := AddConnection(m, Rtc(pc), Some(peerId), connectionId, None, uuid, closed);
      var id := ConnectionIdFor(connectionId, uuid);
      && r.1 == Success(id)
      && r.0.peers == m.peers[peerId := map[id := Entry(pc, id, m.remote)]]
      && r.0.order == m.order + [peerId]
  {
    var id := ConnectionIdFor(connectionId, uuid);
    assert AddConnection(m, Rtc(pc), Some(peerId), connectionId, None, uuid, closed).0
           == MonitorPc(m, peerId, Entry(pc, id, m.remote)).0;
  }

  /** Removing by id the sole connection of the last peer in the order, when no other
      peer holds that id, drops exactly that peer. */
  lemma RemoveSoleConnection(m: Monitor, peers: map<string, Connections>, order: seq<string>,
                             peerId: string, id: string, e: Entry)
    requires id != "" && peerId !in peers && peerId !in order
    requires forall q :: q in peers ==> id !in peers[q]
    requires m.peers == peers[peerId := map[id := e]] && m.order == order + [peerId]
    ensures
      var r := RemoveConnection(m, None, Some(id), NoPc);
      r.1.None? && r.0.peers == peers && r.0.order == order
  {
    assert LastHolding(m.order, m.peers, id) == Some(peerId);
    var left := DeleteEverywhere(m.peers, id);
    assert left - {peerId} == peers by {
      forall q | q in peers ensures (left - {peerId})[q] == peers[q] {
        assert peers[q] - {id} == peers[q];
      }
    }
    assert left[peerId] == map[];
    DropAbsentAppend(order, peerId);
  }

  /** `removePeer(id)` as written: a peer with connections reaches the loop that reads
      through the undefined `peersToMonitor` and throws before deleting anything, so
      only a peer whose inner map is already empty is removed. */
  function RemovePeerAsWritten(m: Monitor, id: string): (r: (Monitor, Option<string>))
    ensures id !in m.peers ==> r == (m, None)
    ensures id in m.peers && m.peers[id] != map[] ==> r == (m, Some(NO_PEERS_TO_MONITOR))
    ensures id in m.peers && m.peers[id] == map[] ==> r.1.None? && r.0.peers == m.peers - {id}
  {
    if id !in m.peers then (m, None)
    else if m.peers[id] != map[] then (m, Some(NO_PEERS_TO_MONITOR))
    else (m.(peers := m.peers - {id}, order := Drop(m.order, id)), None)
  }

  /** A monitored peer cannot be removed by the code as written. */
  lemma RemovePeerKeepsMonitoredPeer()
    ensures
      var added := AddConnectionAsWritten(New(None), Rtc(1), Some("alice"), None, None, "c1").0;
      var r := RemovePeerAsWritten(added, "alice");
      r.1 == Some(NO_PEERS_TO_MONITOR) && "alice" in r.0.peers
  {
  }

  /** `removePeer(id)` as evidently intended: an unmonitored id is a no-op, and a
      monitored peer is deleted with all its connections. */
  function RemovePeer(m: Monitor, id: string): (r: Monitor)
    ensures id !in m.peers ==> r == m
    ensures r.peers == m.peers - {id}
    ensures r.remote == m.remote && r.polling == m.polling
  {
    if id !in m.peers then m
    else m.(peers := m.peers - {id}, order := Drop(m.order, id))
  }

  /** Adding a connection for a new peer and then removing that peer gives back the
      peers and their order. */
  lemma AddThenRemovePeer(m: Monitor, pc: nat, peerId: string, uuid: string, closed: nat -> bool)
    requires Valid(m) && peerId != "" && peerId !in m.peers
    ensures
      var added := AddConnection(m, Rtc(pc), Some(peerId), None, None, uuid, closed).0;
      RemovePeer(added, peerId).peers == m.peers && RemovePeer(added, peerId).order == m.order
  {
    var added := AddConnection(m, Rtc(pc), Some(peerId), None, None, uuid, closed).0;
    assert added.order == m.order + [peerId];
    assert peerId !in m.order;
    DropAbsentAppend(m.order, peerId);
  }

  lemma {:induction false} DropAbsentAppend(order: seq<string>, p: string)
    requires p !in order
    ensures Drop(order + [p], p) == order
  {
    if |order| > 0 {
      assert (order + [p])[1..] == order[1..] + [p];
      DropAbsentAppend(order[1..], p);
    }
  }

  /** Removing a peer keeps the monitor's invariant. */
  lemma RemovePeerValid(m: Monitor, id: string)
    requires Valid(m)
    ensures Valid(RemovePeer(m, id))
  {
  }

  // ---------------------------------------------------------------------------
  // _filteroutStats

  /** A stats report entry; only its `type` is read. */
  datatype Stat = Stat(kind: Option<string>, fields: Json)

  predicate Monitored(s: Stat) {
    s.kind.Some? && s.kind.value in STATS_TO_MONITOR
  }

  /** The entries of a report whose type is monitored, in report order. */
  function KeepMonitored(stats: seq<(string, Stat)>): (r: seq<(string, Stat)>)
    ensures forall x :: x in r <==> x in stats && Monitored(x.1)
    ensures |r| <= |stats|
  {
    if |stats| == 0 then []
    else
      var last := stats[|stats| - 1];
      var prefix := stats[..|stats| - 1];
      assert forall x :: x in stats <==> x in prefix || x == last;
      KeepMonitored(prefix) + if Monitored(last.1) then [last] else []
  }

  /** `_filteroutStats(stats)`: a copy of the report holding exactly the monitored
      entries; the report itself is a value and stays as it was. */
  method FilterOutStats(stats: seq<(string, Stat)>) returns (r: seq<(string, Stat)>)
    ensures r == KeepMonitored(stats)
    ensures forall x :: x in r <==> x in stats && Monitored(x.1)
  {
    r := [];
    var i := 0;
    while i < |stats|
      invariant 0 <= i <= |stats|
      invariant r == KeepMonitored(stats[..i])
    {
      assert stats[..i + 1][..i] == stats[..i];
      if Monitored(stats[i].1) {
        r := r + [stats[i]];
      }
      i := i + 1;
    }
    assert stats[..i] == stats;
  }
}

=== FILE: text.dfy ===
/** The JavaScript string operations the client relies on: `indexOf` for one
    character and for a substring, ASCII case-insensitive matching (the `i` flag of
    a regular expression), and `trim`. */
module Text {

  /** `s.indexOf(c)`: the position of the first `c` in `s`, or -1. */
  function IndexOf(s: string, c: char): (r: int)
    ensures -1 <= r < |s|
    ensures r == -1 <==> c !in s
    ensures 0 <= r ==> s[r] == c && c !in s[..r]
  {
    if |s| == 0 then -1
    else if s[0] == c then 0
    else
      var k := IndexOf(s[1..], c);
      assert s[1..][..if k < 0 then 0 else k] == s[1..if k < 0 then 1 else k + 1];
      if k == -1 then -1 else k + 1
  }

  /** `t` occurs in `s` starting at position `i`. */
  ghost predicate OccursAt(s: string, i: int, t: string) {
    0 <= i && i + |t| <= |s| && s[i..i + |t|] == t
  }

  /** `s.indexOf(t) !== -1`. */
  function Contains(s: string, t: string): (r: bool)
    ensures r <==> exists i :: OccursAt(s, i, t)
    decreases |s|
  {
    if t <= s then
      assert OccursAt(s, 0, t);
      true
    else if |s| == 0 then
      assert forall i :: !OccursAt(s, i, t);
      false
    else
      var r := Contains(s[1..], t);
      ShiftOccurrence(s, t);
      r
  }

  /** An occurrence in `s` other than at 0 is an occurrence in `s[1..]`, one place earlier. */
  lemma ShiftOccurrence(s: string, t: string)
    requires |s| > 0 && !(t <= s)
    ensures (exists i :: OccursAt(s, i, t)) <==> (exists j :: OccursAt(s[1..], j, t))
  {
    assert !OccursAt(s, 0, t);
    forall i | OccursAt(s, i, t)
      ensures OccursAt(s[1..], i - 1, t)
    {
      assert s[1..][i - 1..i - 1 + |t|] == s[i..i + |t|];
    }
    forall j | OccursAt(s[1..], j, t)
      ensures OccursAt(s, j + 1, t)
    {
      assert s[1..][j..j + |t|] == s[j + 1..j + 1 + |t|];
    }
  }

  /** ASCII upper-casing, the canonicalisation a non-unicode `i` regular expression uses
      for the letters of the PGP armour markers. */
  function Upper(c: char): char {
    if 'a' <= c <= 'z' then (c as int - 32) as char else c
  }

  /** `t` occurs at `i` in `s`, ignoring ASCII letter case. */
  predicate MatchesAtCI(s: string, i: nat, t: string) {
    i + |t| <= |s| && forall k :: 0 <= k < |t| ==> Upper(s[i + k]) == Upper(t[k])
  }

  /** JavaScript's WhiteSpace and LineTerminator characters, which `trim` strips. */
  predicate IsSpace(c: char) {
    var n := c as int;
    (0x09 <= n <= 0x0D) || n == 0x20 || n == 0xA0 || n == 0x1680
    || (0x2000 <= n <= 0x200A) || n == 0x2028 || n == 0x2029 || n == 0x202F
    || n == 0x205F || n == 0x3000 || n == 0xFEFF
  }

  /** Number of leading spaces of `s`. */
  function LeadingSpaces(s: string): (n: nat)
    ensures n <= |s|
    ensures forall k :: 0 <= k < n ==> IsSpace(s[k])
    ensures n < |s| ==> !IsSpace(s[n])
  {
    if |s| == 0 || !IsSpace(s[0]) then 0 else 1 + LeadingSpaces(s[1..])
  }

  /** Number of trailing spaces of `s`. */
  function TrailingSpaces(s: string): (n: nat)
    ensures n <= |s|
    ensures forall k :: |s| - n <= k < |s| ==> IsSpace(s[k])
    ensures n < |s| ==> !IsSpace(s[|s| - n - 1])
  {
    if |s| == 0 || !IsSpace(s[|s| - 1]) then 0 else 1 + TrailingSpaces(s[..|s| - 1])
  }

  /** `s.trim()`: `s` without its leading and trailing white space. */
  function Trim(s: string): (r: string)
    ensures exists i, j ::
              && 0 <= i <= j <= |s| && r == s[i..j]
              && (forall k :: 0 <= k < i ==> IsSpace(s[k]))
              && (forall k :: j <= k < |s| ==> IsSpace(s[k]))
    ensures |r| > 0 ==> !IsSpace(r[0]) && !IsSpace(r[|r| - 1])
  {
    var i := LeadingSpaces(s);
    var rest := s[i..];
    var n := TrailingSpaces(rest);
    var j := i + |rest| - n;
    assert rest[..|rest| - n] == s[i..j];
    assert forall k :: j <= k < |s| ==> s[k] == rest[k - i];
    s[i..j]
  }
}
